=== FILE: README.md ===
# Knowledge-graph explorer: the graph logic, in Dafny

The repository is a React front end for a knowledge graph of entities (countries,
organisations, people, laws, concepts) joined by co-occurrence and typed
relationship edges. Three components share one layer of pure graph logic that
sits between the data and the renderer, and that layer is what this project
models:

- the curated explorer (`shinri_knowledge_graph_explorer_react.jsx`);
- the loaded-data explorer (`src/KnowledgeGraphExplorer.jsx`);
- the Sigma viewer (`src/App.jsx`).

The modules follow that logic:

| module | what it models |
|---|---|
| `Graph` | nodes, edges, the `{ nodes, edges }` pair passed between stages, and referential closure |
| `KHop` | `buildAdjacency` and `kHopSubgraph`: bounded breadth-first expansion from a centre id in both direction dialects |
| `Topo` | `topoSort`: Kahn's algorithm with a queue re-sorted after every push, and the sorted remainder appended when there is a cycle |
| `Layers` | `computeLayers`: longest-path layering relaxed in topological order |
| `Layout` | `layoutDAG` (positions only): layer buckets, sorted, on an integer grid |
| `Csv` | `parseCSV`: a header line and comma-split, trimmed cells |
| `Ingest` | the label-to-id index, `toEdge` and the App's insertion guards, and the list of relation types |
| `Filters` | the two `filtered` pipelines: polarity or relation-type toggles, thresholds, k-hop, search |
| `Sigma` | the App's edge visibility shared by `edgeReducer` and `countEdges`, `switchMode`, `toggleRelType`, `relColor` |
| `Strings`, `Seqs`, `Wrappers` | what JavaScript supplies: default `sort()`, `trim()`, `split`/`join`, `includes`, `parseInt`, and `Array.filter` |

The design choices are these:

- **Reachability.** `kHopSubgraph` is stated against an independent definition: a walk of at most `hops` permitted steps from the centre.
- **Topological order.** `topoSort` is a loop method proved equal to a reference Kahn order. That reference always takes the least ready id. Completeness of Kahn's order is proved equivalent to the existence of a topological numbering.
- **Layers.** `computeLayers` is proved to give the unique longest-path layering on every acyclic graph.
- **Parsing.** `parseCSV` is proved to read back every well-formed table written by a matching renderer.
- **Edge construction.** `toEdge` is proved to turn back into the edge it was written from.

JavaScript semantics are written out wherever they matter:

- the default `sort()` is lexicographic order on characters;
- `trim()` removes the ECMAScript whitespace and line-terminator code points;
- `parseInt(s) || 0` is `ParseIntOrZero`, including its sign handling and the fallback for `NaN`;
- a missing CSV column used as a property name reads as `"undefined"`.

The graph algorithms appear again in the explorer at `src/KnowledgeGraphExplorer.jsx:80-174`. That copy is the shinri one with different constants (`Layout.ExplorerSpacing`) and a different direction dialect (`KHop.ExplorerFollow`), so the rows below cite the shinri file for the shared algorithms. `parseCSV` exists only in the explorer (`src/KnowledgeGraphExplorer.jsx:31-38`) and the App (`src/App.jsx:29-36`); the App's is a copy of the explorer's, so the rows cite the explorer.

## Model

| member | source | states |
|---|---|---|
| KHop.ShinriFollow | shinri_knowledge_graph_explorer_react.jsx:294-297 | out-edges are followed exactly for "both" and "out", in-edges exactly for "both" and "in" |
| KHop.ExplorerFollow | src/KnowledgeGraphExplorer.jsx:99-100 | "in" follows only in-edges, "out" only out-edges, and any other string (unrecognised included) follows both |
| KHop.TargetsOf | shinri_knowledge_graph_explorer_react.jsx:278-280 | an id is in a source's out-list iff some edge runs from that source to it |
| KHop.SourcesOf | shinri_knowledge_graph_explorer_react.jsx:279-281 | an id is in a target's in-list iff some edge runs from it to that target |
| KHop.BuildAdjacency | shinri_knowledge_graph_explorer_react.jsx:274-284 | the out and in maps have keys exactly the edges' sources and targets, each list holding the ids the edges join them to |
| KHop.OutPush | shinri_knowledge_graph_explorer_react.jsx:278-280 | appending one edge's target to its source's out-list keeps the out map faithful to the longer edge list |
| KHop.InPush | shinri_knowledge_graph_explorer_react.jsx:279-281 | appending one edge's source to its target's in-list keeps the in map faithful to the longer edge list |
| KHop.StepIsNeighbours | shinri_knowledge_graph_explorer_react.jsx:293-298 | the ids one round reads from the adjacency lists are exactly the ids one permitted step from the frontier along the edge list |
| KHop.RoundAddsBall | shinri_knowledge_graph_explorer_react.jsx:291-299 | one round turns the ids within i steps into those within i + 1, and what it adds becomes the next frontier |
| KHop.BallStable | shinri_knowledge_graph_explorer_react.jsx:299-300 | once a round adds nothing, no later round would add anything, so the early `break` does not change the result |
| KHop.BallHasWalk | shinri_knowledge_graph_explorer_react.jsx:288-301 | every id reached after k rounds is the end of a walk of at most k permitted steps from the centre |
| KHop.WalkInBall | shinri_knowledge_graph_explorer_react.jsx:288-301 | the end of every walk of at most k permitted steps from the centre is reached after k rounds |
| KHop.BallIffWithinHops | shinri_knowledge_graph_explorer_react.jsx:288-301 | reached after k rounds iff within k permitted steps of the centre, and the centre is always reached |
| KHop.Round | shinri_knowledge_graph_explorer_react.jsx:292-300 | one pass over the frontier grows the visited set from the ball of radius i to the ball of radius i + 1, and an empty new frontier means nothing was added |
| KHop.ReachedIds | shinri_knowledge_graph_explorer_react.jsx:288-301 | the loop's visited set holds the centre and exactly the ids within `hops` permitted steps of it (only the centre when `hops` ≤ 0) |
| KHop.KHopSubgraph | shinri_knowledge_graph_explorer_react.jsx:286-306 | no centre returns the input unchanged; otherwise the nodes are exactly the input nodes whose id is within `hops` steps, and the edges exactly the input edges with both endpoints within, each list equal to the input filtered in order (so duplicates and order are kept); a closed input gives a closed output |
| KHop.ReachedFilters | shinri_knowledge_graph_explorer_react.jsx:302-305 | filtering by membership in the reached set is filtering by the within-hops predicate, for nodes and for edges |
| KHop.ReachedClosed | shinri_knowledge_graph_explorer_react.jsx:302-305 | keeping the reached nodes and the edges with both endpoints reached keeps a closed graph closed |
| KHop.ShinriUnknownDirection | shinri_knowledge_graph_explorer_react.jsx:294-297 | with a direction other than "both", "out" or "in", only the centre is ever reached |
| KHop.WithinHopsExample | shinri_knowledge_graph_explorer_react.jsx:286-301 | on the chain A→B→C→D, one hop from B in both directions reaches exactly A, B and C |
| Topo.PendingZero | shinri_knowledge_graph_explorer_react.jsx:312-318 | an id's remaining in-degree is 0 iff every known edge into it comes from an emitted id |
| Topo.PendingRemove | shinri_knowledge_graph_explorer_react.jsx:326-327 | emitting an id lowers each target's in-degree by the number of known edges the id sends to it |
| Topo.KahnShape | shinri_knowledge_graph_explorer_react.jsx:319-330 | the reference order lists known ids without repeats, each the least of the ids ready at its turn, and stops only when none is ready |
| Topo.KahnTopological | shinri_knowledge_graph_explorer_react.jsx:323-330 | in an order that always takes a ready id, the source of every known edge into an emitted id is emitted before it |
| Topo.KahnCompleteIffAcyclic | shinri_knowledge_graph_explorer_react.jsx:323-331 | Kahn's loop emits every known id iff the known edges admit a strictly increasing numbering (no cycle) |
| Topo.TopoPermutation | shinri_knowledge_graph_explorer_react.jsx:311-333 | the result holds exactly the ids of `nodeIds`, and with distinct ids it is a permutation of them |
| Topo.TopoAcyclic | shinri_knowledge_graph_explorer_react.jsx:319-332 | on an acyclic graph the result is Kahn's order and the source of every known edge comes before its target |
| Topo.TopoCyclic | shinri_knowledge_graph_explorer_react.jsx:331 | with a cycle the result is Kahn's emitted prefix followed by the un-emitted ids in sorted order |
| Topo.TopoIgnoresUnknown | shinri_knowledge_graph_explorer_react.jsx:314-315 | dropping the edges with an endpoint outside `nodeIds` leaves the result unchanged |
| Topo.RestPermutation | shinri_knowledge_graph_explorer_react.jsx:331 | an emitted prefix plus the sorted remainder covers `nodeIds` exactly, and is a permutation of it when the ids are distinct |
| Topo.CountInDegrees | shinri_knowledge_graph_explorer_react.jsx:312-318 | the counting loop gives every known id its number of known incoming edges, zero exactly for ids with none, and its list of known targets |
| Topo.Release | shinri_knowledge_graph_explorer_react.jsx:326-329 | lowering the emitted id's targets leaves each in-degree equal to its edges from un-emitted ids, and the queue sorted, repeat-free and holding exactly the ready ids |
| Topo.EmitHead | shinri_knowledge_graph_explorer_react.jsx:323-329 | one turn of the loop emits the queue's head, which was not emitted before, and keeps the loop's invariant |
| Topo.FinishOrder | shinri_knowledge_graph_explorer_react.jsx:331-332 | the final step returns Kahn's order when it has every id, and otherwise appends the sorted remainder |
| Topo.TopoSort | shinri_knowledge_graph_explorer_react.jsx:311-333 | the queue-based loop computes the reference order: at every turn the least ready id, then the sorted remainder if a cycle stops it |
| Layers.LiftAbove | shinri_knowledge_graph_explorer_react.jsx:340-343 | after relaxing a processed source, each of its known targets sits at least one layer below it |
| Layers.LiftAttained | shinri_knowledge_graph_explorer_react.jsx:340-343 | a relaxed layer is 0 or exactly one more than the layer of some processed predecessor |
| Layers.LiftAdd | shinri_knowledge_graph_explorer_react.jsx:341-342 | processing one more id raises exactly its known targets to at least its layer + 1 |
| Layers.LongestPathShape | shinri_knowledge_graph_explorer_react.jsx:335-345 | in a longest-path layering every known edge goes down at least one layer, and every id is at layer 0 or one below some predecessor |
| Layers.LongestPathUnique | shinri_knowledge_graph_explorer_react.jsx:335-345 | on an acyclic graph there is only one longest-path layering |
| Layers.TargetLists | shinri_knowledge_graph_explorer_react.jsx:338-339 | each known id's list holds its known targets, and only known ids have a list |
| Layers.RaiseTargets | shinri_knowledge_graph_explorer_react.jsx:341-342 | each listed target below l + 1 is raised to l + 1, and nothing else changes |
| Layers.RelaxStep | shinri_knowledge_graph_explorer_react.jsx:340-343 | processing the next id in topological order keeps every processed id's targets relaxed |
| Layers.ComputeLayers | shinri_knowledge_graph_explorer_react.jsx:335-345 | every known id gets a layer of at least 0, and on an acyclic graph the layers are the longest-path layering |
| Layers.LayersExample | shinri_knowledge_graph_explorer_react.jsx:335-345 | for A→B, B→C, A→D the only longest-path layering is A=0, B=1, D=1, C=2 |
| Layout.SortMembers | shinri_knowledge_graph_explorer_react.jsx:352 | sorting a bucket keeps exactly its ids |
| Layout.BucketMembers | shinri_knowledge_graph_explorer_react.jsx:351-352 | the bucket of layer l holds exactly the listed ids at layer l |
| Layout.LayoutDag | shinri_knowledge_graph_explorer_react.jsx:347-365 | the nodes keep their order and contents, every node gets the direction's handle sides, and its position is that of its layer and slot, on a layering that is the longest-path one when the graph is acyclic |
| Layout.DistinctPositions | shinri_knowledge_graph_explorer_react.jsx:355-360 | two different ids never share a position |
| Layout.SlotIsRank | shinri_knowledge_graph_explorer_react.jsx:351-358 | with distinct ids, an id's slot is the number of its layer's ids that sort before it |
| Layout.EdgesPointForward | shinri_knowledge_graph_explorer_react.jsx:349-358 | on a longest-path layering every edge between laid-out ids points right ("LR") or down (otherwise) |
| Layout.SameLayerAligned | shinri_knowledge_graph_explorer_react.jsx:355-358 | two ids share a column ("LR") or a row (otherwise) iff they share a layer |
| Strings.Insert | shinri_knowledge_graph_explorer_react.jsx:328 | pushing an id onto a sorted queue and re-sorting gives a sorted queue with that id added |
| Strings.Sort | shinri_knowledge_graph_explorer_react.jsx:321 | the result is ascending and a permutation of the input |
| Strings.SortUnique | shinri_knowledge_graph_explorer_react.jsx:321 | any two ascending permutations of the same ids are equal, so every correct sort gives the same queue |
| Strings.SortDistinct | shinri_knowledge_graph_explorer_react.jsx:321 | sorting keeps a list free of repeats |
| Strings.LessTotal | shinri_knowledge_graph_explorer_react.jsx:321 | the default string order is total |
| Strings.LessTransitive | shinri_knowledge_graph_explorer_react.jsx:321 | the default string order is transitive |
| Strings.TrimStart | src/KnowledgeGraphExplorer.jsx:32 | the result is the suffix that remains after a run of whitespace only, and it does not start with whitespace |
| Strings.TrimEnd | src/KnowledgeGraphExplorer.jsx:32 | the result is the prefix that remains before a run of whitespace only, and it does not end with whitespace |
| Strings.TrimSlice | src/KnowledgeGraphExplorer.jsx:32-33 | the trimmed text is a slice of the original with only whitespace before and after it |
| Strings.TrimKeeps | src/KnowledgeGraphExplorer.jsx:36 | text with no whitespace at either end trims to itself |
| Strings.TrimIdempotent | src/KnowledgeGraphExplorer.jsx:36 | trimming twice is trimming once |
| Strings.Contains | shinri_knowledge_graph_explorer_react.jsx:550 | `includes` holds iff the needle occurs at some position of the text |
| Strings.Split | src/KnowledgeGraphExplorer.jsx:32-35 | splitting gives at least one piece, none holding the separator, and joining them restores the text |
| Strings.SplitJoin | src/KnowledgeGraphExplorer.jsx:32-35 | joining separator-free pieces and splitting again gives the pieces back |
| Strings.ParseIntRoundTrip | src/KnowledgeGraphExplorer.jsx:350 | `parseInt(...) \|\| 0` reads back every integer written in decimal, negative ones and 0 included |
| Csv.RowRecord | src/KnowledgeGraphExplorer.jsx:36 | a row's record has exactly the header's names as keys and only trimmed values |
| Csv.RowRecordValues | src/KnowledgeGraphExplorer.jsx:35-36 | each name reads the trimmed cell under its last occurrence in the header, or "" past the row's end |
| Csv.ParseCsv | src/KnowledgeGraphExplorer.jsx:31-38 | one record per line after the header of the trimmed text, each keyed by exactly the trimmed header names, with only trimmed values |
| Csv.ParseCsvRecord | src/KnowledgeGraphExplorer.jsx:34-37 | the j-th record comes from the line after the j-th line |
| Csv.ParseRender | src/KnowledgeGraphExplorer.jsx:31-38 | writing a table of plain cells under distinct names and parsing it gives back the names and every cell under its name |
| Ingest.LabelIndex | src/KnowledgeGraphExplorer.jsx:335-344 | the index's keys are exactly the nodes' labels, and each maps to the id of a node with that label |
| Ingest.LabelIndexLast | src/KnowledgeGraphExplorer.jsx:343 | a label no later node repeats maps to its node's id: the last write wins |
| Ingest.LabelIndexIds | src/KnowledgeGraphExplorer.jsx:335-344 | the index only ever yields ids of loaded nodes |
| Ingest.ToEdge | src/KnowledgeGraphExplorer.jsx:347-351 | an edge comes out iff both labels map to non-empty, different ids, and then it joins those ids with the given type and the parsed frequency (0 when unparsable) |
| Ingest.ToEdgeRoundTrip | src/KnowledgeGraphExplorer.jsx:347-351 | with one node per label, the row naming two different non-empty ids and a frequency turns back into that exact edge |
| Ingest.RowEdgesMembers | src/KnowledgeGraphExplorer.jsx:353-355 | an edge is produced iff some row turns into it |
| Ingest.RowEdgesCount | src/KnowledgeGraphExplorer.jsx:353-355 | each edge occurs as many times as rows turn into it, so repeated rows give repeated edges |
| Ingest.RowEdgesInRowOrder | src/KnowledgeGraphExplorer.jsx:353-355 | the i-th edge is what the i-th row passing the guard turns into, the passing rows taken in increasing position and every passing row used |
| Ingest.RowEdgeKinds | src/KnowledgeGraphExplorer.jsx:353-355 | co-occurrence rows give co-occurrence edges, and relationship rows give edges typed by their row's relation type |
| Ingest.IngestClosed | src/App.jsx:101-121 | every inserted edge joins two different loaded nodes: the multigraph is closed and has no self-loops |
| Ingest.RelationTypes | src/KnowledgeGraphExplorer.jsx:356 | the type list has no repeats, and every listed type is non-empty and carried by some row |
| Ingest.RelationTypesMembers | src/KnowledgeGraphExplorer.jsx:356 | a type is listed iff it is non-empty and some row carries it |
| Ingest.RelationTypesOrder | src/KnowledgeGraphExplorer.jsx:356 | the types are listed in the order of their first rows, as `[...new Set(...)]` keeps insertion order |
| Filters.Narrow | shinri_knowledge_graph_explorer_react.jsx:550-554 | search keeps exactly the edges touching a matching node and exactly the nodes that are endpoints of kept edges, adding no copies |
| Filters.NarrowClosed | shinri_knowledge_graph_explorer_react.jsx:550-554 | on a closed graph, search gives a closed graph whose node ids are exactly the kept edges' endpoints |
| Filters.SearchStageFacts | shinri_knowledge_graph_explorer_react.jsx:548-554 | the search stage only removes; with a non-empty query every kept edge touches a match; closure is kept |
| Filters.SearchStageWithinBall | shinri_knowledge_graph_explorer_react.jsx:548-554 | a search applied to a graph inside a k-hop ball leaves every node and edge endpoint inside that ball |
| KHop.CentreWithinHops | shinri_knowledge_graph_explorer_react.jsx:288 | the centre is within any number of hops of itself |
| Filters.ShinriBase | shinri_knowledge_graph_explorer_react.jsx:538-546 | the result keeps nodes iff mentioned often enough and edges iff their polarity is shown and both endpoints survive; it is closed |
| Filters.ShinriSearchFacts | shinri_knowledge_graph_explorer_react.jsx:546-554 | searching a closed part of the threshold graph gives a closed graph of shown, above-threshold nodes and edges; with a query every edge touches a match and the nodes are exactly the edges' endpoints |
| Filters.ShinriFiltered | shinri_knowledge_graph_explorer_react.jsx:537-555 | the output is closed, never holds a hidden polarity or an under-mentioned node; without a query and without a centre it is the base; without a query and with a centre its nodes and edges are the base's filtered in order to the k-hop ball; with a centre every node and edge endpoint lies in that ball, query or not; with a query the result is the search step (`Filters.Narrow`) applied to that graph (the base, or its ball when there is a centre), so every ball edge touching a match is kept, no other edge is, and the nodes are exactly the kept edges' endpoints |
| Filters.ExplorerBase | src/KnowledgeGraphExplorer.jsx:375-383 | the nodes are unchanged; an edge is kept iff it is active and passes the frequency and, in relationships mode, the active-type and polarity tests; closure is kept |
| Filters.ExplorerFiltered | src/KnowledgeGraphExplorer.jsx:372-393 | no centre or no nodes gives the empty graph; otherwise every edge passes the toggles and threshold; without a query the nodes and edges are the loaded nodes and shown edges filtered in order to the k-hop ball, which includes the centre; with a query the result is the search step (`Filters.Narrow`) applied to that ball, so every ball edge touching a label match is kept and no other edge is, and the nodes stay in the ball; on closed input the output is closed and, after a query, its nodes are exactly the edges' endpoints |
| Sigma.RelColor | src/App.jsx:38-40 | the default colour is returned iff the type has no colour of its own |
| Sigma.RelColorInjective | src/App.jsx:8-17 | different known types get different colours |
| Sigma.EdgeReducer | src/App.jsx:155-172 | an edge is shown iff it matches the mode, meets the threshold, is co-occurrence or of an active type, and, while a node is hovered, touches it; shown co-occurrence edges lose their label |
| Sigma.CountEdges | src/App.jsx:213-224 | the count is the number of edges the visibility predicate accepts |
| Sigma.CountMatchesReducer | src/App.jsx:213-224 | with nothing hovered, the count equals the number of edges the reducer leaves shown |
| Sigma.SwitchMode | src/App.jsx:242-245 | switching mode sets the mode, sets the threshold to 50 for "cooccurrence" and to 5 for any other mode, and keeps the active types and hover |
| Sigma.SwitchModeVisible | src/App.jsx:242-245 | after switching to "cooccurrence" exactly the co-occurrence edges of frequency ≥ 50 are visible; after "relationships", exactly the active-type edges of frequency ≥ 5 |
| Sigma.ToggleRelType | src/App.jsx:247-249 | the toggled type's membership flips and every other type's is unchanged |
| Sigma.ToggleTwice | src/KnowledgeGraphExplorer.jsx:576 | toggling the same type twice restores the original set |
| Sigma.ToggleOnlyThatType | src/App.jsx:247-249 | toggling a type never changes the visibility of an edge of another type |

## Left out

- Force layouts (`runForceLayout`, ForceAtlas2): floating-point physics with random seeding.
- Node sizes, edge widths and the Sigma size and colour attributes: floating-point `sqrt`/`log` arithmetic with no statable property.
- Rendering (ReactFlow, Sigma, JSX), camera animation, and the hover and click wiring. The hovered node is a field of `Sigma.View`.
- The App's `handleSearch` camera jump: it drives the renderer and changes no graph.
- Loading: `fetch`, GEXF parsing and the node list it yields are inputs. This covers the `Number(attrs.mentions) \|\| 0` and `entity_type` defaults and the sort of nodes by mentions.
- The default `centerId` (the most-mentioned node) is left out because the centre is a parameter of every filter.
- React state and memo plumbing: every memo body is a pure function of its inputs.
- The extra display fields of an edge (`sourceLabel`, `targetLabel`, and the App's `label`, `color`, `size`) are not part of `Graph.Edge`.
- The `try`/`catch` around `addEdge`: in the App's undirected multigraph `addEdge` throws when an endpoint is not a node. With string ids that only happens for the inherited names below, and the model then produces no edge, which matches what the catch does.
- Ingest.LabelIndex: `labelToId` is a plain object, so its names inherited from `Object.prototype` (`constructor`, `toString`, `__proto__` and the rest) are not modelled. The index is a map with no keys but the labels. In the source, `labelToId["__proto__"] = id` changes the prototype instead of storing a key.
- Ingest.LabelIndexLast: does not hold for a node labelled `__proto__` in the source, whose write is not stored; the model stores it like any other label.
- Ingest.LabelIndexIds: in the source an inherited name such as `constructor` reads a function from `labelToId` even when no node has that label; the model yields nothing there.
- Ingest.ToEdge: a row naming an inherited name such as `constructor` passes the source's truthiness guard. The explorer then emits an edge whose endpoint is a function, and the App's `addEdge` throws into its catch. The model returns no edge for such a row in both places.
- Sigma.RelColor: `REL_COLORS` is a plain object too, so `REL_COLORS["constructor"]` returns `Object` instead of the default colour. The model gives the default for every type that is not one of the eight listed keys.
- Layout.LayoutDag: returns no edge list, because `layoutDAG` passes its edges through unchanged. The two fallbacks are not modelled. A layer missing from the map would read as 0 through `layer.get(id) || 0`, putting the id in bucket 0. A missing position would read as `{ x: 0, y: 0 }`. Neither happens: `computeLayers` gives every listed id a layer, so every listed id gets a bucket slot and a position.
- Layers.ComputeLayers: on a cyclic graph only the key set and non-negativity are stated. The values then depend on the order in which the fallback visits the ids.
- Strings.ToLower: only ASCII letters are folded, while `toLowerCase` is locale-independent Unicode folding.
- Strings.Less: orders by character, while JavaScript compares UTF-16 code units. The two orders differ only above the Basic Multilingual Plane.
- Strings.ParseIntOrZero: results are unbounded integers, while `parseInt` rounds huge values to a double.
- Ingest.RelationType: an absent `relation_type` column is modelled as the empty string rather than `undefined`. Both are falsy, so neither is listed as a type or active.
- Filters.LabelMatch: a node whose label is `undefined` never matches, while here every node has a string label.
- The curated `NODES`/`EDGES` literals are not modelled. Small fixtures (`KHop.WithinHopsExample`, `Layers.LayersExample`) stand in for them.

=== FILE: csv.dfy ===
/**
 * `parseCSV`: a naive comma-separated table reader. The trimmed text is cut
 * at every newline; the first line names the columns, and each later line
 * becomes one record keyed by the trimmed column names. There is no quoting:
 * every comma separates cells.
 */
module Csv {
  import opened Seqs
  import opened Strings

  /** One parsed row: column name to trimmed cell text. */
  type Record = map<string, string>

  /** `(parts[i] ?? "").trim()`: a missing cell reads as the empty string. */
  function Cell(parts: seq<string>, i: nat): string
  {
    if i < |parts| then Trim(parts[i]) else ""
  }

  /**
   * `Object.fromEntries(keys.map((k, i) => [k, cell i]))`: the entries are
   * written in column order, so a repeated column name keeps its last cell.
   */
  function RowRecord(keys: seq<string>, parts: seq<string>): (r: Record)
    ensures r.Keys == Elements(keys)
    ensures forall k :: k in r ==> Trimmed(r[k])
  {
    if keys == [] then map[]
    else
      var n := |keys| - 1;
      assert Elements(keys) == Elements(keys[..n]) + {keys[n]} by {
        assert keys == keys[..n] + [keys[n]];
      }
      RowRecord(keys[..n], parts)[keys[n] := Cell(parts, n)]
  }

  /** `s.split(",").map(s => s.trim())`. */
  function TrimAll(parts: seq<string>): (r: seq<string>)
    ensures |r| == |parts|
    ensures forall i :: 0 <= i < |parts| ==> r[i] == Trim(parts[i])
  {
    seq(|parts|, i requires 0 <= i < |parts| => Trim(parts[i]))
  }

  /** The lines of the trimmed text; the first is the header. */
  function Lines(text: string): (lines: seq<string>)
    ensures |lines| >= 1
  {
    Split(Trim(text), '\n')
  }

  /** The trimmed column names of the header line. */
  function HeaderKeys(text: string): seq<string>
  {
    TrimAll(Split(Lines(text)[0], ','))
  }

  /**
   * `parseCSV`: one record per line after the header, each with exactly the
   * header's column names as keys and only trimmed cells as values.
   */
  function ParseCsv(text: string): (records: seq<Record>)
    ensures |records| == |Lines(text)| - 1
    ensures forall j :: 0 <= j < |records| ==> records[j].Keys == Elements(HeaderKeys(text))
    ensures forall j, k :: 0 <= j < |records| && k in records[j] ==> Trimmed(records[j][k])
  {
    LineRecords(HeaderKeys(text), Lines(text))
  }

  /**
   * One record per line after the first, each read against `keys`. The
   * per-record ensures lets callers use a record without unfolding the
   * sequence comprehension, which keeps their proofs small.
   */
  function LineRecords(keys: seq<string>, lines: seq<string>): (records: seq<Record>)
    requires |lines| >= 1
    ensures |records| == |lines| - 1
    ensures forall j :: 0 <= j < |records| ==> records[j] == RowRecord(keys, Split(lines[j + 1], ','))
  {
    seq(|lines| - 1, j requires 0 <= j < |lines| - 1 => RowRecord(keys, Split(lines[j + 1], ',')))
  }

  /** Each column name reads the cell under its last occurrence in the header, or "" past the row's end. */
  lemma {:induction false} RowRecordValues(keys: seq<string>, parts: seq<string>)
    ensures forall k :: k in keys ==> RowRecord(keys, parts)[k] == Cell(parts, LastIndexOf(keys, k))
  {
    if keys != [] {
      var n := |keys| - 1;
      RowRecordValues(keys[..n], parts);
      forall k | k in keys
        ensures RowRecord(keys, parts)[k] == Cell(parts, LastIndexOf(keys, k))
      {
        if k != keys[n] {
          assert keys == keys[..n] + [keys[n]];
          assert k in keys[..n];
        }
      }
    }
  }

  // ---------------------------------------------------------------------------
  // Writing a table and reading it back
  // ---------------------------------------------------------------------------

  /** A cell or column name the reader returns unchanged: no comma, no newline, no surrounding whitespace. */
  predicate Plain(s: string)
  {
    ',' !in s && '\n' !in s && Trimmed(s)
  }

  /** The table as text: the header line, then one comma-joined line per row. */
  function RenderCsv(keys: seq<string>, rows: seq<seq<string>>): string
  {
    Join([Join(keys, ',')] + seq(|rows|, j requires 0 <= j < |rows| => Join(rows[j], ',')), '\n')
  }

  /** The tables `RenderCsv` writes faithfully. */
  ghost predicate WellFormedTable(keys: seq<string>, rows: seq<seq<string>>)
  {
    && |keys| >= 1 && Distinct(keys)
    && (forall i :: 0 <= i < |keys| ==> Plain(keys[i]))
    && (forall j :: 0 <= j < |rows| ==> |rows[j]| == |keys|)
    && (forall j, i :: 0 <= j < |rows| && 0 <= i < |rows[j]| ==> Plain(rows[j][i]))
    // the text neither starts nor ends in whitespace, so the outer trim removes nothing
    && keys[0] != ""
    && (if rows == [] then keys[|keys| - 1] != "" else rows[|rows| - 1][|keys| - 1] != "")
  }

  /** The lines `RenderCsv` writes: the header, then one per row. */
  function RenderedLines(keys: seq<string>, rows: seq<seq<string>>): seq<string>
  {
    [Join(keys, ',')] + seq(|rows|, j requires 0 <= j < |rows| => Join(rows[j], ','))
  }

  /** Reading a written table gives back its column names and one record per row, holding the row's cells. */
  lemma ParseRender(keys: seq<string>, rows: seq<seq<string>>)
    requires WellFormedTable(keys, rows)
    ensures var records := ParseCsv(RenderCsv(keys, rows));
            && HeaderKeys(RenderCsv(keys, rows)) == keys
            && |records| == |rows|
            && forall j, i :: 0 <= j < |rows| && 0 <= i < |keys| ==> records[j][keys[i]] == rows[j][i]
  {
    RenderLines(keys, rows);
    RenderHeader(keys, rows);
    forall j, i | 0 <= j < |rows| && 0 <= i < |keys|
      ensures ParseCsv(RenderCsv(keys, rows))[j][keys[i]] == rows[j][i]
    {
      RenderedRecord(keys, rows, j, i);
    }
  }

  /** The record of the `j`-th data line holds the `j`-th row's cells. */
  lemma RenderedRecord(keys: seq<string>, rows: seq<seq<string>>, j: int, i: int)
    requires WellFormedTable(keys, rows)
    requires Lines(RenderCsv(keys, rows)) == RenderedLines(keys, rows)
    requires HeaderKeys(RenderCsv(keys, rows)) == keys
    requires 0 <= j < |rows| && 0 <= i < |keys|
    ensures ParseCsv(RenderCsv(keys, rows))[j][keys[i]] == rows[j][i]
  {
    var lines := RenderedLines(keys, rows);
    ParseCsvRecord(RenderCsv(keys, rows), j);
    assert lines[j + 1] == Join(rows[j], ',');
    RowRoundTrip(keys, rows[j], i);
  }

  /** The `j`-th record comes from the line after the `j`-th, read against the header. */
  lemma ParseCsvRecord(text: string, j: int)
    requires 0 <= j < |Lines(text)| - 1
    ensures ParseCsv(text)[j] == RowRecord(HeaderKeys(text), Split(Lines(text)[j + 1], ','))
  {
  }

  /** The text splits back into the written lines. */
  lemma RenderLines(keys: seq<string>, rows: seq<seq<string>>)
    requires WellFormedTable(keys, rows)
    ensures Lines(RenderCsv(keys, rows)) == RenderedLines(keys, rows)
  {
    var lines := RenderedLines(keys, rows);
    forall i | 0 <= i < |lines|
      ensures '\n' !in lines[i]
    {
      if i == 0 {
        JoinAvoids(keys, ',', '\n');
      } else {
        JoinAvoids(rows[i - 1], ',', '\n');
      }
    }
    RenderTrimmed(keys, rows);
    TrimKeeps(RenderCsv(keys, rows));
    SplitJoin(lines, '\n');
  }

  /** The header line reads back as the column names. */
  lemma RenderHeader(keys: seq<string>, rows: seq<seq<string>>)
    requires WellFormedTable(keys, rows)
    requires Lines(RenderCsv(keys, rows)) == RenderedLines(keys, rows)
    ensures HeaderKeys(RenderCsv(keys, rows)) == keys
  {
    SplitJoin(keys, ',');
    forall i | 0 <= i < |keys|
      ensures Trim(keys[i]) == keys[i]
    {
      TrimKeeps(keys[i]);
    }
  }

  /** A written row reads back its own cells under distinct column names. */
  lemma RowRoundTrip(keys: seq<string>, row: seq<string>, i: int)
    requires Distinct(keys) && |row| == |keys| && 0 <= i < |keys|
    requires forall c :: 0 <= c < |row| ==> Plain(row[c])
    ensures keys[i] in RowRecord(keys, Split(Join(row, ','), ','))
    ensures RowRecord(keys, Split(Join(row, ','), ','))[keys[i]] == row[i]
  {
    SplitJoin(row, ',');
    RowRecordValues(keys, row);
    DistinctLastIndex(keys, i);
    TrimKeeps(row[i]);
  }

  /** The written text has no whitespace at either end. */
  lemma RenderTrimmed(keys: seq<string>, rows: seq<seq<string>>)
    requires WellFormedTable(keys, rows)
    ensures Trimmed(RenderCsv(keys, rows))
  {
    var body := seq(|rows|, j requires 0 <= j < |rows| => Join(rows[j], ','));
    var lines := [Join(keys, ',')] + body;
    JoinFirst(keys, ',');
    JoinFirst(lines, '\n');
    if rows == [] {
      JoinLast(keys, ',');
      JoinLast(lines, '\n');
    } else {
      JoinLast(rows[|rows| - 1], ',');
      JoinLast(lines, '\n');
    }
  }

  /** In a sequence without repeats, the last occurrence of the element at `i` is `i`. */
  lemma DistinctLastIndex<T>(s: seq<T>, i: int)
    requires Distinct(s) && 0 <= i < |s|
    ensures LastIndexOf(s, s[i]) == i
  {
  }
}

=== FILE: filters.dfy ===
/**
 * The `filtered` pipelines: toggles and thresholds prune the graph, the
 * k-hop neighbourhood of the centre is taken, and a non-empty search then
 * keeps the edges touching a matching node together with their endpoints.
 */
module Filters {
  import opened Wrappers
  import opened Seqs
  import opened Strings
  import opened Graph
  import opened KHop

  // ---------------------------------------------------------------------------
  // Search, shared by both pipelines
  // ---------------------------------------------------------------------------

  /** `query.trim().toLowerCase()`. */
  function Query(query: string): string
  {
    ToLower(Trim(query))
  }

  /** `keep`: the ids of the nodes the search matches. */
  function MatchedIds(nodes: seq<Node>, matches: Node -> bool): set<string>
  {
    set n | n in nodes && matches(n) :: n.id
  }

  function TouchesAny(ids: set<string>): Edge -> bool
  {
    (e: Edge) => Touches(e, ids)
  }

  /**
   * The search step: the edges touching a matching node, and the nodes that
   * are an endpoint of one of those edges, each in input order.
   */
  function Narrow(g: Subgraph, matches: Node -> bool): (r: Subgraph)
    ensures forall e :: e in r.edges <==> e in g.edges && Touches(e, MatchedIds(g.nodes, matches))
    ensures forall n :: n in r.nodes <==> n in g.nodes && n.id in Endpoints(r.edges)
    ensures forall n :: multiset(r.nodes)[n] <= multiset(g.nodes)[n]
    ensures forall e :: multiset(r.edges)[e] <= multiset(g.edges)[e]
  {
    var edges := Filter(g.edges, TouchesAny(MatchedIds(g.nodes, matches)));
    FilterMultiset(g.edges, TouchesAny(MatchedIds(g.nodes, matches)));
    FilterMultiset(g.nodes, IdIn(Endpoints(edges)));
    Subgraph(Filter(g.nodes, IdIn(Endpoints(edges))), edges)
  }

  /** On a closed graph the search keeps closure, and its nodes are exactly the kept edges' endpoints. */
  lemma NarrowClosed(g: Subgraph, matches: Node -> bool)
    requires Closed(g)
    ensures Closed(Narrow(g, matches))
    ensures Ids(Narrow(g, matches).nodes) == Endpoints(Narrow(g, matches).edges)
  {
    var r := Narrow(g, matches);
    forall e | e in r.edges
      ensures e.source in Ids(r.nodes) && e.target in Ids(r.nodes)
    {
      var ns :| ns in g.nodes && ns.id == e.source;
      var nt :| nt in g.nodes && nt.id == e.target;
      assert ns in r.nodes && nt in r.nodes;
    }
    forall x | x in Ids(r.nodes)
      ensures x in Endpoints(r.edges)
    {
      var n :| n in r.nodes && n.id == x;
    }
  }

  /** An empty query leaves the graph as it is; any other narrows it. */
  function SearchStage(g: Subgraph, q: string, matches: Node -> bool): Subgraph
  {
    if q == "" then g else Narrow(g, matches)
  }

  /**
   * The search stage only removes; after a non-empty query every edge touches
   * a matching node; closure survives it, and then the nodes are exactly the
   * edges' endpoints.
   */
  lemma SearchStageFacts(g: Subgraph, q: string, matches: Node -> bool)
    ensures var r := SearchStage(g, q, matches);
            && (forall n :: n in r.nodes ==> n in g.nodes)
            && (forall e :: e in r.edges ==> e in g.edges)
            && (q != "" ==> forall e :: e in r.edges ==> Touches(e, MatchedIds(g.nodes, matches)))
            && (Closed(g) ==> Closed(r))
            && (Closed(g) && q != "" ==> Ids(r.nodes) == Endpoints(r.edges))
  {
    if q != "" && Closed(g) {
      NarrowClosed(g, matches);
    }
  }

  /** A search inside a k-hop ball stays inside it. */
  lemma SearchStageWithinBall(g: Subgraph, q: string, matches: Node -> bool,
                              edges: seq<Edge>, f: Follow, centre: string, k: nat)
    requires WithinBall(g, edges, f, centre, k)
    ensures WithinBall(SearchStage(g, q, matches), edges, f, centre, k)
  {
    SearchStageFacts(g, q, matches);
  }

  /** Fewer nodes match no more ids. */
  lemma MatchedIdsShrink(a: seq<Node>, b: seq<Node>, matches: Node -> bool)
    requires forall n :: n in a ==> n in b
    ensures MatchedIds(a, matches) <= MatchedIds(b, matches)
  {
  }

  // ---------------------------------------------------------------------------
  // The curated explorer: curated data with polarity edges
  // ---------------------------------------------------------------------------

  /** The controls the curated explorer's pipeline reads. */
  datatype ShinriControls = ShinriControls(
    showPositive: bool, showNegative: bool, showNeutral: bool,
    minMentions: int, centre: Option<string>, hops: int, direction: string, query: string)

  /** The polarity toggles: an edge whose relation's toggle is off is dropped; other relations pass. */
  function PolarityShown(c: ShinriControls): Edge -> bool
  {
    (e: Edge) =>
      && !(e.kind == "positive" && !c.showPositive)
      && !(e.kind == "negative" && !c.showNegative)
      && !(e.kind == "neutral" && !c.showNeutral)
  }

  function MentionedEnough(minMentions: int): Node -> bool
  {
    (n: Node) => n.mentions >= minMentions
  }

  /** `validIds`: the ids of nodes with at least `minMentions` mentions. */
  function MentionedIds(nodes: seq<Node>, minMentions: int): set<string>
  {
    set n | n in nodes && n.mentions >= minMentions :: n.id
  }

  /**
   * `validNodes` with `edges1`: the nodes at or above the mention threshold,
   * and the shown edges between two of them.
   */
  function ShinriBase(nodes: seq<Node>, edges: seq<Edge>, c: ShinriControls): (g: Subgraph)
    ensures Closed(g)
    ensures forall n :: n in g.nodes <==> n in nodes && n.mentions >= c.minMentions
    ensures forall e :: e in g.edges <==>
      e in edges && PolarityShown(c)(e) && Inside(e, MentionedIds(nodes, c.minMentions))
  {
    var valid := Filter(nodes, MentionedEnough(c.minMentions));
    assert Ids(valid) == MentionedIds(nodes, c.minMentions);
    Subgraph(valid, Filter(Filter(edges, PolarityShown(c)), InsideIds(Ids(valid))))
  }

  /** Whether the curated explorer's search matches a node: id, label, type and description, case-folded. */
  function ShinriMatch(q: string): Node -> bool
  {
    (n: Node) => Contains(ToLower(n.id + " " + n.labelText + " " + n.kind + " " + n.description), q)
  }

  /**
   * The curated explorer's `filtered`. Whatever the controls, the result
   * is closed, holds only nodes at or above the threshold and only edges whose
   * polarity toggle is on and whose endpoints both pass the threshold.
   * Without a search it is the threshold graph's neighbourhood of the centre,
   * in the threshold graph's order; with one, it is the search step applied
   * to that neighbourhood: exactly the edges touching a matching node, and
   * exactly their endpoints.
   */
  method ShinriFiltered(nodes: seq<Node>, edges: seq<Edge>, c: ShinriControls) returns (r: Subgraph)
    ensures Closed(r)
    ensures forall n :: n in r.nodes ==> n in nodes && n.mentions >= c.minMentions
    ensures forall e :: e in r.edges ==>
      && e in edges
      && (e.kind == "positive" ==> c.showPositive)
      && (e.kind == "negative" ==> c.showNegative)
      && (e.kind == "neutral" ==> c.showNeutral)
      && Inside(e, MentionedIds(nodes, c.minMentions))
    ensures Query(c.query) == "" && NoCentre(c.centre) ==> r == ShinriBase(nodes, edges, c)
    ensures Query(c.query) == "" && !NoCentre(c.centre) ==>
      var base := ShinriBase(nodes, edges, c);
      forall n :: n in r.nodes <==>
        n in base.nodes && WithinHops(base.edges, ShinriFollow(c.direction), c.centre.value, Rounds(c.hops), n.id)
    ensures Query(c.query) == "" && !NoCentre(c.centre) ==>
      r == BallSubgraph(ShinriBase(nodes, edges, c), ShinriFollow(c.direction), c.centre.value, Rounds(c.hops))
    ensures Query(c.query) != "" && NoCentre(c.centre) ==>
      r == Narrow(ShinriBase(nodes, edges, c), ShinriMatch(Query(c.query)))
    ensures Query(c.query) != "" && !NoCentre(c.centre) ==>
      r == Narrow(BallSubgraph(ShinriBase(nodes, edges, c), ShinriFollow(c.direction), c.centre.value, Rounds(c.hops)),
                  ShinriMatch(Query(c.query)))
    ensures !NoCentre(c.centre) ==>
      WithinBall(r, ShinriBase(nodes, edges, c).edges, ShinriFollow(c.direction), c.centre.value, Rounds(c.hops))
    ensures Query(c.query) != "" ==>
      && (forall e :: e in r.edges ==> Touches(e, MatchedIds(nodes, ShinriMatch(Query(c.query)))))
      && Ids(r.nodes) == Endpoints(r.edges)
  {
    var base := ShinriBase(nodes, edges, c);
    var near := KHopSubgraph(base, c.centre, c.hops, ShinriFollow(c.direction));
    var q := Query(c.query);
    r := SearchStage(near, q, ShinriMatch(q));
    ShinriSearchFacts(nodes, edges, c, near);
  }

  /** What the search stage keeps of a closed part of the threshold graph. */
  lemma ShinriSearchFacts(nodes: seq<Node>, edges: seq<Edge>, c: ShinriControls, near: Subgraph)
    requires Closed(near)
    requires forall n :: n in near.nodes ==> n in ShinriBase(nodes, edges, c).nodes
    requires forall e :: e in near.edges ==> e in ShinriBase(nodes, edges, c).edges
    ensures var r := SearchStage(near, Query(c.query), ShinriMatch(Query(c.query)));
      && Closed(r)
      && (forall n :: n in r.nodes ==> n in nodes && n.mentions >= c.minMentions)
      && (forall e :: e in r.edges ==>
            && e in edges
            && (e.kind == "positive" ==> c.showPositive)
            && (e.kind == "negative" ==> c.showNegative)
            && (e.kind == "neutral" ==> c.showNeutral)
            && Inside(e, MentionedIds(nodes, c.minMentions)))
      && (Query(c.query) != "" ==>
            && (forall e :: e in r.edges ==> Touches(e, MatchedIds(nodes, ShinriMatch(Query(c.query)))))
            && Ids(r.nodes) == Endpoints(r.edges))
  {
    var q := Query(c.query);
    SearchStageFacts(near, q, ShinriMatch(q));
    MatchedIdsShrink(near.nodes, nodes, ShinriMatch(q));
  }

  // ---------------------------------------------------------------------------
  // The loaded-data explorer: co-occurrence and typed relationship edges
  // ---------------------------------------------------------------------------

  /** `POSITIVE_REL`. */
  const PositiveRel: set<string> := {"trades_with", "operates_in", "supports"}

  /** `NEGATIVE_REL`. */
  const NegativeRel: set<string> := {"threatens", "sanctions", "opposes", "regulates", "controls"}

  /** The controls the explorer's pipeline reads. */
  datatype ExplorerControls = ExplorerControls(
    edgeSet: string, minFreq: int, activeRelTypes: set<string>,
    showPositive: bool, showNegative: bool,
    centre: Option<string>, hops: int, hopDir: string, query: string)

  /** `activeEdges`: the co-occurrence list in "cooccurrence" mode, the relationship list otherwise. */
  function ActiveEdges(c: ExplorerControls, cooc: seq<Edge>, rel: seq<Edge>): seq<Edge>
  {
    if c.edgeSet == "cooccurrence" then cooc else rel
  }

  /**
   * The `edges0` test: frequency at least `minFreq`; in "relationships" mode
   * also an active type whose polarity class, if any, is shown.
   */
  function EdgeShown(c: ExplorerControls): Edge -> bool
  {
    (e: Edge) =>
      && e.frequency >= c.minFreq
      && (c.edgeSet == "relationships" ==>
            && e.kind in c.activeRelTypes
            && !(e.kind in PositiveRel && !c.showPositive)
            && !(e.kind in NegativeRel && !c.showNegative))
  }

  /** Whether the explorer's search matches a node: its label only, case-folded. */
  function LabelMatch(q: string): Node -> bool
  {
    (n: Node) => Contains(ToLower(n.labelText), q)
  }

  /** `allNodes` with `edges0`: the loaded nodes and the active edges that pass the frequency and type tests. */
  function ExplorerBase(nodes: seq<Node>, cooc: seq<Edge>, rel: seq<Edge>, c: ExplorerControls): (g: Subgraph)
    ensures g.nodes == nodes
    ensures forall e :: e in g.edges ==>
      && e in ActiveEdges(c, cooc, rel)
      && e.frequency >= c.minFreq
      && (c.edgeSet == "relationships" ==>
            && e.kind in c.activeRelTypes
            && (e.kind in PositiveRel ==> c.showPositive)
            && (e.kind in NegativeRel ==> c.showNegative))
    ensures forall e :: e in g.edges <==> e in ActiveEdges(c, cooc, rel) && EdgeShown(c)(e)
    ensures Closed(Subgraph(nodes, ActiveEdges(c, cooc, rel))) ==> Closed(g)
  {
    Subgraph(nodes, Filter(ActiveEdges(c, cooc, rel), EdgeShown(c)))
  }

  /**
   * The explorer's `filtered`. Without a centre or without nodes it is empty.
   * Otherwise every edge is an active edge at or above `minFreq` (of an active,
   * shown type in relationships mode) and every node a loaded node. Without a
   * search the nodes and edges are the loaded nodes and shown edges within
   * reach of the centre, in input order, so the centre itself stays; with
   * one, it is the search step applied to that neighbourhood: exactly the
   * edges touching a node whose label matches. Closed inputs give a closed result whose nodes, after a search,
   * are exactly the edges' endpoints.
   */
  method ExplorerFiltered(nodes: seq<Node>, cooc: seq<Edge>, rel: seq<Edge>, c: ExplorerControls) returns (r: Subgraph)
    ensures NoCentre(c.centre) || nodes == [] ==> r == Subgraph([], [])
    ensures forall n :: n in r.nodes ==> n in nodes
    ensures forall e :: e in r.edges ==> e in ActiveEdges(c, cooc, rel) && e.frequency >= c.minFreq
    ensures c.edgeSet == "relationships" ==> forall e :: e in r.edges ==>
      && e.kind in c.activeRelTypes
      && (e.kind in PositiveRel ==> c.showPositive)
      && (e.kind in NegativeRel ==> c.showNegative)
    ensures !NoCentre(c.centre) && nodes != [] && Query(c.query) == "" ==>
      forall n :: n in r.nodes <==>
        n in nodes && WithinHops(Filter(ActiveEdges(c, cooc, rel), EdgeShown(c)), ExplorerFollow(c.hopDir),
                                 c.centre.value, Rounds(c.hops), n.id)
    ensures !NoCentre(c.centre) && Query(c.query) == "" ==>
      forall n :: n in nodes && n.id == c.centre.value ==> n in r.nodes
    ensures !NoCentre(c.centre) && nodes != [] && Query(c.query) == "" ==>
      r == BallSubgraph(Subgraph(nodes, Filter(ActiveEdges(c, cooc, rel), EdgeShown(c))),
                        ExplorerFollow(c.hopDir), c.centre.value, Rounds(c.hops))
    ensures !NoCentre(c.centre) && nodes != [] && Query(c.query) != "" ==>
      r == Narrow(BallSubgraph(Subgraph(nodes, Filter(ActiveEdges(c, cooc, rel), EdgeShown(c))),
                               ExplorerFollow(c.hopDir), c.centre.value, Rounds(c.hops)),
                  LabelMatch(Query(c.query)))
    ensures !NoCentre(c.centre) ==>
      WithinBall(r, Filter(ActiveEdges(c, cooc, rel), EdgeShown(c)), ExplorerFollow(c.hopDir), c.centre.value, Rounds(c.hops))
    ensures Query(c.query) != "" ==>
      forall e :: e in r.edges ==> Touches(e, MatchedIds(nodes, LabelMatch(Query(c.query))))
    ensures Closed(Subgraph(nodes, ActiveEdges(c, cooc, rel))) ==> Closed(r)
    ensures Closed(Subgraph(nodes, ActiveEdges(c, cooc, rel))) && Query(c.query) != "" ==>
      Ids(r.nodes) == Endpoints(r.edges)
  {
    if NoCentre(c.centre) || nodes == [] {
      return Subgraph([], []);
    }
    var base := ExplorerBase(nodes, cooc, rel, c);
    var near := KHopSubgraph(base, c.centre, c.hops, ExplorerFollow(c.hopDir));
    var q := Query(c.query);
    r := SearchStage(near, q, LabelMatch(q));
    SearchStageFacts(near, q, LabelMatch(q));
    MatchedIdsShrink(near.nodes, nodes, LabelMatch(q));
    SearchStageWithinBall(near, q, LabelMatch(q), base.edges, ExplorerFollow(c.hopDir), c.centre.value, Rounds(c.hops));
    CentreWithinHops(base.edges, ExplorerFollow(c.hopDir), c.centre.value, Rounds(c.hops));
  }
}

=== FILE: graph.dfy ===
/**
 * Entities and relationships as the graph code sees them. The three
 * components share one record shape: a node's `kind` is its entity type and
 * `description` its free text (`company_detail` in the loaded-data explorer
 * and the Sigma viewer); an edge's `kind` is its polarity (`relation`) or its
 * relation type (`edgeType`), and `frequency` is 0 where the curated data
 * carries none.
 */
module Graph {
  import opened Seqs

  /** `labelText` is the JavaScript `label` field (`label` is a Dafny keyword). */
  datatype Node = Node(id: string, labelText: string, kind: string, mentions: int, description: string)

  datatype Edge = Edge(source: string, target: string, kind: string, frequency: int)

  /** The `{ nodes, edges }` pair every stage of the pipeline passes on. */
  datatype Subgraph = Subgraph(nodes: seq<Node>, edges: seq<Edge>)

  /** The ids of a node list (`new Set(nodes.map(n => n.id))`). */
  function Ids(nodes: seq<Node>): set<string>
  {
    set n | n in nodes :: n.id
  }

  /** `nodes.map(n => n.id)`. */
  function IdList(nodes: seq<Node>): (ids: seq<string>)
    ensures |ids| == |nodes|
    ensures forall k :: 0 <= k < |nodes| ==> ids[k] == nodes[k].id
    ensures Elements(ids) == Ids(nodes)
  {
    var ids := seq(|nodes|, k requires 0 <= k < |nodes| => nodes[k].id);
    assert forall x :: x in Elements(ids) ==> x in Ids(nodes);
    assert forall n :: n in nodes ==> n.id in Elements(ids) by {
      forall n | n in nodes
        ensures n.id in Elements(ids)
      {
        var k :| 0 <= k < |nodes| && nodes[k] == n;
        assert ids[k] == n.id;
      }
    }
    ids
  }

  /** Every edge's endpoints are ids of listed nodes: the graph is referentially closed. */
  ghost predicate Closed(g: Subgraph)
  {
    forall e :: e in g.edges ==> e.source in Ids(g.nodes) && e.target in Ids(g.nodes)
  }

  /** The edge touches (has an endpoint in) `ids`. */
  predicate Touches(e: Edge, ids: set<string>)
  {
    e.source in ids || e.target in ids
  }

  /** Both endpoints of the edge lie in `ids`. */
  predicate Inside(e: Edge, ids: set<string>)
  {
    e.source in ids && e.target in ids
  }

  /** The endpoints of a list of edges (`new Set(edges.flatMap(e => [e.source, e.target]))`). */
  function Endpoints(edges: seq<Edge>): (ids: set<string>)
    ensures forall x :: x in ids <==> exists e :: e in edges && (e.source == x || e.target == x)
  {
    (set e | e in edges :: e.source) + (set e | e in edges :: e.target)
  }

  /** `n => ids.has(n.id)`. */
  function IdIn(ids: set<string>): Node -> bool
  {
    (n: Node) => n.id in ids
  }

  /** `e => ids.has(e.source) && ids.has(e.target)`. */
  function InsideIds(ids: set<string>): Edge -> bool
  {
    (e: Edge) => Inside(e, ids)
  }
}

=== FILE: ingest.dfy ===
/**
 * Turning edge-list rows into graph edges: the row's two entity labels are
 * looked up in the label index built from the loaded nodes, and the row is
 * dropped when either label is unknown or both name the same node.
 */
module Ingest {
  import opened Wrappers
  import opened Seqs
  import opened Strings
  import opened Graph
  import opened Csv

  /**
   * `labelToId`: each node's label to its id, written in node order, so a
   * label carried by several nodes maps to the last of them.
   */
  function LabelIndex(nodes: seq<Node>): (index: map<string, string>)
    ensures index.Keys == set n | n in nodes :: n.labelText
    ensures forall l :: l in index ==> exists k :: 0 <= k < |nodes| && nodes[k].labelText == l && index[l] == nodes[k].id
  {
    if nodes == [] then map[]
    else
      var init := nodes[..|nodes| - 1];
      var last := nodes[|nodes| - 1];
      assert nodes == init + [last];
      var index := LabelIndex(init)[last.labelText := last.id];
      assert forall l :: l in index ==> exists k :: 0 <= k < |nodes| && nodes[k].labelText == l && index[l] == nodes[k].id by {
        forall l | l in index
          ensures exists k :: 0 <= k < |nodes| && nodes[k].labelText == l && index[l] == nodes[k].id
        {
          if l == last.labelText {
            assert nodes[|nodes| - 1].labelText == l;
          } else {
            var k :| 0 <= k < |init| && init[k].labelText == l && LabelIndex(init)[l] == init[k].id;
            assert nodes[k] == init[k];
          }
        }
      }
      index
  }

  /** A node whose label no later node repeats is what its label maps to. */
  lemma {:induction false} LabelIndexLast(nodes: seq<Node>, k: int)
    requires 0 <= k < |nodes|
    requires forall m :: k < m < |nodes| ==> nodes[m].labelText != nodes[k].labelText
    ensures LabelIndex(nodes)[nodes[k].labelText] == nodes[k].id
  {
    if k < |nodes| - 1 {
      var init := nodes[..|nodes| - 1];
      LabelIndexLast(init, k);
    }
  }

  /** The index only ever yields ids of loaded nodes. */
  lemma LabelIndexIds(nodes: seq<Node>)
    ensures forall l :: l in LabelIndex(nodes) ==> LabelIndex(nodes)[l] in Ids(nodes)
  {
    forall l | l in LabelIndex(nodes)
      ensures LabelIndex(nodes)[l] in Ids(nodes)
    {
      var k :| 0 <= k < |nodes| && nodes[k].labelText == l && LabelIndex(nodes)[l] == nodes[k].id;
      assert nodes[k] in nodes;
    }
  }

  /**
   * `row[k]` used as a property name: an absent column is `undefined`, which
   * names the property "undefined".
   */
  function PropertyKey(row: Record, k: string): string
  {
    if k in row then row[k] else "undefined"
  }

  /** `row.relation_type`; an absent column stands as the empty string, which no filter accepts. */
  function RelationType(row: Record): string
  {
    if "relation_type" in row then row["relation_type"] else ""
  }

  /** `labelToId[label]`: the id, if the label is known. */
  function Lookup(index: map<string, string>, name: string): Option<string>
  {
    if name in index then Some(index[name]) else None
  }

  /** `!id`: an unknown label or the empty id. */
  predicate Falsy(id: Option<string>)
  {
    id.None? || id.value == ""
  }

  /**
   * `toEdge` and the insertion guard: no edge when either label is unknown
   * (or maps to the empty id) or both map to the same id; otherwise the edge
   * between the two ids with the parsed frequency, 0 when unparsable.
   */
  function ToEdge(index: map<string, string>, row: Record, kind: string): (r: Option<Edge>)
    ensures r.Some? <==>
      var src := Lookup(index, PropertyKey(row, "entity_1"));
      var tgt := Lookup(index, PropertyKey(row, "entity_2"));
      !Falsy(src) && !Falsy(tgt) && src.value != tgt.value
    ensures r.Some? ==>
      && r.value.source == index[PropertyKey(row, "entity_1")]
      && r.value.target == index[PropertyKey(row, "entity_2")]
      && r.value.source != r.value.target
      && r.value.kind == kind
      && r.value.frequency == ParseIntOrZero(PropertyKey(row, "frequency"))
  {
    var src := Lookup(index, PropertyKey(row, "entity_1"));
    var tgt := Lookup(index, PropertyKey(row, "entity_2"));
    if Falsy(src) || Falsy(tgt) || src.value == tgt.value then None
    else Some(Edge(src.value, tgt.value, kind, ParseIntOrZero(PropertyKey(row, "frequency"))))
  }

  /** The edge type a row gets: its relation type, or "cooccurrence" for the co-occurrence list. */
  function RowKind(row: Record, typed: bool): string
  {
    if typed then RelationType(row) else "cooccurrence"
  }

  /** The edge one row turns into, if any. */
  function RowEdge(index: map<string, string>, typed: bool): Record -> Option<Edge>
  {
    (row: Record) => ToEdge(index, row, RowKind(row, typed))
  }

  /** `rows.map(e => toEdge(e, type)).filter(Boolean)`: the edges of the rows that pass the guard, in row order. */
  function RowEdges(index: map<string, string>, rows: seq<Record>, typed: bool): (edges: seq<Edge>)
    ensures |edges| <= |rows|
  {
    Collect(rows, RowEdge(index, typed))
  }

  /** An edge is produced exactly when some row turns into it. */
  lemma RowEdgesMembers(index: map<string, string>, rows: seq<Record>, typed: bool)
    ensures forall e :: e in RowEdges(index, rows, typed) <==>
      exists j :: 0 <= j < |rows| && ToEdge(index, rows[j], RowKind(rows[j], typed)) == Some(e)
  {
    CollectMembers(rows, RowEdge(index, typed));
  }

  /**
   * An edge is produced as many times as rows turn into it: repeated rows
   * give repeated edges, which the App's multigraph keeps.
   */
  lemma RowEdgesCount(index: map<string, string>, rows: seq<Record>, typed: bool, e: Edge)
    ensures multiset(RowEdges(index, rows, typed))[e] == |Hits(rows, RowEdge(index, typed), e)|
  {
    CollectCount(rows, RowEdge(index, typed), e);
  }

  /**
   * The edges come in row order: the i-th edge is what the i-th passing row
   * turns into, where `at` lists the passing rows' positions in increasing order.
   */
  lemma RowEdgesInRowOrder(index: map<string, string>, rows: seq<Record>, typed: bool)
    ensures var at := CollectedAt(rows, RowEdge(index, typed));
      var edges := RowEdges(index, rows, typed);
      && |at| == |edges|
      && (forall i :: 0 <= i < |at| ==>
            at[i] < |rows| && ToEdge(index, rows[at[i]], RowKind(rows[at[i]], typed)) == Some(edges[i]))
      && (forall i, k :: 0 <= i < k < |at| ==> at[i] < at[k])
      && (forall j :: 0 <= j < |rows| && ToEdge(index, rows[j], RowKind(rows[j], typed)).Some? ==> j in at)
  {
    CollectInOrder(rows, RowEdge(index, typed));
  }

  /** The App's multigraph: the co-occurrence rows' edges, then the relationship rows' edges. */
  function AppEdges(nodes: seq<Node>, coocRows: seq<Record>, relRows: seq<Record>): seq<Edge>
  {
    var index := LabelIndex(nodes);
    RowEdges(index, coocRows, false) + RowEdges(index, relRows, true)
  }

  /** Ingested edges join two different loaded nodes: the graph they form is closed and loop-free. */
  lemma IngestClosed(nodes: seq<Node>, coocRows: seq<Record>, relRows: seq<Record>)
    ensures var g := Subgraph(nodes, AppEdges(nodes, coocRows, relRows));
            && Closed(g)
            && forall e :: e in g.edges ==> e.source != e.target
  {
    var index := LabelIndex(nodes);
    LabelIndexIds(nodes);
    var edges := AppEdges(nodes, coocRows, relRows);
    forall e | e in edges
      ensures e.source in Ids(nodes) && e.target in Ids(nodes) && e.source != e.target
    {
      if e in RowEdges(index, coocRows, false) {
        RowEdgesMembers(index, coocRows, false);
        var j :| 0 <= j < |coocRows| && ToEdge(index, coocRows[j], RowKind(coocRows[j], false)) == Some(e);
      } else {
        RowEdgesMembers(index, relRows, true);
        var j :| 0 <= j < |relRows| && ToEdge(index, relRows[j], RowKind(relRows[j], true)) == Some(e);
      }
    }
  }

  /** Co-occurrence rows give co-occurrence edges; relationship rows give edges of their row's type. */
  lemma RowEdgeKinds(index: map<string, string>, rows: seq<Record>, typed: bool)
    ensures forall e :: e in RowEdges(index, rows, typed) ==>
      if typed then exists j :: 0 <= j < |rows| && e.kind == RelationType(rows[j]) else e.kind == "cooccurrence"
  {
    forall e | e in RowEdges(index, rows, typed)
      ensures if typed then exists j :: 0 <= j < |rows| && e.kind == RelationType(rows[j]) else e.kind == "cooccurrence"
    {
      RowEdgesMembers(index, rows, typed);
      var j :| 0 <= j < |rows| && ToEdge(index, rows[j], RowKind(rows[j], typed)) == Some(e);
    }
  }

  /** The row describing an edge by its endpoints' labels and its frequency. */
  function EdgeRow(source: Node, target: Node, frequency: int): Record
  {
    map["entity_1" := source.labelText, "entity_2" := target.labelText, "frequency" := IntToString(frequency)]
  }

  /**
   * With labels that name one node each, the row describing an edge between
   * two different non-empty ids turns back into that edge.
   */
  lemma ToEdgeRoundTrip(nodes: seq<Node>, s: int, t: int, frequency: int, kind: string)
    requires forall a, b :: 0 <= a < b < |nodes| ==> nodes[a].labelText != nodes[b].labelText
    requires 0 <= s < |nodes| && 0 <= t < |nodes|
    requires nodes[s].id != "" && nodes[t].id != "" && nodes[s].id != nodes[t].id
    ensures ToEdge(LabelIndex(nodes), EdgeRow(nodes[s], nodes[t], frequency), kind)
      == Some(Edge(nodes[s].id, nodes[t].id, kind, frequency))
  {
    LabelIndexLast(nodes, s);
    LabelIndexLast(nodes, t);
    ParseIntRoundTrip(frequency);
  }

  /** `relRows.map(r => r.relation_type)`. */
  function RowTypes(rows: seq<Record>): (types: seq<string>)
    ensures |types| == |rows|
  {
    seq(|rows|, j requires 0 <= j < |rows| => RelationType(rows[j]))
  }

  /**
   * `[...new Set(relRows.map(r => r.relation_type).filter(Boolean))]`: the
   * non-empty relation types, each once, in order of first appearance.
   */
  function RelationTypes(rows: seq<Record>): (types: seq<string>)
    ensures Distinct(types)
    ensures forall i :: 0 <= i < |types| ==> types[i] != "" && types[i] in RowTypes(rows)
  {
    Dedup(Filter(RowTypes(rows), NonEmpty))
  }

  /** The listed types are exactly the non-empty relation types of the rows. */
  lemma RelationTypesMembers(rows: seq<Record>)
    ensures forall t :: t in RelationTypes(rows) <==> t != "" && exists j :: 0 <= j < |rows| && RelationType(rows[j]) == t
  {
    var named := RowTypes(rows);
    forall t
      ensures t in RelationTypes(rows) <==> t != "" && exists j :: 0 <= j < |rows| && RelationType(rows[j]) == t
    {
      assert t in RelationTypes(rows) <==> t in Elements(Filter(named, NonEmpty));
      if j :| 0 <= j < |rows| && RelationType(rows[j]) == t {
        assert named[j] == t;
      }
    }
  }

  /** The types are listed in the order in which their first row appears. */
  lemma RelationTypesOrder(rows: seq<Record>)
    ensures forall i, j :: 0 <= i < j < |RelationTypes(rows)| ==>
      FirstIndexOf(RowTypes(rows), RelationTypes(rows)[i]) < FirstIndexOf(RowTypes(rows), RelationTypes(rows)[j])
  {
    var named := RowTypes(rows);
    var types := RelationTypes(rows);
    DedupOrder(Filter(named, NonEmpty));
    forall i, j | 0 <= i < j < |types|
      ensures FirstIndexOf(named, types[i]) < FirstIndexOf(named, types[j])
    {
      FilterFirstIndexOf(named, NonEmpty, types[i], types[j]);
    }
  }

  /** `Boolean` on strings. */
  function NonEmpty(s: string): bool
  {
    s != ""
  }
}

=== FILE: khop.dfy ===
/**
 * Bounded neighbourhood extraction (`buildAdjacency` and `kHopSubgraph`):
 * breadth-first frontier expansion from a centre id for at most `hops`
 * rounds, following out-edges, in-edges or both, then restricting the input
 * nodes and edges to the ids reached.
 */
module KHop {
  import opened Wrappers
  import opened Seqs
  import opened Graph

  /** Which edge directions a traversal may follow. */
  datatype Follow = Follow(outward: bool, inward: bool)

  /**
   * The curated explorer recognises exactly "both", "out" and "in"; any
   * other direction string follows no edge at all.
   */
  function ShinriFollow(direction: string): (f: Follow)
    ensures f.outward <==> direction in {"both", "out"}
    ensures f.inward <==> direction in {"both", "in"}
  {
    Follow(direction == "both" || direction == "out", direction == "both" || direction == "in")
  }

  /**
   * The loaded-data explorer follows out-edges unless the direction is
   * "in" and in-edges unless it is "out", so any other string acts as "both".
   */
  function ExplorerFollow(direction: string): (f: Follow)
    ensures direction !in {"in", "out"} ==> f == Follow(true, true)
    ensures direction == "in" ==> f == Follow(false, true)
    ensures direction == "out" ==> f == Follow(true, false)
  {
    Follow(direction != "in", direction != "out")
  }

  // ---------------------------------------------------------------------------
  // Adjacency lists
  // ---------------------------------------------------------------------------

  datatype Adjacency = Adjacency(out: map<string, seq<string>>, inn: map<string, seq<string>>)

  /** The targets of the edges leaving `s`, in edge order, repeats kept. */
  function TargetsOf(edges: seq<Edge>, s: string): (ts: seq<string>)
    ensures forall t :: t in ts <==> exists e :: e in edges && e.source == s && e.target == t
  {
    if edges == [] then []
    else
      var e := edges[|edges| - 1];
      assert edges == edges[..|edges| - 1] + [e];
      TargetsOf(edges[..|edges| - 1], s) + (if e.source == s then [e.target] else [])
  }

  /** The sources of the edges entering `t`, in edge order, repeats kept. */
  function SourcesOf(edges: seq<Edge>, t: string): (ss: seq<string>)
    ensures forall s :: s in ss <==> exists e :: e in edges && e.source == s && e.target == t
  {
    if edges == [] then []
    else
      var e := edges[|edges| - 1];
      assert edges == edges[..|edges| - 1] + [e];
      SourcesOf(edges[..|edges| - 1], t) + (if e.target == t then [e.source] else [])
  }

  /** The ids occurring as an edge's source. */
  function SourceIds(edges: seq<Edge>): set<string>
  {
    set e | e in edges :: e.source
  }

  /** The ids occurring as an edge's target. */
  function TargetIds(edges: seq<Edge>): set<string>
  {
    set e | e in edges :: e.target
  }

  /** `out` holds, for every id occurring as a source, its edges' targets in edge order, and nothing else. */
  ghost predicate OutListsOf(edges: seq<Edge>, out: map<string, seq<string>>)
  {
    && out.Keys == SourceIds(edges)
    && forall s :: s in out ==> out[s] == TargetsOf(edges, s)
  }

  /** `inn` holds, for every id occurring as a target, its edges' sources in edge order, and nothing else. */
  ghost predicate InListsOf(edges: seq<Edge>, inn: map<string, seq<string>>)
  {
    && inn.Keys == TargetIds(edges)
    && forall t :: t in inn ==> inn[t] == SourcesOf(edges, t)
  }

  /** The lists `buildAdjacency` returns for `edges`. */
  ghost predicate AdjacencyOf(edges: seq<Edge>, a: Adjacency)
  {
    OutListsOf(edges, a.out) && InListsOf(edges, a.inn)
  }

  /**
   * `buildAdjacency`: one pass over the edges pushing each target onto its
   * source's out-list and each source onto its target's in-list.
   */
  function BuildAdjacency(edges: seq<Edge>): (a: Adjacency)
    ensures AdjacencyOf(edges, a)
  {
    if edges == [] then Adjacency(map[], map[])
    else
      var init := edges[..|edges| - 1];
      var e := edges[|edges| - 1];
      var a := BuildAdjacency(init);
      var outs := if e.source in a.out then a.out[e.source] else [];
      var ins := if e.target in a.inn then a.inn[e.target] else [];
      OutPush(edges, a.out);
      InPush(edges, a.inn);
      Adjacency(a.out[e.source := outs + [e.target]], a.inn[e.target := ins + [e.source]])
  }

  lemma {:induction false} NoTargets(edges: seq<Edge>, s: string)
    requires forall e :: e in edges ==> e.source != s
    ensures TargetsOf(edges, s) == []
  {
    if edges != [] {
      NoTargets(edges[..|edges| - 1], s);
    }
  }

  lemma {:induction false} NoSources(edges: seq<Edge>, t: string)
    requires forall e :: e in edges ==> e.target != t
    ensures SourcesOf(edges, t) == []
  {
    if edges != [] {
      NoSources(edges[..|edges| - 1], t);
    }
  }

  /** Adding an edge adds its source to the source ids and its target to the target ids. */
  lemma EndpointIdsSnoc(edges: seq<Edge>)
    requires edges != []
    ensures SourceIds(edges) == SourceIds(edges[..|edges| - 1]) + {edges[|edges| - 1].source}
    ensures TargetIds(edges) == TargetIds(edges[..|edges| - 1]) + {edges[|edges| - 1].target}
  {
    assert edges == edges[..|edges| - 1] + [edges[|edges| - 1]];
  }

  /** Pushing the last edge's target onto the out-lists of the others gives the out-lists of all edges. */
  lemma OutPush(edges: seq<Edge>, out: map<string, seq<string>>)
    requires edges != []
    requires OutListsOf(edges[..|edges| - 1], out)
    ensures var e := edges[|edges| - 1];
            var outs := if e.source in out then out[e.source] else [];
            OutListsOf(edges, out[e.source := outs + [e.target]])
  {
    var init := edges[..|edges| - 1];
    var e := edges[|edges| - 1];
    var outs := if e.source in out then out[e.source] else [];
    var r := out[e.source := outs + [e.target]];
    EndpointIdsSnoc(edges);
    if e.source !in out {
      NoTargets(init, e.source);
    }
    forall s | s in r
      ensures r[s] == TargetsOf(edges, s)
    {
      assert TargetsOf(edges, s) == TargetsOf(init, s) + (if e.source == s then [e.target] else []);
    }
  }

  /** Pushing the last edge's source onto the in-lists of the others gives the in-lists of all edges. */
  lemma InPush(edges: seq<Edge>, inn: map<string, seq<string>>)
    requires edges != []
    requires InListsOf(edges[..|edges| - 1], inn)
    ensures var e := edges[|edges| - 1];
            var ins := if e.target in inn then inn[e.target] else [];
            InListsOf(edges, inn[e.target := ins + [e.source]])
  {
    var init := edges[..|edges| - 1];
    var e := edges[|edges| - 1];
    var ins := if e.target in inn then inn[e.target] else [];
    var r := inn[e.target := ins + [e.source]];
    EndpointIdsSnoc(edges);
    if e.target !in inn {
      NoSources(init, e.target);
    }
    forall t | t in r
      ensures r[t] == SourcesOf(edges, t)
    {
      assert SourcesOf(edges, t) == SourcesOf(init, t) + (if e.target == t then [e.source] else []);
    }
  }

  // ---------------------------------------------------------------------------
  // One round of expansion, and the rounds of the loop
  // ---------------------------------------------------------------------------

  /** The ids one permitted step away from `frontier`, read from the adjacency lists. */
  function Step(a: Adjacency, f: Follow, frontier: set<string>): set<string>
  {
    (if f.outward then (set n, t | n in frontier && n in a.out && t in a.out[n] :: t) else {})
    + (if f.inward then (set n, s | n in frontier && n in a.inn && s in a.inn[n] :: s) else {})
  }

  /** `for (let i = 0; i < hops; i++)` runs no round for a negative bound. */
  function Rounds(hops: int): nat
  {
    if hops < 0 then 0 else hops
  }

  // ---------------------------------------------------------------------------
  // The reference: walks of bounded length
  // ---------------------------------------------------------------------------

  /** `y` is one permitted step from `x` along some edge. */
  ghost predicate StepsTo(edges: seq<Edge>, f: Follow, x: string, y: string)
  {
    exists e :: e in edges && ((f.outward && e.source == x && e.target == y) || (f.inward && e.target == x && e.source == y))
  }

  /** A non-empty sequence of ids, each a permitted step from the one before. */
  ghost predicate IsWalk(edges: seq<Edge>, f: Follow, w: seq<string>)
  {
    |w| >= 1 && forall i :: 0 <= i < |w| - 1 ==> StepsTo(edges, f, w[i], w[i + 1])
  }

  /** Some walk of at most `k` steps leads from `centre` to `x`. */
  ghost predicate WithinHops(edges: seq<Edge>, f: Follow, centre: string, k: nat, x: string)
  {
    exists w :: IsWalk(edges, f, w) && w[0] == centre && w[|w| - 1] == x && |w| <= k + 1
  }

  /** The ids one permitted step away from `ids`, read from the edge list. */
  ghost function Neighbours(edges: seq<Edge>, f: Follow, ids: set<string>): set<string>
  {
    (set e | e in edges && f.outward && e.source in ids :: e.target)
    + (set e | e in edges && f.inward && e.target in ids :: e.source)
  }

  /** The ids within `k` steps, layer by layer. */
  ghost function Ball(edges: seq<Edge>, f: Follow, centre: string, k: nat): set<string>
  {
    if k == 0 then {centre}
    else Ball(edges, f, centre, k - 1) + Neighbours(edges, f, Ball(edges, f, centre, k - 1))
  }

  lemma NeighboursStep(edges: seq<Edge>, f: Follow, ids: set<string>, y: string)
    requires y in Neighbours(edges, f, ids)
    ensures exists x :: x in ids && StepsTo(edges, f, x, y)
  {
    if e :| e in edges && f.outward && e.source in ids && e.target == y {
      assert StepsTo(edges, f, e.source, y);
    } else {
      var e :| e in edges && f.inward && e.target in ids && e.source == y;
      assert StepsTo(edges, f, e.target, y);
    }
  }

  lemma StepNeighbours(edges: seq<Edge>, f: Follow, ids: set<string>, x: string, y: string)
    requires x in ids && StepsTo(edges, f, x, y)
    ensures y in Neighbours(edges, f, ids)
  {
    var e :| e in edges && ((f.outward && e.source == x && e.target == y) || (f.inward && e.target == x && e.source == y));
  }

  lemma NeighboursUnion(edges: seq<Edge>, f: Follow, a: set<string>, b: set<string>)
    ensures Neighbours(edges, f, a + b) == Neighbours(edges, f, a) + Neighbours(edges, f, b)
  {
  }

  /** Reading neighbours from the adjacency lists agrees with reading them from the edges. */
  lemma StepIsNeighbours(edges: seq<Edge>, a: Adjacency, f: Follow, ids: set<string>)
    requires AdjacencyOf(edges, a)
    ensures Step(a, f, ids) == Neighbours(edges, f, ids)
  {
    forall y | y in Step(a, f, ids)
      ensures y in Neighbours(edges, f, ids)
    {
      if n :| f.outward && n in ids && n in a.out && y in a.out[n] {
        var e :| e in edges && e.source == n && e.target == y;
      } else {
        var n :| f.inward && n in ids && n in a.inn && y in a.inn[n];
        var e :| e in edges && e.source == y && e.target == n;
      }
    }
    forall y | y in Neighbours(edges, f, ids)
      ensures y in Step(a, f, ids)
    {
      if e :| e in edges && f.outward && e.source in ids && e.target == y {
        assert y in a.out[e.source];
      } else {
        var e :| e in edges && f.inward && e.target in ids && e.source == y;
        assert y in a.inn[e.target];
      }
    }
  }

  lemma {:induction false} BallGrows(edges: seq<Edge>, f: Follow, centre: string, i: nat, j: nat)
    requires i <= j
    ensures Ball(edges, f, centre, i) <= Ball(edges, f, centre, j)
    decreases j
  {
    if i < j {
      BallGrows(edges, f, centre, i, j - 1);
    }
  }

  /** Once a round adds nothing, no later round does. */
  lemma {:induction false} BallStable(edges: seq<Edge>, f: Follow, centre: string, i: nat, j: nat)
    requires i <= j
    requires Ball(edges, f, centre, i + 1) == Ball(edges, f, centre, i)
    ensures Ball(edges, f, centre, j) == Ball(edges, f, centre, i)
    decreases j
  {
    if i < j {
      BallStable(edges, f, centre, i, j - 1);
    }
  }

  /** One more round adds to the visited ids exactly the unvisited neighbours of the frontier. */
  lemma BallNext(edges: seq<Edge>, f: Follow, centre: string, visited: set<string>, frontier: set<string>, i: nat)
    requires visited == Ball(edges, f, centre, i)
    requires frontier <= visited
    requires Neighbours(edges, f, visited - frontier) <= visited
    ensures Ball(edges, f, centre, i + 1) == visited + (Neighbours(edges, f, frontier) - visited)
  {
    assert visited == (visited - frontier) + frontier;
    NeighboursUnion(edges, f, visited - frontier, frontier);
  }

  /**
   * One round of the loop turns the ids within `i` steps into those within
   * `i + 1`, and the ids it adds are the new frontier.
   */
  lemma RoundAddsBall(edges: seq<Edge>, a: Adjacency, f: Follow, centre: string,
                      visited: set<string>, frontier: set<string>, i: nat)
    requires AdjacencyOf(edges, a)
    requires visited == Ball(edges, f, centre, i)
    requires frontier <= visited
    requires Neighbours(edges, f, visited - frontier) <= visited
    ensures var next := Step(a, f, frontier) - visited;
            && visited + next == Ball(edges, f, centre, i + 1)
            && Neighbours(edges, f, (visited + next) - next) <= visited + next
  {
    var next := Step(a, f, frontier) - visited;
    StepIsNeighbours(edges, a, f, frontier);
    BallNext(edges, f, centre, visited, frontier, i);
    ExpandNextRound(edges, f, centre, visited, next, i);
  }

  /** After a round, the new frontier is what was added and every older id's neighbours are visited. */
  lemma ExpandNextRound(edges: seq<Edge>, f: Follow, centre: string, visited: set<string>, next: set<string>, i: nat)
    requires visited == Ball(edges, f, centre, i)
    requires Ball(edges, f, centre, i + 1) == visited + next
    ensures next <= visited + next
    ensures Neighbours(edges, f, (visited + next) - next) <= visited + next
  {
    assert Neighbours(edges, f, visited) <= Ball(edges, f, centre, i + 1);
    assert (visited + next) - next <= visited;
  }

  lemma {:induction false} BallHasWalk(edges: seq<Edge>, f: Follow, centre: string, k: nat, x: string)
    requires x in Ball(edges, f, centre, k)
    ensures WithinHops(edges, f, centre, k, x)
    decreases k
  {
    if k == 0 {
      assert IsWalk(edges, f, [centre]);
    } else if x in Ball(edges, f, centre, k - 1) {
      BallHasWalk(edges, f, centre, k - 1, x);
      WithinMoreHops(edges, f, centre, k - 1, x);
    } else {
      NeighboursStep(edges, f, Ball(edges, f, centre, k - 1), x);
      var y :| y in Ball(edges, f, centre, k - 1) && StepsTo(edges, f, y, x);
      BallHasWalk(edges, f, centre, k - 1, y);
      WithinOneMoreHop(edges, f, centre, k - 1, y, x);
    }
  }

  /** What is within `k` steps is within `k + 1`. */
  lemma WithinMoreHops(edges: seq<Edge>, f: Follow, centre: string, k: nat, x: string)
    requires WithinHops(edges, f, centre, k, x)
    ensures WithinHops(edges, f, centre, k + 1, x)
  {
    var w :| IsWalk(edges, f, w) && w[0] == centre && w[|w| - 1] == x && |w| <= k + 1;
  }

  /** One permitted step past an id within `k` steps lands within `k + 1`. */
  lemma WithinOneMoreHop(edges: seq<Edge>, f: Follow, centre: string, k: nat, y: string, x: string)
    requires WithinHops(edges, f, centre, k, y) && StepsTo(edges, f, y, x)
    ensures WithinHops(edges, f, centre, k + 1, x)
  {
    var w :| IsWalk(edges, f, w) && w[0] == centre && w[|w| - 1] == y && |w| <= k + 1;
    WalkSnoc(edges, f, w, x);
    assert (w + [x])[0] == centre && (w + [x])[|w|] == x;
  }

  /** A walk extended by one permitted step is a walk. */
  lemma WalkSnoc(edges: seq<Edge>, f: Follow, w: seq<string>, x: string)
    requires IsWalk(edges, f, w) && StepsTo(edges, f, w[|w| - 1], x)
    ensures IsWalk(edges, f, w + [x])
  {
    var w' := w + [x];
    forall i | 0 <= i < |w'| - 1
      ensures StepsTo(edges, f, w'[i], w'[i + 1])
    {
      if i < |w| - 1 {
        assert w'[i] == w[i] && w'[i + 1] == w[i + 1];
      }
    }
  }

  lemma {:induction false} WalkInBall(edges: seq<Edge>, f: Follow, centre: string, k: nat, w: seq<string>)
    requires IsWalk(edges, f, w) && w[0] == centre && |w| <= k + 1
    ensures w[|w| - 1] in Ball(edges, f, centre, k)
    decreases |w|
  {
    if |w| == 1 {
      BallGrows(edges, f, centre, 0, k);
    } else {
      var w' := w[..|w| - 1];
      assert IsWalk(edges, f, w') by {
        forall i | 0 <= i < |w'| - 1
          ensures StepsTo(edges, f, w'[i], w'[i + 1])
        {
          assert w'[i] == w[i] && w'[i + 1] == w[i + 1];
        }
      }
      WalkInBall(edges, f, centre, k - 1, w');
      assert StepsTo(edges, f, w[|w| - 2], w[|w| - 1]);
      StepNeighbours(edges, f, Ball(edges, f, centre, k - 1), w[|w| - 2], w[|w| - 1]);
    }
  }

  // ---------------------------------------------------------------------------
  // kHopSubgraph
  // ---------------------------------------------------------------------------

  /**
   * The loop of `kHopSubgraph`: starting from the centre, each round adds the
   * not-yet-visited ids one permitted step from the frontier and makes them
   * the next frontier; it stops after `hops` rounds or as soon as a round adds
   * nothing. The ids visited are exactly those some walk of at most `hops`
   * permitted steps leads to.
   */
  method ReachedIds(edges: seq<Edge>, f: Follow, centre: string, hops: int) returns (visited: set<string>)
    ensures centre in visited
    ensures forall x :: x in visited <==> WithinHops(edges, f, centre, Rounds(hops), x)
  {
    var a := BuildAdjacency(edges);
    ghost var k := Rounds(hops);
    visited := {centre};
    var frontier: set<string> := {centre};
    var i := 0;
    while i < hops
      invariant 0 <= i <= k
      invariant visited == Ball(edges, f, centre, i)
      invariant frontier <= visited
      invariant Neighbours(edges, f, visited - frontier) <= visited
    {
      visited, frontier := Round(edges, a, f, centre, visited, frontier, i);
      i := i + 1;
      if frontier == {} {
        BallStable(edges, f, centre, i - 1, k);
        break;
      }
    }
    BallIffWithinHops(edges, f, centre, k);
  }

  /**
   * One round of the loop: the unvisited ids one permitted step from the
   * frontier are visited and become the new frontier.
   */
  method Round(edges: seq<Edge>, a: Adjacency, f: Follow, centre: string,
               visited0: set<string>, frontier0: set<string>, ghost i: nat)
    returns (visited: set<string>, frontier: set<string>)
    requires AdjacencyOf(edges, a)
    requires visited0 == Ball(edges, f, centre, i)
    requires frontier0 <= visited0
    requires Neighbours(edges, f, visited0 - frontier0) <= visited0
    ensures visited == Ball(edges, f, centre, i + 1)
    ensures frontier <= visited
    ensures Neighbours(edges, f, visited - frontier) <= visited
    ensures frontier == {} ==> visited == visited0
  {
    var next := Step(a, f, frontier0) - visited0;
    RoundAddsBall(edges, a, f, centre, visited0, frontier0, i);
    visited := visited0 + next;
    frontier := next;
  }

  /** The ids within `k` steps are exactly those some walk of at most `k` steps leads to. */
  lemma BallIffWithinHops(edges: seq<Edge>, f: Follow, centre: string, k: nat)
    ensures centre in Ball(edges, f, centre, k)
    ensures forall x :: x in Ball(edges, f, centre, k) <==> WithinHops(edges, f, centre, k, x)
  {
    BallGrows(edges, f, centre, 0, k);
    forall x
      ensures x in Ball(edges, f, centre, k) <==> WithinHops(edges, f, centre, k, x)
    {
      if x in Ball(edges, f, centre, k) {
        BallHasWalk(edges, f, centre, k, x);
      }
      if WithinHops(edges, f, centre, k, x) {
        var w :| IsWalk(edges, f, w) && w[0] == centre && w[|w| - 1] == x && |w| <= k + 1;
        WalkInBall(edges, f, centre, k, w);
      }
    }
  }

  /** The centre is within any number of hops of itself: `nodeSet` starts as `{centerId}`. */
  lemma CentreWithinHops(edges: seq<Edge>, f: Follow, centre: string, k: nat)
    ensures WithinHops(edges, f, centre, k, centre)
  {
    var w := [centre];
    assert IsWalk(edges, f, w);
  }

  /** The nodes whose id is within `k` permitted steps of the centre. */
  ghost function NodeReached(edges: seq<Edge>, f: Follow, centre: string, k: nat): Node -> bool
  {
    (n: Node) => WithinHops(edges, f, centre, k, n.id)
  }

  /** The edges whose endpoints both are within `k` permitted steps of the centre. */
  ghost function EdgeReached(edges: seq<Edge>, f: Follow, centre: string, k: nat): Edge -> bool
  {
    (e: Edge) => WithinHops(edges, f, centre, k, e.source) && WithinHops(edges, f, centre, k, e.target)
  }

  /** `!centerId`: no centre, or the empty id. */
  predicate NoCentre(centre: Option<string>)
  {
    centre.None? || centre.value == ""
  }

  /**
   * `g` cut down to the ball of radius `k` around `centre`: `g`'s nodes inside
   * it and `g`'s edges with both endpoints inside it, each in `g`'s order.
   */
  ghost function BallSubgraph(g: Subgraph, f: Follow, centre: string, k: nat): Subgraph
  {
    Subgraph(Filter(g.nodes, NodeReached(g.edges, f, centre, k)), Filter(g.edges, EdgeReached(g.edges, f, centre, k)))
  }

  /** Every node and every edge endpoint of `r` lies within `k` permitted steps of `centre`. */
  ghost predicate WithinBall(r: Subgraph, edges: seq<Edge>, f: Follow, centre: string, k: nat)
  {
    && (forall n :: n in r.nodes ==> WithinHops(edges, f, centre, k, n.id))
    && (forall e :: e in r.edges ==> WithinHops(edges, f, centre, k, e.source) && WithinHops(edges, f, centre, k, e.target))
  }

  /**
   * `kHopSubgraph`: without a centre the input comes back unchanged; otherwise
   * the nodes whose id is within `hops` permitted steps of the centre, and the
   * edges whose endpoints both are, each in input order. A referentially
   * closed input gives a closed result.
   */
  method KHopSubgraph(g: Subgraph, centre: Option<string>, hops: int, f: Follow) returns (r: Subgraph)
    ensures NoCentre(centre) ==> r == g
    ensures !NoCentre(centre) ==> forall n :: n in r.nodes <==>
      n in g.nodes && WithinHops(g.edges, f, centre.value, Rounds(hops), n.id)
    ensures !NoCentre(centre) ==> forall e :: e in r.edges <==>
      e in g.edges && WithinHops(g.edges, f, centre.value, Rounds(hops), e.source)
                   && WithinHops(g.edges, f, centre.value, Rounds(hops), e.target)
    ensures !NoCentre(centre) ==> r == BallSubgraph(g, f, centre.value, Rounds(hops))
    ensures !NoCentre(centre) ==> WithinBall(r, g.edges, f, centre.value, Rounds(hops))
    ensures forall n :: multiset(r.nodes)[n] <= multiset(g.nodes)[n]
    ensures forall e :: multiset(r.edges)[e] <= multiset(g.edges)[e]
    ensures Closed(g) ==> Closed(r)
  {
    if NoCentre(centre) {
      return g;
    }
    var reached := ReachedIds(g.edges, f, centre.value, hops);
    r := Subgraph(Filter(g.nodes, IdIn(reached)), Filter(g.edges, InsideIds(reached)));
    FilterMultiset(g.nodes, IdIn(reached));
    FilterMultiset(g.edges, InsideIds(reached));
    ReachedFilters(g, f, centre.value, Rounds(hops), reached);
    if Closed(g) {
      ReachedClosed(g, reached);
    }
  }

  /** Keeping what lies in the reached set is keeping what lies within `k` steps. */
  lemma ReachedFilters(g: Subgraph, f: Follow, centre: string, k: nat, reached: set<string>)
    requires forall x :: x in reached <==> WithinHops(g.edges, f, centre, k, x)
    ensures Filter(g.nodes, IdIn(reached)) == Filter(g.nodes, NodeReached(g.edges, f, centre, k))
    ensures Filter(g.edges, InsideIds(reached)) == Filter(g.edges, EdgeReached(g.edges, f, centre, k))
  {
    FilterSame(g.nodes, IdIn(reached), NodeReached(g.edges, f, centre, k));
    FilterSame(g.edges, InsideIds(reached), EdgeReached(g.edges, f, centre, k));
  }

  /** Restricting a closed graph to the nodes and edges inside one id set leaves it closed. */
  lemma ReachedClosed(g: Subgraph, reached: set<string>)
    requires Closed(g)
    ensures Closed(Subgraph(Filter(g.nodes, IdIn(reached)), Filter(g.edges, InsideIds(reached))))
  {
    var r := Subgraph(Filter(g.nodes, IdIn(reached)), Filter(g.edges, InsideIds(reached)));
    forall e | e in r.edges
      ensures e.source in Ids(r.nodes) && e.target in Ids(r.nodes)
    {
      var ns :| ns in g.nodes && ns.id == e.source;
      var nt :| nt in g.nodes && nt.id == e.target;
      assert ns in r.nodes && nt in r.nodes;
    }
  }

  /** In the curated explorer an unrecognised direction string reaches only the centre. */
  lemma ShinriUnknownDirection(edges: seq<Edge>, direction: string, centre: string, k: nat, x: string)
    requires direction !in {"both", "out", "in"}
    ensures WithinHops(edges, ShinriFollow(direction), centre, k, x) <==> x == centre
  {
    var f := ShinriFollow(direction);
    if WithinHops(edges, f, centre, k, x) {
      var w :| IsWalk(edges, f, w) && w[0] == centre && w[|w| - 1] == x && |w| <= k + 1;
      assert |w| > 1 ==> StepsTo(edges, f, w[0], w[1]);
    }
    if x == centre {
      var w := [centre];
      assert IsWalk(edges, f, w);
      assert w[0] == centre && w[|w| - 1] == x && |w| <= k + 1;
    }
  }

  /** Worked case: from B, one hop in both directions over A->B, B->C, C->D reaches A, B and C only. */
  lemma WithinHopsExample(x: string)
    ensures WithinHops([Edge("A", "B", "", 0), Edge("B", "C", "", 0), Edge("C", "D", "", 0)], ShinriFollow("both"), "B", 1, x)
        <==> x in {"A", "B", "C"}
  {
    var edges := [Edge("A", "B", "", 0), Edge("B", "C", "", 0), Edge("C", "D", "", 0)];
    ExampleBall(edges);
    BallIffWithinHops(edges, ShinriFollow("both"), "B", 1);
  }

  /** The one-step ball of the example path around "B". */
  lemma ExampleBall(edges: seq<Edge>)
    requires edges == [Edge("A", "B", "", 0), Edge("B", "C", "", 0), Edge("C", "D", "", 0)]
    ensures Ball(edges, ShinriFollow("both"), "B", 1) == {"A", "B", "C"}
  {
    var f := ShinriFollow("both");
    assert Neighbours(edges, f, {"B"}) == {"A", "C"} by {
      assert "C" in Neighbours(edges, f, {"B"}) by { assert edges[1] in edges; }
      assert "A" in Neighbours(edges, f, {"B"}) by { assert edges[0] in edges; }
    }
  }
}

=== FILE: layers.dfy ===
/**
 * `computeLayers`: longest-path layering. Every listed id starts at layer 0;
 * walking the order `topoSort` returns, each id lifts each of its known
 * targets to at least one layer past its own.
 */
module Layers {
  import opened Seqs
  import opened Graph
  import opened Topo

  // ---------------------------------------------------------------------------
  // The reference layering
  // ---------------------------------------------------------------------------

  function Max(a: int, b: int): int
  {
    if a < b then b else a
  }

  /**
   * One past the highest layer among the listed predecessors of `x` that lie
   * in `done`, or 0 when there is none.
   */
  function Lift(edges: seq<Edge>, ids: set<string>, done: set<string>, layer: map<string, int>, x: string): int
    requires ids <= layer.Keys
  {
    if edges == [] then 0
    else
      var e := edges[|edges| - 1];
      var rest := Lift(edges[..|edges| - 1], ids, done, layer, x);
      if Inside(e, ids) && e.source in done && e.target == x then Max(rest, layer[e.source] + 1) else rest
  }

  /**
   * Longest-path layers: an id without listed predecessors is at layer 0,
   * any other id one past the highest layer of its predecessors.
   */
  ghost predicate LongestPath(edges: seq<Edge>, ids: set<string>, layer: map<string, int>)
  {
    && layer.Keys == ids
    && forall x :: x in ids ==> layer[x] == Lift(edges, ids, ids, layer, x)
  }

  /** `Lift` is at least one past each predecessor it ranges over. */
  lemma {:induction false} LiftAbove(edges: seq<Edge>, ids: set<string>, done: set<string>, layer: map<string, int>, e: Edge)
    requires ids <= layer.Keys
    requires e in edges && Inside(e, ids) && e.source in done
    ensures Lift(edges, ids, done, layer, e.target) >= layer[e.source] + 1
  {
    var init := edges[..|edges| - 1];
    if e != edges[|edges| - 1] {
      assert edges == init + [edges[|edges| - 1]];
      LiftAbove(init, ids, done, layer, e);
    }
  }

  /** `Lift` is 0 or one past some predecessor it ranges over. */
  lemma {:induction false} LiftAttained(edges: seq<Edge>, ids: set<string>, done: set<string>, layer: map<string, int>, x: string)
    requires ids <= layer.Keys
    ensures var v := Lift(edges, ids, done, layer, x);
      v == 0 || exists e :: e in edges && Inside(e, ids) && e.source in done && e.target == x && v == layer[e.source] + 1
  {
    if edges != [] {
      var init := edges[..|edges| - 1];
      LiftAttained(init, ids, done, layer, x);
      assert edges == init + [edges[|edges| - 1]];
    }
  }

  /** `Lift` reads only the layers of the predecessors it ranges over. */
  lemma {:induction false} LiftAgree(edges: seq<Edge>, ids: set<string>, done: set<string>, a: map<string, int>, b: map<string, int>, x: string)
    requires ids <= a.Keys && ids <= b.Keys
    requires forall e :: e in edges && Inside(e, ids) && e.source in done && e.target == x ==> a[e.source] == b[e.source]
    ensures Lift(edges, ids, done, a, x) == Lift(edges, ids, done, b, x)
  {
    if edges != [] {
      var init := edges[..|edges| - 1];
      assert edges == init + [edges[|edges| - 1]];
      LiftAgree(init, ids, done, a, b, x);
    }
  }

  /** Adding `s` to the predecessors ranged over lifts exactly the known targets of `s` past it. */
  lemma {:induction false} LiftAdd(edges: seq<Edge>, ids: set<string>, done: set<string>, layer: map<string, int>, s: string, x: string)
    requires ids <= layer.Keys && s in ids && s !in done
    ensures Lift(edges, ids, done + {s}, layer, x) ==
      if x in KnownTargets(edges, ids, s) then Max(Lift(edges, ids, done, layer, x), layer[s] + 1)
      else Lift(edges, ids, done, layer, x)
  {
    if edges != [] {
      LiftAdd(edges[..|edges| - 1], ids, done, layer, s, x);
    }
  }

  /**
   * The two faces of a longest-path layering: every edge joining listed ids
   * climbs at least one layer, and each id is at layer 0 or exactly one past
   * some listed predecessor.
   */
  lemma LongestPathShape(edges: seq<Edge>, ids: set<string>, layer: map<string, int>)
    requires LongestPath(edges, ids, layer)
    ensures forall e :: e in edges && Inside(e, ids) ==> layer[e.target] >= layer[e.source] + 1
    ensures forall x :: x in ids ==>
      (layer[x] == 0 || exists e :: e in edges && Inside(e, ids) && e.target == x && layer[x] == layer[e.source] + 1)
    ensures forall x :: x in ids ==> layer[x] >= 0
  {
    forall e | e in edges && Inside(e, ids)
      ensures layer[e.target] >= layer[e.source] + 1
    {
      LiftAbove(edges, ids, ids, layer, e);
    }
    forall x | x in ids
      ensures layer[x] == 0 || exists e :: e in edges && Inside(e, ids) && e.target == x && layer[x] == layer[e.source] + 1
    {
      LiftAttained(edges, ids, ids, layer, x);
    }
    forall x | x in ids
      ensures layer[x] >= 0
    {
      LiftNonNegative(edges, ids, ids, layer, x);
    }
  }

  lemma {:induction false} LiftNonNegative(edges: seq<Edge>, ids: set<string>, done: set<string>, layer: map<string, int>, x: string)
    requires ids <= layer.Keys
    ensures Lift(edges, ids, done, layer, x) >= 0
  {
    if edges != [] {
      LiftNonNegative(edges[..|edges| - 1], ids, done, layer, x);
    }
  }

  /** Two longest-path layerings agree at `x`, by induction along a topological numbering. */
  lemma {:induction false} LongestPathAgree(edges: seq<Edge>, ids: set<string>, rank: map<string, nat>,
                                           a: map<string, int>, b: map<string, int>, x: string)
    requires Ranked(edges, ids, rank)
    requires LongestPath(edges, ids, a) && LongestPath(edges, ids, b)
    requires x in ids
    ensures a[x] == b[x]
    decreases if x in rank then rank[x] + 1 else 0
  {
    forall e | e in edges && Inside(e, ids) && e.source in ids && e.target == x
      ensures a[e.source] == b[e.source]
    {
      LongestPathAgree(edges, ids, rank, a, b, e.source);
    }
    LiftAgree(edges, ids, ids, a, b, x);
  }

  /** On an acyclic graph there is at most one longest-path layering. */
  lemma LongestPathUnique(edges: seq<Edge>, ids: set<string>, a: map<string, int>, b: map<string, int>)
    requires Acyclic(edges, ids)
    requires LongestPath(edges, ids, a) && LongestPath(edges, ids, b)
    ensures a == b
  {
    var rank :| Ranked(edges, ids, rank);
    forall x | x in ids
      ensures a[x] == b[x]
    {
      LongestPathAgree(edges, ids, rank, a, b, x);
    }
  }

  // ---------------------------------------------------------------------------
  // The relaxation
  // ---------------------------------------------------------------------------

  /** The known targets of `s` are the targets of the edges from `s` that join listed ids. */
  lemma {:induction false} KnownTargetsEdges(edges: seq<Edge>, ids: set<string>, s: string)
    ensures forall t :: t in KnownTargets(edges, ids, s) <==>
      exists e :: e in edges && Inside(e, ids) && e.source == s && e.target == t
  {
    if edges != [] {
      var init := edges[..|edges| - 1];
      KnownTargetsEdges(init, ids, s);
      assert edges == init + [edges[|edges| - 1]];
    }
  }

  /** The `out` map `computeLayers` builds: each listed id to its known targets, in edge order. */
  method TargetLists(ids: set<string>, edges: seq<Edge>) returns (out: map<string, seq<string>>)
    ensures out.Keys == ids
    ensures forall s :: s in ids ==> out[s] == KnownTargets(edges, ids, s)
  {
    out := map s | s in ids :: [];
    var j := 0;
    while j < |edges|
      invariant 0 <= j <= |edges|
      invariant out.Keys == ids
      invariant forall s :: s in ids ==> out[s] == KnownTargets(edges[..j], ids, s)
    {
      var e := edges[j];
      assert edges[..j + 1][..j] == edges[..j];
      if e.source in ids && e.target in ids {
        out := out[e.source := out[e.source] + [e.target]];
      }
      j := j + 1;
    }
    assert edges[..|edges|] == edges;
  }

  /**
   * The inner loop: each id of `ts` below layer `l + 1` is lifted to it;
   * every other entry keeps its layer.
   */
  method RaiseTargets(layer0: map<string, int>, ts: seq<string>, l: int) returns (layer: map<string, int>)
    requires forall t :: t in ts ==> t in layer0
    ensures layer.Keys == layer0.Keys
    ensures forall x :: x in layer0 ==> layer[x] == if x in ts && layer0[x] < l + 1 then l + 1 else layer0[x]
  {
    layer := layer0;
    var k := 0;
    while k < |ts|
      invariant 0 <= k <= |ts|
      invariant layer.Keys == layer0.Keys
      invariant forall x :: x in layer0 ==> layer[x] == if x in ts[..k] && layer0[x] < l + 1 then l + 1 else layer0[x]
    {
      var t := ts[k];
      assert ts[..k + 1] == ts[..k] + [t];
      if l + 1 > layer[t] {
        layer := layer[t := l + 1];
      }
      k := k + 1;
    }
    assert ts[..|ts|] == ts;
  }

  /** Once the ids in `done` have been walked, each id sits one past its highest predecessor in `done`. */
  ghost predicate Relaxed(edges: seq<Edge>, ids: set<string>, done: set<string>, layer: map<string, int>)
  {
    && layer.Keys == ids
    && forall x :: x in ids ==> layer[x] == Lift(edges, ids, done, layer, x)
  }

  /**
   * Walking `id`, none of whose targets is done or `id` itself, extends the
   * relaxed set by `id`.
   */
  lemma RelaxStep(edges: seq<Edge>, ids: set<string>, done: set<string>, id: string,
                  layer0: map<string, int>, layer: map<string, int>)
    requires Relaxed(edges, ids, done, layer0)
    requires id in ids && id !in done
    requires forall e :: e in edges && Inside(e, ids) && e.source == id ==> e.target !in done + {id}
    requires layer.Keys == ids
    requires forall x :: x in ids ==>
      layer[x] == (if x in KnownTargets(edges, ids, id) && layer0[x] < layer0[id] + 1 then layer0[id] + 1 else layer0[x])
    ensures Relaxed(edges, ids, done + {id}, layer)
  {
    KnownTargetsEdges(edges, ids, id);
    forall x | x in ids
      ensures layer[x] == Lift(edges, ids, done + {id}, layer, x)
    {
      LiftAdd(edges, ids, done, layer0, id, x);
      forall e | e in edges && Inside(e, ids) && e.source in done + {id} && e.target == x
        ensures layer0[e.source] == layer[e.source]
      {
        assert e.source !in KnownTargets(edges, ids, id);
      }
      LiftAgree(edges, ids, done + {id}, layer0, layer, x);
    }
  }

  /**
   * On an acyclic graph the order is topological and free of repeats: the
   * predecessors of its `i`-th id come before it, and its targets after.
   */
  lemma OrderFacts(nodeIds: seq<string>, edges: seq<Edge>, order: seq<string>, i: int)
    requires Acyclic(edges, Elements(nodeIds))
    requires order == TopoOrder(nodeIds, edges)
    requires 0 <= i < |order|
    ensures order[i] in Elements(nodeIds) && order[i] !in Elements(order[..i])
    ensures Elements(order[..i + 1]) == Elements(order[..i]) + {order[i]}
    ensures forall e :: e in edges && Inside(e, Elements(nodeIds)) && e.source == order[i] ==>
      e.target !in Elements(order[..i]) + {order[i]}
  {
    var ids := Elements(nodeIds);
    TopoAcyclic(nodeIds, edges);
    KahnBasics(edges, ids);
    assert order[..i + 1] == order[..i] + [order[i]];
    assert order[i] in order;
    forall e | e in edges && Inside(e, ids) && e.source == order[i]
      ensures e.target !in Elements(order[..i]) + {order[i]}
    {
      NotBehind(order, i, e);
    }
  }

  /** In an order without repeats where the edge's source precedes its target, the target is not at or before the source. */
  lemma NotBehind(order: seq<string>, i: int, e: Edge)
    requires Distinct(order) && 0 <= i < |order| && e.source == order[i]
    requires forall j :: 0 <= j < |order| && e.target == order[j] ==> e.source in order[..j]
    ensures e.target !in Elements(order[..i]) + {order[i]}
  {
    if e.target in Elements(order[..i]) + {order[i]} {
      assert false;
    }
  }

  /** The Kahn order lists known ids, each once. */
  lemma KahnBasics(edges: seq<Edge>, ids: set<string>)
    ensures Elements(Kahn(edges, ids)) <= ids && Distinct(Kahn(edges, ids))
  {
    KahnShape(edges, ids);
  }

  /**
   * `computeLayers`: every listed id gets a layer of at least 0, and on an
   * acyclic graph the layers are the longest-path layers.
   */
  method ComputeLayers(nodeIds: seq<string>, edges: seq<Edge>) returns (layer: map<string, int>)
    ensures layer.Keys == Elements(nodeIds)
    ensures forall x :: x in layer ==> layer[x] >= 0
    ensures Acyclic(edges, Elements(nodeIds)) ==> LongestPath(edges, Elements(nodeIds), layer)
  {
    var order := TopoSort(nodeIds, edges);
    var ids := Elements(nodeIds);
    TopoPermutation(nodeIds, edges);
    layer := map x | x in ids :: 0;
    var out := TargetLists(ids, edges);
    ghost var acyclic := Acyclic(edges, ids);
    InitiallyRelaxed(edges, ids);
    assert Elements(order[..0]) == {};
    var i := 0;
    while i < |order|
      invariant 0 <= i <= |order|
      invariant layer.Keys == ids
      invariant forall x :: x in ids ==> layer[x] >= 0
      invariant acyclic ==> Relaxed(edges, ids, Elements(order[..i]), layer)
    {
      layer := WalkId(nodeIds, edges, order, out, i, layer);
      i := i + 1;
    }
    WalkedAll(edges, ids, order, layer);
  }

  /** Once the whole order is walked, the relaxed layers are the longest-path layers. */
  lemma WalkedAll(edges: seq<Edge>, ids: set<string>, order: seq<string>, layer: map<string, int>)
    requires Elements(order) == ids
    requires Acyclic(edges, ids) ==> Relaxed(edges, ids, Elements(order[..|order|]), layer)
    ensures Acyclic(edges, ids) ==> LongestPath(edges, ids, layer)
  {
    assert order[..|order|] == order;
  }

  /** Before the walk every layer is 0, which is what an empty set of walked ids gives. */
  lemma InitiallyRelaxed(edges: seq<Edge>, ids: set<string>)
    ensures Relaxed(edges, ids, {}, map x | x in ids :: 0)
  {
    var layer := map x | x in ids :: 0;
    forall x | x in ids
      ensures layer[x] == Lift(edges, ids, {}, layer, x)
    {
      LiftAttained(edges, ids, {}, layer, x);
    }
  }

  /** One round of the outer loop: the `i`-th id of the order lifts its known targets. */
  method WalkId(nodeIds: seq<string>, edges: seq<Edge>, order: seq<string>, out: map<string, seq<string>>,
                i: int, layer0: map<string, int>) returns (layer: map<string, int>)
    requires order == TopoOrder(nodeIds, edges) && Elements(order) == Elements(nodeIds)
    requires 0 <= i < |order|
    requires forall s :: s in Elements(nodeIds) ==> s in out && out[s] == KnownTargets(edges, Elements(nodeIds), s)
    requires layer0.Keys == Elements(nodeIds)
    requires forall x :: x in layer0 ==> layer0[x] >= 0
    requires Acyclic(edges, Elements(nodeIds)) ==> Relaxed(edges, Elements(nodeIds), Elements(order[..i]), layer0)
    ensures layer.Keys == Elements(nodeIds)
    ensures forall x :: x in layer ==> layer[x] >= 0
    ensures Acyclic(edges, Elements(nodeIds)) ==> Relaxed(edges, Elements(nodeIds), Elements(order[..i + 1]), layer)
  {
    var ids := Elements(nodeIds);
    var id := order[i];
    assert id in Elements(order);
    var l := layer0[id];
    KnownTargetsListed(edges, ids, id);
    layer := RaiseTargets(layer0, out[id], l);
    if Acyclic(edges, ids) {
      OrderFacts(nodeIds, edges, order, i);
      RelaxStep(edges, ids, Elements(order[..i]), id, layer0, layer);
    }
  }

  // ---------------------------------------------------------------------------
  // A worked example
  // ---------------------------------------------------------------------------

  /** A→B, B→C, A→D. */
  function ExampleEdges(): seq<Edge>
  {
    [Edge("A", "B", "", 0), Edge("B", "C", "", 0), Edge("A", "D", "", 0)]
  }

  /** On A→B, B→C, A→D the only longest-path layering is A=0, B=1, D=1, C=2. */
  lemma LayersExample(layer: map<string, int>)
    requires LongestPath(ExampleEdges(), {"A", "B", "C", "D"}, layer)
    ensures layer == map["A" := 0, "B" := 1, "C" := 2, "D" := 1]
  {
    var edges := ExampleEdges();
    var ids: set<string> := {"A", "B", "C", "D"};
    var want := map["A" := 0, "B" := 1, "C" := 2, "D" := 1];
    var rank: map<string, nat> := map["A" := 0, "B" := 1, "C" := 2, "D" := 1];
    assert Ranked(edges, ids, rank);
    forall x | x in ids
      ensures want[x] == Lift(edges, ids, ids, want, x)
    {
      var e1 := [edges[0]];
      var e2 := [edges[0], edges[1]];
      assert e1[..0] == [] && e2[..1] == e1 && edges[..2] == e2;
      assert Lift(e1, ids, ids, want, x) == if x == "B" then 1 else 0;
      assert Lift(e2, ids, ids, want, x) == if x == "B" then 1 else if x == "C" then 2 else 0;
    }
    LongestPathUnique(edges, ids, layer, want);
  }
}

=== FILE: layout.dfy ===
/**
 * `layoutDAG` (positions only): the ids of each layer are sorted and laid
 * out on an integer grid, one column (or row) per layer and one slot per id
 * within it, starting at (40, 40).
 */
module Layout {
  import opened Seqs
  import opened Strings
  import opened Graph
  import opened Topo
  import opened Layers

  datatype Point = Point(x: int, y: int)

  /**
   * Grid steps: with direction "LR" layers advance along x by `lrLayer` and
   * slots along y by `lrRow`; otherwise slots advance along x by `tbSlot`
   * and layers along y by `tbLayer`.
   */
  datatype Spacing = Spacing(lrLayer: int, lrRow: int, tbSlot: int, tbLayer: int)
  {
    predicate Positive()
    {
      lrLayer > 0 && lrRow > 0 && tbSlot > 0 && tbLayer > 0
    }
  }

  /** The steps of the curated explorer: 280/90 across, 260/90 down. */
  const ShinriSpacing := Spacing(280, 90, 260, 90)

  /** The steps of the loaded-data explorer: 320/120 across, 280/120 down. */
  const ExplorerSpacing := Spacing(320, 120, 280, 120)

  /** A laid-out node: the input node with its handle sides and grid position. */
  datatype Placed = Placed(node: Node, targetSide: string, sourceSide: string, position: Point)

  /** `id => (layer.get(id) || 0) === l`. */
  function InLayer(layer: map<string, int>, l: int): string -> bool
  {
    (x: string) => x in layer && layer[x] == l
  }

  /** `buckets.get(l)` after sorting: the ids at layer `l`, in input order and then sorted. */
  function Bucket(ids: seq<string>, layer: map<string, int>, l: int): seq<string>
  {
    Sort(Filter(ids, InLayer(layer, l)))
  }

  /** Sorting keeps exactly the elements it was given. */
  lemma SortMembers(s: seq<string>)
    ensures forall x :: x in Sort(s) <==> x in s
  {
    forall x
      ensures x in Sort(s) <==> x in s
    {
      assert x in Sort(s) <==> x in multiset(Sort(s));
    }
  }

  /** A listed id lies in the bucket of its own layer. */
  lemma InOwnBucket(ids: seq<string>, layer: map<string, int>, id: string)
    requires id in ids && id in layer
    ensures id in Bucket(ids, layer, layer[id])
  {
    SortMembers(Filter(ids, InLayer(layer, layer[id])));
  }

  /**
   * `pos.get(id)`: the last write for `id` wins, so its slot is the last
   * index of `id` in its sorted bucket.
   */
  function Position(ids: seq<string>, layer: map<string, int>, horizontal: bool, sp: Spacing, id: string): Point
    requires id in ids && id in layer
  {
    InOwnBucket(ids, layer, id);
    var l := layer[id];
    var i := LastIndexOf(Bucket(ids, layer, l), id);
    if horizontal then Point(40 + l * sp.lrLayer, 40 + i * sp.lrRow)
    else Point(40 + i * sp.tbSlot, 40 + l * sp.tbLayer)
  }

  /**
   * `layoutDAG`: the nodes in input order, each with the handle sides of the
   * direction and the grid position of its layer and slot. `layer` is the
   * `computeLayers` map the positions were drawn from.
   */
  method LayoutDag(nodes: seq<Node>, edges: seq<Edge>, direction: string, sp: Spacing)
    returns (placed: seq<Placed>, layer: map<string, int>)
    ensures layer.Keys == Ids(nodes)
    ensures forall x :: x in layer ==> layer[x] >= 0
    ensures Acyclic(edges, Ids(nodes)) ==> LongestPath(edges, Ids(nodes), layer)
    ensures |placed| == |nodes|
    ensures forall k :: 0 <= k < |nodes| ==> placed[k].node == nodes[k]
    ensures forall k :: 0 <= k < |nodes| ==>
      (if direction == "LR" then placed[k].targetSide == "left" && placed[k].sourceSide == "right"
       else placed[k].targetSide == "top" && placed[k].sourceSide == "bottom")
    ensures forall k :: 0 <= k < |nodes| ==>
      nodes[k].id in IdList(nodes) && nodes[k].id in layer &&
      placed[k].position == Position(IdList(nodes), layer, direction == "LR", sp, nodes[k].id)
  {
    var ids := IdList(nodes);
    layer := ComputeLayers(ids, edges);
    var horizontal := direction == "LR";
    var targetSide := if horizontal then "left" else "top";
    var sourceSide := if horizontal then "right" else "bottom";
    placed := seq(|nodes|, k requires 0 <= k < |nodes| =>
      assert ids[k] == nodes[k].id && ids[k] in ids;
      Placed(nodes[k], targetSide, sourceSide, Position(ids, layer, horizontal, sp, nodes[k].id)));
  }

  // ---------------------------------------------------------------------------
  // Properties of the grid
  // ---------------------------------------------------------------------------

  lemma MulMonotone(a: int, b: int, s: int)
    requires a < b && s > 0
    ensures a * s < b * s
  {
    assert b * s - a * s == (b - a) * s;
  }

  /** Two different listed ids never share a position. */
  lemma DistinctPositions(ids: seq<string>, layer: map<string, int>, horizontal: bool, sp: Spacing, x: string, y: string)
    requires sp.Positive()
    requires x in ids && x in layer && y in ids && y in layer && x != y
    ensures Position(ids, layer, horizontal, sp, x) != Position(ids, layer, horizontal, sp, y)
  {
    var lx, ly := layer[x], layer[y];
    if lx != ly {
      if lx < ly {
        MulMonotone(lx, ly, sp.lrLayer);
        MulMonotone(lx, ly, sp.tbLayer);
      } else {
        MulMonotone(ly, lx, sp.lrLayer);
        MulMonotone(ly, lx, sp.tbLayer);
      }
    } else {
      InOwnBucket(ids, layer, x);
      InOwnBucket(ids, layer, y);
      var b := Bucket(ids, layer, lx);
      var i, j := LastIndexOf(b, x), LastIndexOf(b, y);
      assert i != j;
      if i < j {
        MulMonotone(i, j, sp.lrRow);
        MulMonotone(i, j, sp.tbSlot);
      } else {
        MulMonotone(j, i, sp.lrRow);
        MulMonotone(j, i, sp.tbSlot);
      }
    }
  }

  /** The bucket of layer `l` holds exactly the listed ids at layer `l`. */
  lemma BucketMembers(ids: seq<string>, layer: map<string, int>, l: int)
    ensures forall y :: y in Bucket(ids, layer, l) <==> y in ids && y in layer && layer[y] == l
  {
    SortMembers(Filter(ids, InLayer(layer, l)));
  }

  /** The listed ids that share the layer of `x` and sort before it. */
  function LayerMatesBefore(ids: seq<string>, layer: map<string, int>, x: string): set<string>
    requires x in layer
  {
    set y | y in ids && y in layer && layer[y] == layer[x] && Less(y, x)
  }

  /** In an ascending list without repeats, an element's index counts the elements below it. */
  lemma IndexIsRank(b: seq<string>, x: string)
    requires Sorted(b) && Distinct(b) && x in b
    ensures LastIndexOf(b, x) == |Before(b, x)|
  {
    var i := LastIndexOf(b, x);
    SortedDistinctPosition(b, i);
  }

  /**
   * With no repeated ids, an id's slot is the number of ids of its layer
   * that sort before it.
   */
  lemma SlotIsRank(ids: seq<string>, layer: map<string, int>, x: string)
    requires Distinct(ids)
    requires x in ids && x in layer
    ensures x in Bucket(ids, layer, layer[x]) &&
      LastIndexOf(Bucket(ids, layer, layer[x]), x) == |LayerMatesBefore(ids, layer, x)|
  {
    var b := Bucket(ids, layer, layer[x]);
    BucketMembers(ids, layer, layer[x]);
    FilterDistinct(ids, InLayer(layer, layer[x]));
    SortDistinct(Filter(ids, InLayer(layer, layer[x])));
    IndexIsRank(b, x);
    assert Before(b, x) == LayerMatesBefore(ids, layer, x);
  }

  /**
   * On an acyclic graph every edge joining laid-out nodes points forward:
   * rightwards for "LR", downwards otherwise.
   */
  lemma EdgesPointForward(ids: seq<string>, edges: seq<Edge>, layer: map<string, int>, horizontal: bool, sp: Spacing, e: Edge)
    requires sp.Positive()
    requires LongestPath(edges, Elements(ids), layer)
    requires e in edges && Inside(e, Elements(ids))
    ensures var ps := Position(ids, layer, horizontal, sp, e.source);
            var pt := Position(ids, layer, horizontal, sp, e.target);
            if horizontal then ps.x < pt.x else ps.y < pt.y
  {
    LongestPathShape(edges, Elements(ids), layer);
    MulMonotone(layer[e.source], layer[e.target], sp.lrLayer);
    MulMonotone(layer[e.source], layer[e.target], sp.tbLayer);
  }

  /** Ids share a column ("LR") or a row (otherwise) exactly when they share a layer. */
  lemma SameLayerAligned(ids: seq<string>, layer: map<string, int>, horizontal: bool, sp: Spacing, x: string, y: string)
    requires sp.Positive()
    requires x in ids && x in layer && y in ids && y in layer
    ensures var px := Position(ids, layer, horizontal, sp, x);
            var py := Position(ids, layer, horizontal, sp, y);
            layer[x] == layer[y] <==> if horizontal then px.x == py.x else px.y == py.y
  {
    var lx, ly := layer[x], layer[y];
    if lx < ly {
      MulMonotone(lx, ly, sp.lrLayer);
      MulMonotone(lx, ly, sp.tbLayer);
    } else if ly < lx {
      MulMonotone(ly, lx, sp.lrLayer);
      MulMonotone(ly, lx, sp.tbLayer);
    }
  }
}

=== FILE: seqs.dfy ===
/** Generic sequence helpers: `Array.prototype.filter`, distinctness, positions. */
module Seqs {
  import opened Wrappers

  /** No element occurs twice. */
  predicate Distinct<T(==)>(s: seq<T>)
  {
    forall i, j :: 0 <= i < j < |s| ==> s[i] != s[j]
  }

  /** The set of elements of a sequence (`new Set(s)`). */
  function Elements<T>(s: seq<T>): set<T>
  {
    set x | x in s
  }

  /** `s.filter(p)`: the elements satisfying `p`, in order, with their multiplicities. */
  function Filter<T(!new)>(s: seq<T>, p: T -> bool): (r: seq<T>)
    ensures |r| <= |s|
    ensures forall x :: x in r <==> x in s && p(x)
  {
    if s == [] then []
    else
      assert s == [s[0]] + s[1..];
      (if p(s[0]) then [s[0]] else []) + Filter(s[1..], p)
  }

  /** Filtering keeps every element satisfying `p` as often as it occurs, and no other. */
  lemma {:induction false} FilterMultiset<T(!new)>(s: seq<T>, p: T -> bool)
    ensures forall x :: multiset(Filter(s, p))[x] == if p(x) then multiset(s)[x] else 0
  {
    if s != [] {
      FilterMultiset(s[1..], p);
      assert s == [s[0]] + s[1..];
    }
  }

  /** Filtering keeps relative order: it distributes over concatenation. */
  lemma {:induction false} FilterAppend<T(!new)>(a: seq<T>, b: seq<T>, p: T -> bool)
    ensures Filter(a + b, p) == Filter(a, p) + Filter(b, p)
  {
    if a == [] {
      assert a + b == b;
    } else {
      var c := a + b;
      assert c[0] == a[0] && c[1..] == a[1..] + b;
      FilterAppend(a[1..], b, p);
      assert Filter(c, p) == (if p(a[0]) then [a[0]] else []) + Filter(c[1..], p);
    }
  }

  /** Filtering a sequence that satisfies `p` everywhere gives it back. */
  lemma {:induction false} FilterAll<T(!new)>(s: seq<T>, p: T -> bool)
    requires forall x :: x in s ==> p(x)
    ensures Filter(s, p) == s
  {
    if s != [] {
      FilterAll(s[1..], p);
    }
  }

  /** Filtering a sequence no element of which satisfies `p` gives the empty sequence. */
  lemma {:induction false} FilterNone<T(!new)>(s: seq<T>, p: T -> bool)
    requires forall x :: x in s ==> !p(x)
    ensures Filter(s, p) == []
  {
    if s != [] {
      FilterNone(s[1..], p);
    }
  }

  /** Filtering a distinct sequence gives a distinct sequence. */
  lemma FilterDistinct<T(!new)>(s: seq<T>, p: T -> bool)
    requires Distinct(s)
    ensures Distinct(Filter(s, p))
  {
    var r := Filter(s, p);
    FilterMultiset(s, p);
    forall x | x in r
      ensures multiset(r)[x] <= 1
    {
      DistinctCount(s, x);
    }
    CountedDistinct(r);
  }

  /** In a distinct sequence every element occurs once. */
  lemma {:induction false} DistinctCount<T>(s: seq<T>, x: T)
    requires Distinct(s)
    ensures multiset(s)[x] <= 1
  {
    if s != [] {
      assert s == [s[0]] + s[1..];
      assert Distinct(s[1..]);
      DistinctCount(s[1..], x);
      if s[0] == x {
        assert x !in s[1..];
      }
    }
  }

  /** A sequence whose elements each occur at most once is distinct. */
  lemma CountedDistinct<T>(s: seq<T>)
    requires forall x :: x in s ==> multiset(s)[x] <= 1
    ensures Distinct(s)
  {
    forall i, j | 0 <= i < j < |s|
      ensures s[i] != s[j]
    {
      assert s == s[..i] + [s[i]] + s[i+1..j] + [s[j]] + s[j+1..];
      assert multiset(s) == multiset(s[..i]) + multiset{s[i]} + multiset(s[i+1..j]) + multiset{s[j]} + multiset(s[j+1..]);
      assert multiset(s)[s[i]] >= (if s[i] == s[j] then 2 else 1);
    }
  }

  /** Appending a new element keeps a sequence free of repeats. */
  lemma DistinctSnoc<T>(s: seq<T>, x: T)
    requires Distinct(s) && x !in s
    ensures Distinct(s + [x])
  {
  }

  /** A distinct sequence has as many elements as its element set. */
  lemma {:induction false} DistinctCard<T>(s: seq<T>)
    requires Distinct(s)
    ensures |Elements(s)| == |s|
  {
    if s != [] {
      assert Distinct(s[1..]);
      DistinctCard(s[1..]);
      assert Elements(s) == {s[0]} + Elements(s[1..]);
      assert s[0] !in Elements(s[1..]);
    }
  }

  /** Any sequence has at least as many positions as distinct elements. */
  lemma {:induction false} CardAtMostLength<T>(s: seq<T>)
    ensures |Elements(s)| <= |s|
  {
    if s != [] {
      CardAtMostLength(s[1..]);
      assert Elements(s) == {s[0]} + Elements(s[1..]);
    }
  }

  /** The last position holding `x` (the slot a sequence of overwriting writes leaves in force). */
  function LastIndexOf<T(==)>(s: seq<T>, x: T): (i: nat)
    requires x in s
    ensures i < |s| && s[i] == x
    ensures forall j :: i < j < |s| ==> s[j] != x
  {
    if s[|s| - 1] == x then |s| - 1 else LastIndexOf(s[..|s| - 1], x)
  }

  /** The distinct elements in order of first occurrence (the key order of `new Map(s.map(...))`). */
  function Dedup<T(==)>(s: seq<T>): (r: seq<T>)
    ensures Distinct(r)
    ensures Elements(r) == Elements(s)
    ensures forall i :: 0 <= i < |r| ==> r[i] in s
  {
    if s == [] then []
    else
      var init := s[..|s| - 1];
      var d := Dedup(init);
      assert s == init + [s[|s| - 1]];
      assert Elements(s) == Elements(init) + {s[|s| - 1]};
      if s[|s| - 1] in d then d else d + [s[|s| - 1]]
  }

  /** Two sequences with the same elements, the first without repeats, have the first no longer than the second. */
  lemma DistinctShorter<T>(a: seq<T>, b: seq<T>)
    requires Distinct(a) && Elements(a) == Elements(b)
    ensures |a| <= |b|
  {
    DistinctCard(a);
    CardAtMostLength(b);
  }

  /** A subset as large as its superset is the whole set. */
  lemma SubsetCard<T>(a: set<T>, b: set<T>)
    requires a <= b && |a| >= |b|
    ensures a == b
  {
    if a != b {
      var x :| x in b && x !in a;
      assert a <= b - {x};
      SubsetNoLarger(a, b - {x});
    }
  }

  lemma {:induction false} SubsetNoLarger<T>(a: set<T>, b: set<T>)
    requires a <= b
    ensures |a| <= |b|
    decreases |a|
  {
    if a != {} {
      var x :| x in a;
      SubsetNoLarger(a - {x}, b - {x});
    }
  }

  /** `s.map(f).filter(Boolean)` for a partial `f`: the defined results, in order. */
  function Collect<A, B>(s: seq<A>, f: A -> Option<B>): (r: seq<B>)
    ensures |r| <= |s|
  {
    if s == [] then []
    else
      var rest := Collect(s[..|s| - 1], f);
      match f(s[|s| - 1])
      case Some(b) => rest + [b]
      case None => rest
  }

  /** A result is collected exactly when some element maps to it. */
  lemma {:induction false} CollectMembers<A, B>(s: seq<A>, f: A -> Option<B>)
    ensures forall b :: b in Collect(s, f) <==> exists j :: 0 <= j < |s| && f(s[j]) == Some(b)
  {
    if s != [] {
      var init := s[..|s| - 1];
      CollectMembers(init, f);
      forall b
        ensures b in Collect(s, f) <==> exists j :: 0 <= j < |s| && f(s[j]) == Some(b)
      {
        if b in Collect(init, f) {
          var j :| 0 <= j < |init| && f(init[j]) == Some(b);
          assert s[j] == init[j];
        }
        if j :| 0 <= j < |s| && f(s[j]) == Some(b) {
          if j < |init| {
            assert s[j] == init[j];
          }
        }
      }
    }
  }

  /** Predicates that agree on every element filter alike. */
  lemma {:induction false} FilterSame<T(!new)>(s: seq<T>, p: T -> bool, q: T -> bool)
    requires forall x :: x in s ==> p(x) == q(x)
    ensures Filter(s, p) == Filter(s, q)
  {
    if s != [] {
      FilterSame(s[1..], p, q);
    }
  }

  /** The first position holding `x` (the position `indexOf` returns). */
  function FirstIndexOf<T(==)>(s: seq<T>, x: T): (i: nat)
    requires x in s
    ensures i < |s| && s[i] == x
    ensures forall j :: 0 <= j < i ==> s[j] != x
  {
    if s[0] == x then 0
    else
      assert s == [s[0]] + s[1..];
      1 + FirstIndexOf(s[1..], x)
  }

  /** Appending does not move the first occurrence of an element already present. */
  lemma FirstIndexOfPrefix<T>(a: seq<T>, b: seq<T>, x: T)
    requires x in a
    ensures FirstIndexOf(a + b, x) == FirstIndexOf(a, x)
  {
    var i := FirstIndexOf(a, x);
    var k := FirstIndexOf(a + b, x);
    assert (a + b)[i] == x;
  }

  /** `Dedup` lists the elements in the order of their first occurrences. */
  lemma {:induction false} DedupOrder<T>(s: seq<T>)
    ensures forall i, j :: 0 <= i < j < |Dedup(s)| ==> FirstIndexOf(s, Dedup(s)[i]) < FirstIndexOf(s, Dedup(s)[j])
  {
    if s != [] {
      var init := s[..|s| - 1];
      var x := s[|s| - 1];
      var d := Dedup(init);
      DedupOrder(init);
      assert s == init + [x];
      forall y | y in init
        ensures FirstIndexOf(s, y) == FirstIndexOf(init, y) < |init|
      {
        FirstIndexOfPrefix(init, [x], y);
      }
      var r := Dedup(s);
      assert r == if x in d then d else d + [x];
      forall i, j | 0 <= i < j < |r|
        ensures FirstIndexOf(s, r[i]) < FirstIndexOf(s, r[j])
      {
        assert r[i] == d[i] && d[i] in init;
        if j < |d| {
          assert r[j] == d[j] && d[j] in init;
        } else {
          assert x !in Elements(init);
          assert s[|init|] == x;
        }
      }
    }
  }

  /** Prepending elements other than `x` shifts its first occurrence by their number. */
  lemma FirstIndexOfShift<T>(pre: seq<T>, tail: seq<T>, x: T)
    requires x in tail && x !in pre
    ensures FirstIndexOf(pre + tail, x) == |pre| + FirstIndexOf(tail, x)
  {
    var k := FirstIndexOf(tail, x);
    assert (pre + tail)[|pre| + k] == x;
  }

  /** A filter keeps the order of first occurrences of the elements it keeps. */
  lemma {:induction false} FilterFirstIndexOf<T(!new)>(s: seq<T>, p: T -> bool, x: T, y: T)
    requires x in s && y in s && p(x) && p(y)
    requires FirstIndexOf(Filter(s, p), x) < FirstIndexOf(Filter(s, p), y)
    ensures FirstIndexOf(s, x) < FirstIndexOf(s, y)
  {
    assert s == [s[0]] + s[1..];
    if s[0] != x && s[0] != y {
      var pre := if p(s[0]) then [s[0]] else [];
      var tail := Filter(s[1..], p);
      assert Filter(s, p) == pre + tail;
      FirstIndexOfShift(pre, tail, x);
      FirstIndexOfShift(pre, tail, y);
      FilterFirstIndexOf(s[1..], p, x, y);
      FirstIndexOfShift([s[0]], s[1..], x);
      FirstIndexOfShift([s[0]], s[1..], y);
    }
  }

  /** The positions of `s` that `f` maps to something, in increasing order. */
  function CollectedAt<A, B>(s: seq<A>, f: A -> Option<B>): seq<nat>
  {
    if s == [] then []
    else CollectedAt(s[..|s| - 1], f) + (if f(s[|s| - 1]).Some? then [|s| - 1] else [])
  }

  /**
   * `Collect` yields one result per element that maps to something, in the
   * elements' order: the i-th result comes from the i-th such position.
   */
  lemma {:induction false} CollectInOrder<A, B>(s: seq<A>, f: A -> Option<B>)
    ensures |CollectedAt(s, f)| == |Collect(s, f)|
    ensures forall i :: 0 <= i < |CollectedAt(s, f)| ==>
      CollectedAt(s, f)[i] < |s| && f(s[CollectedAt(s, f)[i]]) == Some(Collect(s, f)[i])
    ensures forall i, k :: 0 <= i < k < |CollectedAt(s, f)| ==> CollectedAt(s, f)[i] < CollectedAt(s, f)[k]
    ensures forall j :: 0 <= j < |s| && f(s[j]).Some? ==> j in CollectedAt(s, f)
  {
    if s != [] {
      var init := s[..|s| - 1];
      var last := |s| - 1;
      CollectInOrder(init, f);
      var idx0 := CollectedAt(init, f);
      var rest := Collect(init, f);
      forall i | 0 <= i < |idx0|
        ensures s[idx0[i]] == init[idx0[i]]
      {
      }
      forall j | 0 <= j < last
        ensures s[j] == init[j]
      {
      }
      match f(s[last])
      case Some(b) =>
        assert Collect(s, f) == rest + [b];
        assert CollectedAt(s, f) == idx0 + [last];
      case None =>
        assert Collect(s, f) == rest;
        assert CollectedAt(s, f) == idx0;
    }
  }

  /** The positions of `s` whose element `f` maps to `b`. */
  ghost function Hits<A, B>(s: seq<A>, f: A -> Option<B>, b: B): set<int>
  {
    set j | 0 <= j < |s| && f(s[j]) == Some(b)
  }

  /** Growing `s` by one element adds its position to the hits exactly when it maps to `b`. */
  lemma HitsSnoc<A, B>(s: seq<A>, f: A -> Option<B>, b: B)
    requires s != []
    ensures |Hits(s, f, b)| == |Hits(s[..|s| - 1], f, b)| + (if f(s[|s| - 1]) == Some(b) then 1 else 0)
  {
    var init := s[..|s| - 1];
    var last := |s| - 1;
    assert last !in Hits(init, f, b);
    if f(s[last]) == Some(b) {
      assert Hits(s, f, b) == Hits(init, f, b) + {last};
    } else {
      assert Hits(s, f, b) == Hits(init, f, b);
    }
  }

  /** `Collect` yields a result exactly as often as elements map to it. */
  lemma {:induction false} CollectCount<A, B>(s: seq<A>, f: A -> Option<B>, b: B)
    ensures multiset(Collect(s, f))[b] == |Hits(s, f, b)|
  {
    if s != [] {
      var init := s[..|s| - 1];
      var rest := Collect(init, f);
      CollectCount(init, f, b);
      HitsSnoc(s, f, b);
      match f(s[|s| - 1])
      case Some(c) =>
        assert Collect(s, f) == rest + [c];
      case None =>
        assert Collect(s, f) == rest;
    }
  }
}

=== FILE: sigma.dfy ===
/**
 * The Sigma view of the loaded graph: which edges the edge reducer shows,
 * how many the counter reports, the colour of a relation type, and the two
 * control handlers that change the filter state.
 */
module Sigma {
  import opened Wrappers
  import opened Seqs
  import opened Graph

  /** `REL_COLORS`: one colour per known relation type. */
  const RelColors: map<string, string> := map[
    "threatens" := "#ef4444", "sanctions" := "#f97316", "opposes" := "#eab308",
    "controls" := "#8b5cf6", "trades_with" := "#22c55e", "operates_in" := "#06b6d4",
    "regulates" := "#3b82f6", "supports" := "#84cc16"]

  /** `REL_COLOR_DEFAULT`. */
  const RelColorDefault: string := "#94a3b8"

  /** `relColor`: the type's own colour, or the default for any other type. */
  function RelColor(kind: string): (colour: string)
    ensures colour == RelColorDefault <==> kind !in RelColors
    ensures colour in RelColors.Values || colour == RelColorDefault
  {
    if kind in RelColors then RelColors[kind] else RelColorDefault
  }

  /** Different known relation types are drawn in different colours. */
  lemma RelColorInjective(a: string, b: string)
    requires a in RelColors && b in RelColors && a != b
    ensures RelColor(a) != RelColor(b)
  {
  }

  /** The filter state the reducer and the counter read (`filterRef.current`). */
  datatype View = View(mode: string, minFreq: int, activeRelTypes: set<string>, hovered: Option<string>)

  /** `edgeType === 'cooccurrence'`. */
  predicate IsCooccurrence(e: Edge)
  {
    e.kind == "cooccurrence"
  }

  /**
   * The visibility test `edgeReducer` and `countEdges` share: the edge's kind
   * suits the mode, its frequency reaches `minFreq`, and a relationship edge's
   * type is active.
   */
  predicate Visible(v: View, e: Edge)
  {
    && !(v.mode == "cooccurrence" && !IsCooccurrence(e))
    && !(v.mode == "relationships" && IsCooccurrence(e))
    && e.frequency >= v.minFreq
    && (IsCooccurrence(e) || e.kind in v.activeRelTypes)
  }

  function VisibleIn(v: View): Edge -> bool
  {
    (e: Edge) => Visible(v, e)
  }

  /** `hovered` is set: a node id other than the empty one. */
  predicate Hovering(v: View)
  {
    v.hovered.Some? && v.hovered.value != ""
  }

  /** What the reducer changes in an edge's display data. */
  datatype Display = Display(hidden: bool, text: string)

  /**
   * `edgeReducer`: a failing edge is hidden with its data otherwise untouched;
   * a passing edge loses its label if it is a co-occurrence edge, and while a
   * node is hovered it stays shown only if it touches that node.
   */
  function EdgeReducer(v: View, e: Edge, text: string): (d: Display)
    ensures !d.hidden <==> Visible(v, e) && (Hovering(v) ==> e.source == v.hovered.value || e.target == v.hovered.value)
    ensures d.text == (if Visible(v, e) && IsCooccurrence(e) then "" else text)
  {
    var isCo := IsCooccurrence(e);
    if v.mode == "cooccurrence" && !isCo then Display(true, text)
    else if v.mode == "relationships" && isCo then Display(true, text)
    else if e.frequency < v.minFreq then Display(true, text)
    else if !isCo && e.kind !in v.activeRelTypes then Display(true, text)
    else
      var shownLabel := if isCo then "" else text;
      if Hovering(v) && e.source != v.hovered.value && e.target != v.hovered.value then Display(true, shownLabel)
      else Display(false, shownLabel)
  }

  /** The label an inserted edge carries: none for co-occurrence rows, the relation type otherwise. */
  function InsertedLabel(e: Edge): string
  {
    if IsCooccurrence(e) then "" else e.kind
  }

  function ShownBy(v: View): Edge -> bool
  {
    (e: Edge) => !EdgeReducer(v, e, InsertedLabel(e)).hidden
  }

  /** `countEdges`: the number of edges passing the shared visibility test. */
  method CountEdges(v: View, edges: seq<Edge>) returns (n: nat)
    ensures n == |Filter(edges, VisibleIn(v))|
  {
    n := 0;
    var i := 0;
    while i < |edges|
      invariant 0 <= i <= |edges|
      invariant n == |Filter(edges[..i], VisibleIn(v))|
    {
      n := CountEdge(v, edges, i, n);
      i := i + 1;
    }
    assert edges[..i] == edges;
  }

  /** One step of the counter: the `i`-th edge adds one exactly when it is visible. */
  method CountEdge(v: View, edges: seq<Edge>, i: int, n: nat) returns (n': nat)
    requires 0 <= i < |edges|
    requires n == |Filter(edges[..i], VisibleIn(v))|
    ensures n' == |Filter(edges[..i + 1], VisibleIn(v))|
  {
    assert edges[..i + 1] == edges[..i] + [edges[i]];
    FilterAppend(edges[..i], [edges[i]], VisibleIn(v));
    n' := if Visible(v, edges[i]) then n + 1 else n;
  }

  /** With nothing hovered, the counter reports exactly the edges the reducer shows. */
  lemma CountMatchesReducer(v: View, edges: seq<Edge>)
    requires !Hovering(v)
    ensures |Filter(edges, VisibleIn(v))| == |Filter(edges, ShownBy(v))|
  {
    FilterSame(edges, VisibleIn(v), ShownBy(v));
  }

  /** `switchMode`: the mode changes and `minFreq` resets to 50 for co-occurrence, 5 otherwise; nothing else changes. */
  function SwitchMode(v: View, mode: string): (r: View)
    ensures r.mode == mode && r.activeRelTypes == v.activeRelTypes && r.hovered == v.hovered
    ensures r.minFreq == (if mode == "cooccurrence" then 50 else 5)
  {
    v.(mode := mode, minFreq := if mode == "cooccurrence" then 50 else 5)
  }

  /**
   * After switching to co-occurrence only co-occurrence edges of frequency at
   * least 50 are visible; after switching to relationships only active
   * relationship edges of frequency at least 5.
   */
  lemma SwitchModeVisible(v: View, mode: string, e: Edge)
    ensures mode == "cooccurrence" ==>
      (Visible(SwitchMode(v, mode), e) <==> IsCooccurrence(e) && e.frequency >= 50)
    ensures mode == "relationships" ==>
      (Visible(SwitchMode(v, mode), e) <==> !IsCooccurrence(e) && e.frequency >= 5 && e.kind in v.activeRelTypes)
  {
  }

  /** `toggleRelType`: `t` leaves the set if it was in it and joins it otherwise. */
  function ToggleRelType(active: set<string>, t: string): (r: set<string>)
    ensures t in r <==> t !in active
    ensures forall u :: u != t ==> (u in r <==> u in active)
  {
    if t in active then active - {t} else active + {t}
  }

  /** Toggling the same type twice restores the set. */
  lemma ToggleTwice(active: set<string>, t: string)
    ensures ToggleRelType(ToggleRelType(active, t), t) == active
  {
  }

  /** Toggling a type changes the visibility of that type's edges only. */
  lemma ToggleOnlyThatType(v: View, t: string, e: Edge)
    requires e.kind != t
    ensures Visible(v.(activeRelTypes := ToggleRelType(v.activeRelTypes, t)), e) == Visible(v, e)
  {
  }
}

=== FILE: strings.dfy ===
/**
 * The JavaScript string primitives the graph code relies on: default `sort()`
 * order, `trim()`, ASCII `toLowerCase()`, `includes`, `split`/`join` on one
 * character, and `parseInt(s) || 0`.
 */
module Strings {
  import opened Seqs

  // ---------------------------------------------------------------------------
  // Ordering: `Array.prototype.sort()` with no comparator compares strings
  // character by character; a proper prefix sorts first.
  // ---------------------------------------------------------------------------

  predicate Less(a: string, b: string)
    decreases |a|
  {
    |b| > 0 && (|a| == 0 || a[0] < b[0] || (a[0] == b[0] && Less(a[1..], b[1..])))
  }

  predicate LessEq(a: string, b: string)
  {
    a == b || Less(a, b)
  }

  lemma {:induction false} LessIrreflexive(a: string)
    ensures !Less(a, a)
  {
    if |a| > 0 {
      LessIrreflexive(a[1..]);
    }
  }

  lemma {:induction false} LessTransitive(a: string, b: string, c: string)
    requires Less(a, b) && Less(b, c)
    ensures Less(a, c)
  {
    if |a| > 0 && a[0] == b[0] && b[0] == c[0] {
      LessTransitive(a[1..], b[1..], c[1..]);
    }
  }

  lemma {:induction false} LessTotal(a: string, b: string)
    ensures a == b || Less(a, b) || Less(b, a)
  {
    if |a| > 0 && |b| > 0 && a[0] == b[0] {
      LessTotal(a[1..], b[1..]);
      if a[1..] == b[1..] {
        assert a == [a[0]] + a[1..] && b == [b[0]] + b[1..];
      }
    }
  }

  lemma LessAsymmetric(a: string, b: string)
    requires Less(a, b)
    ensures !Less(b, a)
  {
    if Less(b, a) {
      LessTransitive(a, b, a);
      LessIrreflexive(a);
    }
  }

  lemma LessEqTransitive(a: string, b: string, c: string)
    requires LessEq(a, b) && LessEq(b, c)
    ensures LessEq(a, c)
  {
    if a != b && b != c {
      LessTransitive(a, b, c);
    }
  }

  lemma LessEqAntisymmetric(a: string, b: string)
    requires LessEq(a, b) && LessEq(b, a)
    ensures a == b
  {
    if a != b {
      LessAsymmetric(a, b);
    }
  }

  /** `s` is in ascending order. */
  predicate Sorted(s: seq<string>)
  {
    forall i, j :: 0 <= i < j < |s| ==> LessEq(s[i], s[j])
  }

  /** `x` is the least element of `xs`. */
  ghost predicate IsLeast(x: string, xs: set<string>)
  {
    x in xs && forall y :: y in xs ==> LessEq(x, y)
  }

  lemma SortedCons(x: string, s: seq<string>)
    requires Sorted(s)
    requires |s| > 0 ==> LessEq(x, s[0])
    ensures Sorted([x] + s)
  {
    forall j | 0 <= j < |s|
      ensures LessEq(x, s[j])
    {
      LessEqTransitive(x, s[0], s[j]);
    }
  }

  /** Insertion of one string into an ascending sequence. */
  function Insert(x: string, s: seq<string>): (r: seq<string>)
    requires Sorted(s)
    ensures Sorted(r)
    ensures multiset(r) == multiset(s) + multiset{x}
  {
    if s == [] then [x]
    else if LessEq(x, s[0]) then
      SortedCons(x, s);
      [x] + s
    else
      LessTotal(x, s[0]);
      assert s == [s[0]] + s[1..];
      var r := Insert(x, s[1..]);
      assert r[0] in multiset(r);
      SortedCons(s[0], r);
      [s[0]] + r
  }

  /** `s.slice().sort()`: the ascending rearrangement of `s`. */
  function Sort(s: seq<string>): (r: seq<string>)
    ensures Sorted(r)
    ensures multiset(r) == multiset(s)
  {
    if s == [] then []
    else
      assert s == [s[0]] + s[1..];
      Insert(s[0], Sort(s[1..]))
  }

  /**
   * There is only one ascending rearrangement of a sequence, so every
   * sorting algorithm (whatever JavaScript engine runs `sort()`) gives `Sort`.
   */
  lemma {:induction false} SortUnique(a: seq<string>, b: seq<string>)
    requires Sorted(a) && Sorted(b)
    requires multiset(a) == multiset(b)
    ensures a == b
  {
    if a != [] {
      SortedHeads(a, b);
      SortUnique(a[1..], b[1..]);
      assert a == [a[0]] + a[1..] && b == [b[0]] + b[1..];
    }
  }

  /** Ascending sequences with the same elements start alike and continue with the same elements. */
  lemma SortedHeads(a: seq<string>, b: seq<string>)
    requires Sorted(a) && Sorted(b) && a != []
    requires multiset(a) == multiset(b)
    ensures b != [] && a[0] == b[0]
    ensures multiset(a[1..]) == multiset(b[1..])
  {
    SortedSameHead(a, b);
    assert a == [a[0]] + a[1..] && b == [b[0]] + b[1..];
    assert multiset(a[1..]) == multiset(a) - multiset{a[0]};
    assert multiset(b[1..]) == multiset(b) - multiset{b[0]};
  }

  /** Ascending sequences with the same elements have the same least element. */
  lemma SortedSameHead(a: seq<string>, b: seq<string>)
    requires Sorted(a) && Sorted(b) && a != []
    requires multiset(a) == multiset(b)
    ensures b != [] && a[0] == b[0]
  {
    assert a[0] in multiset(b);
    assert b[0] in multiset(a);
    var j :| 0 <= j < |b| && b[j] == a[0];
    var i :| 0 <= i < |a| && a[i] == b[0];
    assert LessEq(b[0], a[0]) && LessEq(a[0], b[0]);
    LessEqAntisymmetric(a[0], b[0]);
  }

  /** Sorting gives back an already ascending sequence. */
  lemma SortSorted(s: seq<string>)
    requires Sorted(s)
    ensures Sort(s) == s
  {
    SortUnique(Sort(s), s);
  }

  /** Sorting keeps a sequence free of repeats. */
  lemma SortDistinct(s: seq<string>)
    requires Distinct(s)
    ensures Distinct(Sort(s))
  {
    forall x | x in Sort(s)
      ensures multiset(Sort(s))[x] <= 1
    {
      DistinctCount(s, x);
    }
    CountedDistinct(Sort(s));
  }

  /** The least element of a non-empty set of strings. */
  ghost function Least(xs: set<string>): (x: string)
    requires xs != {}
    ensures IsLeast(x, xs)
    decreases |xs|
  {
    var y :| y in xs;
    if xs == {y} then y
    else
      var m := Least(xs - {y});
      LessTotal(y, m);
      if Less(y, m) then
        forall z | z in xs - {y}
          ensures LessEq(y, z)
        {
          LessEqTransitive(y, m, z);
        }
        y
      else m
  }

  /** A set has one least element. */
  lemma LeastUnique(x: string, xs: set<string>)
    requires IsLeast(x, xs)
    ensures Least(xs) == x
  {
    LessEqAntisymmetric(x, Least(xs));
  }

  /** The head of an ascending sequence is the least of its elements. */
  lemma SortedHeadLeast(s: seq<string>)
    requires Sorted(s) && s != []
    ensures IsLeast(s[0], Elements(s))
  {
    forall y | y in Elements(s)
      ensures LessEq(s[0], y)
    {
      var j :| 0 <= j < |s| && s[j] == y;
      if j > 0 {
        assert LessEq(s[0], s[j]);
      }
    }
  }

  /** The elements of `s` that sort before `x`. */
  function Before(s: seq<string>, x: string): set<string>
  {
    set y | y in s && Less(y, x)
  }

  /** In an ascending sequence without repeats, an element's position counts the elements below it. */
  lemma SortedDistinctPosition(s: seq<string>, i: int)
    requires Sorted(s) && Distinct(s)
    requires 0 <= i < |s|
    ensures Elements(s[..i]) == Before(s, s[i])
    ensures |Before(s, s[i])| == i
  {
    forall y | y in s && Less(y, s[i])
      ensures y in Elements(s[..i])
    {
      var j :| 0 <= j < |s| && s[j] == y;
      if j >= i {
        LessIrreflexive(y);
        assert LessEq(s[i], s[j]);
        if j > i {
          LessAsymmetric(y, s[i]);
        }
      }
    }
    forall y | y in Elements(s[..i])
      ensures y in s && Less(y, s[i])
    {
      var j :| 0 <= j < i && s[j] == y;
      assert LessEq(s[j], s[i]) && s[j] != s[i];
    }
    assert Distinct(s[..i]);
    DistinctCard(s[..i]);
  }

  // ---------------------------------------------------------------------------
  // Whitespace and `trim()`
  // ---------------------------------------------------------------------------

  /** ECMAScript WhiteSpace and LineTerminator code points, the set `trim()` and `parseInt` skip. */
  predicate IsSpace(c: char)
  {
    c in SpaceChars || '\U{2000}' <= c <= '\U{200A}'
  }

  /** The whitespace code points outside the range U+2000..U+200A. */
  const SpaceChars: set<char> := {
    '\U{0009}', '\U{000A}', '\U{000B}', '\U{000C}', '\U{000D}', '\U{0020}', '\U{00A0}', '\U{1680}',
    '\U{2028}', '\U{2029}', '\U{202F}', '\U{205F}', '\U{3000}', '\U{FEFF}'}

  predicate AllSpace(s: string)
  {
    forall k :: 0 <= k < |s| ==> IsSpace(s[k])
  }

  /** `s.trimStart()`: the suffix left once leading whitespace is dropped. */
  function TrimStart(s: string): (r: string)
    ensures |r| <= |s| && r == s[|s| - |r|..]
    ensures AllSpace(s[..|s| - |r|])
    ensures r == [] || !IsSpace(r[0])
  {
    if s != [] && IsSpace(s[0]) then
      var r := TrimStart(s[1..]);
      assert s[..|s| - |r|] == [s[0]] + s[1..][..|s| - 1 - |r|];
      r
    else s
  }

  /** `s.trimEnd()`: the prefix left once trailing whitespace is dropped. */
  function TrimEnd(s: string): (r: string)
    ensures |r| <= |s| && r == s[..|r|]
    ensures AllSpace(s[|r|..])
    ensures r == [] || !IsSpace(r[|r| - 1])
  {
    if s != [] && IsSpace(s[|s| - 1]) then
      var r := TrimEnd(s[..|s| - 1]);
      assert s[|r|..] == s[..|s| - 1][|r|..] + [s[|s| - 1]];
      r
    else s
  }

  /** Neither end of `s` is whitespace. */
  predicate Trimmed(s: string)
  {
    s == [] || (!IsSpace(s[0]) && !IsSpace(s[|s| - 1]))
  }

  /** `s.trim()`: `s` with all leading and trailing whitespace removed and nothing else. */
  function Trim(s: string): (r: string)
    ensures Trimmed(r)
  {
    TrimEnd(TrimStart(s))
  }

  /** The trimmed string is a slice of the original flanked by whitespace only. */
  lemma TrimSlice(s: string)
    ensures var r := Trim(s);
      exists i :: 0 <= i <= |s| - |r| && s[i..i + |r|] == r && AllSpace(s[..i]) && AllSpace(s[i + |r|..])
  {
    var i := |s| - |TrimStart(s)|;
    TrimMiddle(s);
    TrimTail(s);
    assert AllSpace(s[..i]);
  }

  /** The trimmed string starts where the leading whitespace ends. */
  lemma TrimMiddle(s: string)
    ensures var i := |s| - |TrimStart(s)|;
            i + |Trim(s)| <= |s| && s[i..i + |Trim(s)|] == Trim(s)
  {
    var t := TrimStart(s);
    var r := TrimEnd(t);
    assert t == s[|s| - |t|..] && r == t[..|r|];
    PrefixOfSuffix(s, t, r, |s| - |t|);
  }

  /** Only whitespace follows the trimmed string. */
  lemma TrimTail(s: string)
    ensures var i := |s| - |TrimStart(s)|;
            i + |Trim(s)| <= |s| && AllSpace(s[i + |Trim(s)|..])
  {
    var t := TrimStart(s);
    var r := TrimEnd(t);
    assert t == s[|s| - |t|..] && AllSpace(t[|r|..]);
    SuffixOfSuffix(s, t, |s| - |t|, |r|);
  }

  lemma PrefixOfSuffix<T>(s: seq<T>, t: seq<T>, r: seq<T>, i: int)
    requires 0 <= i <= |s| && t == s[i..] && |r| <= |t| && r == t[..|r|]
    ensures i + |r| <= |s| && s[i..i + |r|] == r
  {
  }

  lemma SuffixOfSuffix<T>(s: seq<T>, t: seq<T>, i: int, j: int)
    requires 0 <= i <= |s| && t == s[i..] && 0 <= j <= |t|
    ensures s[i + j..] == t[j..]
  {
  }

  /** A string without whitespace at either end is its own trim. */
  lemma TrimKeeps(s: string)
    requires Trimmed(s)
    ensures Trim(s) == s
  {
    assert TrimStart(s) == s;
    assert TrimEnd(s) == s;
  }

  /** Trimming twice is trimming once. */
  lemma TrimIdempotent(s: string)
    ensures Trim(Trim(s)) == Trim(s)
  {
    TrimKeeps(Trim(s));
  }

  // ---------------------------------------------------------------------------
  // Case folding and substring search
  // ---------------------------------------------------------------------------

  function LowerChar(c: char): char
  {
    if 'A' <= c <= 'Z' then (c as int + 32) as char else c
  }

  /** `s.toLowerCase()` restricted to ASCII letters. */
  function ToLower(s: string): string
  {
    seq(|s|, i requires 0 <= i < |s| => LowerChar(s[i]))
  }

  /** `needle` occurs in `hay` starting at position `i`. */
  predicate OccursAt(hay: string, needle: string, i: int)
  {
    0 <= i <= |hay| - |needle| && hay[i..i + |needle|] == needle
  }

  /** `hay.includes(needle)`. */
  function Contains(hay: string, needle: string): (b: bool)
    ensures b <==> exists i :: OccursAt(hay, needle, i)
    decreases |hay|
  {
    if |needle| <= |hay| && hay[..|needle|] == needle then
      assert OccursAt(hay, needle, 0);
      true
    else if hay == [] then
      assert forall i :: !OccursAt(hay, needle, i);
      false
    else
      var b := Contains(hay[1..], needle);
      assert b ==> exists i :: OccursAt(hay, needle, i) by {
        if b {
          var i :| OccursAt(hay[1..], needle, i);
          assert hay[i + 1..i + 1 + |needle|] == hay[1..][i..i + |needle|];
          assert OccursAt(hay, needle, i + 1);
        }
      }
      assert (exists i :: OccursAt(hay, needle, i)) ==> b by {
        if exists i :: OccursAt(hay, needle, i) {
          var i :| OccursAt(hay, needle, i);
          assert i != 0;
          assert hay[1..][i - 1..i - 1 + |needle|] == hay[i..i + |needle|];
          assert OccursAt(hay[1..], needle, i - 1);
        }
      }
      b
  }

  // ---------------------------------------------------------------------------
  // `split(sep)` and `join(sep)` on a single-character separator
  // ---------------------------------------------------------------------------

  /** `parts.join(sep)`. */
  function Join(parts: seq<string>, sep: char): string
  {
    if |parts| == 0 then ""
    else if |parts| == 1 then parts[0]
    else parts[0] + [sep] + Join(parts[1..], sep)
  }

  /** `s.split(sep)`: the maximal separator-free pieces, at least one. */
  function Split(s: string, sep: char): (parts: seq<string>)
    ensures |parts| >= 1
    ensures forall i :: 0 <= i < |parts| ==> sep !in parts[i]
    ensures Join(parts, sep) == s
  {
    if s == [] then [""]
    else
      var rest := Split(s[1..], sep);
      if s[0] == sep then
        assert s == [sep] + s[1..];
        [""] + rest
      else
        assert s == [s[0]] + s[1..];
        var parts := [[s[0]] + rest[0]] + rest[1..];
        assert parts[1..] == rest[1..];
        parts
  }

  lemma {:induction false} SplitPrefix(w: string, rest: string, sep: char)
    requires sep !in w
    ensures Split(w + rest, sep) == [w + Split(rest, sep)[0]] + Split(rest, sep)[1..]
  {
    if w != [] {
      assert (w + rest)[1..] == w[1..] + rest;
      SplitPrefix(w[1..], rest, sep);
      assert [w[0]] + (w[1..] + Split(rest, sep)[0]) == w + Split(rest, sep)[0];
    } else {
      assert w + rest == rest;
      var r := Split(rest, sep);
      assert w + r[0] == r[0];
      assert r == [r[0]] + r[1..];
    }
  }

  /** Splitting a join of separator-free pieces gives the pieces back. */
  lemma {:induction false} SplitJoin(parts: seq<string>, sep: char)
    requires |parts| >= 1
    requires forall i :: 0 <= i < |parts| ==> sep !in parts[i]
    ensures Split(Join(parts, sep), sep) == parts
  {
    if |parts| == 1 {
      SplitPrefix(parts[0], "", sep);
      assert parts[0] + "" == parts[0];
    } else {
      var tail := Join(parts[1..], sep);
      SplitJoin(parts[1..], sep);
      assert parts[0] + [sep] + tail == parts[0] + ([sep] + tail);
      SplitPrefix(parts[0], [sep] + tail, sep);
      assert ([sep] + tail)[1..] == tail;
      assert Split([sep] + tail, sep) == [""] + parts[1..];
      assert parts[0] + "" == parts[0];
      assert parts == [parts[0]] + parts[1..];
    }
  }

  /** A character in none of the pieces, other than the separator, is not in their join. */
  lemma {:induction false} JoinAvoids(parts: seq<string>, sep: char, c: char)
    requires c != sep
    requires forall i :: 0 <= i < |parts| ==> c !in parts[i]
    ensures c !in Join(parts, sep)
  {
    if |parts| > 1 {
      JoinAvoids(parts[1..], sep, c);
    }
  }

  /** A join whose first piece is non-empty starts with that piece's first character. */
  lemma JoinFirst(parts: seq<string>, sep: char)
    requires |parts| >= 1 && parts[0] != ""
    ensures Join(parts, sep) != "" && Join(parts, sep)[0] == parts[0][0]
  {
  }

  /** A join whose last piece is non-empty ends with that piece's last character. */
  lemma {:induction false} JoinLast(parts: seq<string>, sep: char)
    requires |parts| >= 1 && parts[|parts| - 1] != ""
    ensures var j := Join(parts, sep); j != "" && j[|j| - 1] == parts[|parts| - 1][|parts[|parts| - 1]| - 1]
  {
    if |parts| > 1 {
      JoinLast(parts[1..], sep);
      assert parts[1..][|parts| - 2] == parts[|parts| - 1];
    }
  }

  // ---------------------------------------------------------------------------
  // `parseInt(s) || 0`
  // ---------------------------------------------------------------------------

  /** The value of `c` as a digit in base `radix` (10 or 16), if it is one. */
  function DigitValue(c: char, radix: int): (d: int)
    ensures -1 <= d < radix || (radix < 10 && d < 16)
  {
    if '0' <= c <= '9' && (c as int - '0' as int) < radix then c as int - '0' as int
    else if radix == 16 && 'a' <= c <= 'f' then c as int - 'a' as int + 10
    else if radix == 16 && 'A' <= c <= 'F' then c as int - 'A' as int + 10
    else -1
  }

  /** The longest prefix of `s` made of base-`radix` digits. */
  function DigitPrefix(s: string, radix: int): (r: string)
    ensures |r| <= |s| && r == s[..|r|]
    ensures forall k :: 0 <= k < |r| ==> DigitValue(r[k], radix) >= 0
    ensures |r| < |s| ==> DigitValue(s[|r|], radix) < 0
  {
    if s != [] && DigitValue(s[0], radix) >= 0 then [s[0]] + DigitPrefix(s[1..], radix) else []
  }

  /** The number a non-empty digit string denotes, most significant digit first. */
  function DigitsValue(ds: string, radix: nat): nat
    requires forall k :: 0 <= k < |ds| ==> DigitValue(ds[k], radix) >= 0
  {
    if ds == [] then 0
    else DigitsValue(ds[..|ds| - 1], radix) * radix + DigitValue(ds[|ds| - 1], radix)
  }

  /**
   * `parseInt(s) || 0`: skip leading whitespace, take an optional sign, then
   * read the longest digit prefix; no digits (`NaN`) and negative zero both
   * become 0.
   */
  function ParseIntOrZero(s: string): int
  {
    SignedValue(TrimStart(s))
  }

  /** An optional `-` or `+` followed by a magnitude. */
  function SignedValue(t: string): int
  {
    if |t| > 0 && t[0] == '-' then -(MagnitudeValue(t[1..]) as int)
    else if |t| > 0 && t[0] == '+' then MagnitudeValue(t[1..])
    else MagnitudeValue(t)
  }

  /** A `0x`/`0X` prefix selects base 16, anything else base 10; digits stop at the first non-digit. */
  function MagnitudeValue(u: string): nat
  {
    if |u| >= 2 && u[0] == '0' && (u[1] == 'x' || u[1] == 'X') then DigitsValue(DigitPrefix(u[2..], 16), 16)
    else DigitsValue(DigitPrefix(u, 10), 10)
  }

  /** Decimal rendering of a natural number, most significant digit first. */
  function NatToString(n: nat): (s: string)
    ensures |s| >= 1
    ensures forall k :: 0 <= k < |s| ==> '0' <= s[k] <= '9'
  {
    if n < 10 then [('0' as int + n) as char]
    else NatToString(n / 10) + [('0' as int + n % 10) as char]
  }

  /** Decimal rendering of an integer, with a leading `-` when negative (`String(n)`). */
  function IntToString(n: int): string
  {
    if n < 0 then "-" + NatToString(-n) else NatToString(n)
  }

  lemma {:induction false} NatToStringValue(n: nat)
    ensures forall k :: 0 <= k < |NatToString(n)| ==> DigitValue(NatToString(n)[k], 10) >= 0
    ensures DigitsValue(NatToString(n), 10) == n
  {
    var s := NatToString(n);
    if n >= 10 {
      NatToStringValue(n / 10);
      assert s[..|s| - 1] == NatToString(n / 10);
    }
  }

  lemma DigitPrefixAll(s: string, radix: int)
    requires forall k :: 0 <= k < |s| ==> DigitValue(s[k], radix) >= 0
    ensures DigitPrefix(s, radix) == s
  {
  }

  lemma TrimStartKeeps(s: string)
    requires s != [] && !IsSpace(s[0])
    ensures TrimStart(s) == s
  {
  }

  /** Signs and decimal digits are not whitespace. */
  lemma SignNotSpace(c: char)
    requires c == '-' || '0' <= c <= '9'
    ensures !IsSpace(c)
  {
  }

  lemma MagnitudeOfDecimal(m: nat)
    ensures MagnitudeValue(NatToString(m)) == m
  {
    var d := NatToString(m);
    NatToStringValue(m);
    DigitPrefixAll(d, 10);
    assert !(|d| >= 2 && d[0] == '0' && (d[1] == 'x' || d[1] == 'X'));
  }

  /** `parseInt` reads back what `String(n)` writes for every integer. */
  lemma ParseIntRoundTrip(n: int)
    ensures ParseIntOrZero(IntToString(n)) == n
  {
    var m: nat := if n < 0 then -n else n;
    var d := NatToString(m);
    MagnitudeOfDecimal(m);
    var s := IntToString(n);
    assert s[0] == '-' || '0' <= s[0] <= '9';
    SignNotSpace(s[0]);
    TrimStartKeeps(s);
    if n < 0 {
      assert s[1..] == d;
    }
  }
}

=== FILE: topo.dfy ===
/**
 * `topoSort`: Kahn's algorithm over the edges that join listed ids. The ready
 * queue is re-sorted after every push, so the smallest ready id always leaves
 * it first; ids the loop never emits (those on or behind a cycle) are appended
 * in ascending order.
 */
module Topo {
  import opened Seqs
  import opened Strings
  import opened Graph

  // ---------------------------------------------------------------------------
  // What the counting pass records
  // ---------------------------------------------------------------------------

  /**
   * `out.get(s)` after the counting pass: the targets of the edges from `s`
   * that join listed ids, in edge order, repeats kept.
   */
  function KnownTargets(edges: seq<Edge>, ids: set<string>, s: string): seq<string>
  {
    if edges == [] then []
    else
      var e := edges[|edges| - 1];
      KnownTargets(edges[..|edges| - 1], ids, s) + (if Inside(e, ids) && e.source == s then [e.target] else [])
  }

  /** Only listed ids are ever targets. */
  lemma {:induction false} KnownTargetsListed(edges: seq<Edge>, ids: set<string>, s: string)
    ensures forall t :: t in KnownTargets(edges, ids, s) ==> t in ids
  {
    if edges != [] {
      KnownTargetsListed(edges[..|edges| - 1], ids, s);
    }
  }

  /**
   * The in-degree of `x` still outstanding once the ids in `done` have been
   * emitted: the edges into `x` that join listed ids and whose source is not
   * done, counted with repeats.
   */
  function Pending(edges: seq<Edge>, ids: set<string>, done: set<string>, x: string): nat
  {
    if edges == [] then 0
    else
      var e := edges[|edges| - 1];
      Pending(edges[..|edges| - 1], ids, done, x)
        + (if Inside(e, ids) && e.target == x && e.source !in done then 1 else 0)
  }

  /** Emitting `s` settles, for each `x`, exactly the edges from `s` to `x`. */
  lemma {:induction false} PendingRemove(edges: seq<Edge>, ids: set<string>, done: set<string>, s: string, x: string)
    requires s !in done
    ensures Pending(edges, ids, done + {s}, x) + multiset(KnownTargets(edges, ids, s))[x] == Pending(edges, ids, done, x)
  {
    if edges != [] {
      PendingRemove(edges[..|edges| - 1], ids, done, s, x);
    }
  }

  /** Nothing is outstanding for `x` exactly when every listed predecessor of `x` is done. */
  lemma {:induction false} PendingZero(edges: seq<Edge>, ids: set<string>, done: set<string>, x: string)
    ensures Pending(edges, ids, done, x) == 0 <==>
      forall e :: e in edges && Inside(e, ids) && e.target == x ==> e.source in done
  {
    if edges != [] {
      var init := edges[..|edges| - 1];
      PendingZero(init, ids, done, x);
      assert edges == init + [edges[|edges| - 1]];
    }
  }

  /** `id => !order.includes(id)`. */
  function NotIn(order: seq<string>): string -> bool
  {
    (x: string) => x !in order
  }

  /** `e => indeg.has(e.source) && indeg.has(e.target)`. */
  function JoinsListed(ids: set<string>): Edge -> bool
  {
    (e: Edge) => Inside(e, ids)
  }

  /** The ids not yet emitted with nothing outstanding: what the queue holds. */
  function Ready(edges: seq<Edge>, ids: set<string>, done: set<string>): set<string>
  {
    set x | x in ids && x !in done && Pending(edges, ids, done, x) == 0
  }

  // ---------------------------------------------------------------------------
  // The reference order
  // ---------------------------------------------------------------------------

  /** Repeatedly emit the least ready id, starting after `order`, until none is ready. */
  ghost function KahnFrom(edges: seq<Edge>, ids: set<string>, order: seq<string>): seq<string>
    requires Elements(order) <= ids
    decreases |ids - Elements(order)|
  {
    var ready := Ready(edges, ids, Elements(order));
    if ready == {} then order
    else
      var x := Least(ready);
      assert Elements(order + [x]) == Elements(order) + {x};
      assert ids - Elements(order + [x]) == (ids - Elements(order)) - {x};
      KahnFrom(edges, ids, order + [x])
  }

  /** The ids Kahn's loop emits, in emission order. */
  ghost function Kahn(edges: seq<Edge>, ids: set<string>): seq<string>
  {
    KahnFrom(edges, ids, [])
  }

  /** The emitted ids followed by the ascending list of the remaining entries of `nodeIds`. */
  ghost function TopoOrder(nodeIds: seq<string>, edges: seq<Edge>): seq<string>
  {
    var k := Kahn(edges, Elements(nodeIds));
    k + Sort(Filter(nodeIds, NotIn(k)))
  }

  /** Each id of `order` was the least ready id when it was emitted. */
  ghost predicate IsKahnOrder(edges: seq<Edge>, ids: set<string>, order: seq<string>)
  {
    forall i :: 0 <= i < |order| ==> IsLeast(order[i], Ready(edges, ids, Elements(order[..i])))
  }

  /** `rank` numbers the listed ids so that every edge joining two of them climbs strictly. */
  ghost predicate Ranked(edges: seq<Edge>, ids: set<string>, rank: map<string, nat>)
  {
    forall e :: e in edges && Inside(e, ids) ==> e.source in rank && e.target in rank && rank[e.source] < rank[e.target]
  }

  /** The edges joining listed ids admit a topological numbering: they form no cycle. */
  ghost predicate Acyclic(edges: seq<Edge>, ids: set<string>)
  {
    exists rank :: Ranked(edges, ids, rank)
  }

  lemma {:induction false} KahnFromIsKahn(edges: seq<Edge>, ids: set<string>, order: seq<string>)
    requires Elements(order) <= ids
    requires IsKahnOrder(edges, ids, order)
    ensures var k := KahnFrom(edges, ids, order);
            && Elements(k) <= ids
            && IsKahnOrder(edges, ids, k)
            && Ready(edges, ids, Elements(k)) == {}
    decreases |ids - Elements(order)|
  {
    var ready := Ready(edges, ids, Elements(order));
    if ready != {} {
      var x := Least(ready);
      var o := order + [x];
      assert Elements(o) == Elements(order) + {x};
      assert ids - Elements(o) == (ids - Elements(order)) - {x};
      forall i | 0 <= i < |o|
        ensures IsLeast(o[i], Ready(edges, ids, Elements(o[..i])))
      {
        if i < |order| {
          assert o[..i] == order[..i];
        } else {
          assert o[..i] == order;
        }
      }
      KahnFromIsKahn(edges, ids, o);
    }
  }

  /** The reference emits only listed ids, each at most once, and stops with none ready. */
  lemma KahnShape(edges: seq<Edge>, ids: set<string>)
    ensures var k := Kahn(edges, ids);
            && Elements(k) <= ids
            && Distinct(k)
            && IsKahnOrder(edges, ids, k)
            && Ready(edges, ids, Elements(k)) == {}
  {
    KahnFromIsKahn(edges, ids, []);
    KahnOrderDistinct(edges, ids, Kahn(edges, ids));
  }

  /** An order built by emitting ready ids never repeats an id. */
  lemma KahnOrderDistinct(edges: seq<Edge>, ids: set<string>, order: seq<string>)
    requires IsKahnOrder(edges, ids, order)
    ensures Distinct(order)
  {
    forall i, j | 0 <= i < j < |order|
      ensures order[i] != order[j]
    {
      assert order[i] in Elements(order[..j]);
      assert order[j] !in Elements(order[..j]);
    }
  }

  /** In an order built by emitting ready ids, every listed predecessor of an id comes before it. */
  lemma KahnTopological(edges: seq<Edge>, ids: set<string>, order: seq<string>)
    requires IsKahnOrder(edges, ids, order)
    ensures forall j, e :: 0 <= j < |order| && e in edges && Inside(e, ids) && e.target == order[j] ==>
      e.source in order[..j]
  {
    forall j, e | 0 <= j < |order| && e in edges && Inside(e, ids) && e.target == order[j]
      ensures e.source in order[..j]
    {
      PendingZero(edges, ids, Elements(order[..j]), order[j]);
    }
  }

  /** With a topological numbering, some id outside `done` is always ready while any is left. */
  lemma {:induction false} RankedReady(edges: seq<Edge>, ids: set<string>, rank: map<string, nat>, done: set<string>, x: string)
    requires Ranked(edges, ids, rank)
    requires x in ids && x !in done
    ensures Ready(edges, ids, done) != {}
    decreases if x in rank then rank[x] + 1 else 0
  {
    if Pending(edges, ids, done, x) != 0 {
      PendingZero(edges, ids, done, x);
      var e :| e in edges && Inside(e, ids) && e.target == x && e.source !in done;
      RankedReady(edges, ids, rank, done, e.source);
    } else {
      assert x in Ready(edges, ids, done);
    }
  }

  /** Kahn's loop emits every listed id exactly when the known edges form no cycle. */
  lemma KahnCompleteIffAcyclic(edges: seq<Edge>, ids: set<string>)
    ensures Elements(Kahn(edges, ids)) == ids <==> Acyclic(edges, ids)
  {
    if Acyclic(edges, ids) {
      AcyclicKahnComplete(edges, ids);
    }
    if Elements(Kahn(edges, ids)) == ids {
      KahnCompleteAcyclic(edges, ids);
    }
  }

  /** Without a cycle the loop stops only once every id is emitted. */
  lemma AcyclicKahnComplete(edges: seq<Edge>, ids: set<string>)
    requires Acyclic(edges, ids)
    ensures Elements(Kahn(edges, ids)) == ids
  {
    var k := Kahn(edges, ids);
    KahnStops(edges, ids);
    var rank :| Ranked(edges, ids, rank);
    if x :| x in ids && x !in Elements(k) {
      RankedReady(edges, ids, rank, Elements(k), x);
    }
  }

  /** The loop stops with known ids only, and with nothing ready. */
  lemma KahnStops(edges: seq<Edge>, ids: set<string>)
    ensures Elements(Kahn(edges, ids)) <= ids && Ready(edges, ids, Elements(Kahn(edges, ids))) == {}
  {
    KahnShape(edges, ids);
  }

  /** An order emitting every id numbers the ids topologically. */
  lemma KahnCompleteAcyclic(edges: seq<Edge>, ids: set<string>)
    requires Elements(Kahn(edges, ids)) == ids
    ensures Acyclic(edges, ids)
  {
    var k := Kahn(edges, ids);
    KahnShape(edges, ids);
    KahnTopological(edges, ids, k);
    PositionsRank(edges, ids, k);
  }

  /** Positions in a complete order without repeats, in which every predecessor comes earlier, are a topological numbering. */
  lemma PositionsRank(edges: seq<Edge>, ids: set<string>, k: seq<string>)
    requires Distinct(k) && Elements(k) == ids
    requires forall j, e :: 0 <= j < |k| && e in edges && Inside(e, ids) && e.target == k[j] ==> e.source in k[..j]
    ensures Ranked(edges, ids, map x | x in ids :: LastIndexOf(k, x))
  {
    var rank := map x | x in ids :: LastIndexOf(k, x);
    forall e | e in edges && Inside(e, ids)
      ensures e.source in rank && e.target in rank && rank[e.source] < rank[e.target]
    {
      assert e.target in Elements(k) && e.source in Elements(k);
      var j := LastIndexOf(k, e.target);
      assert e.source in k[..j];
      var i :| 0 <= i < j && k[i] == e.source;
      DistinctIndex(k, i, LastIndexOf(k, e.source));
    }
  }

  lemma DistinctIndex(k: seq<string>, i: int, j: int)
    requires Distinct(k) && 0 <= i < |k| && 0 <= j < |k| && k[i] == k[j]
    ensures i == j
  {
  }

  // ---------------------------------------------------------------------------
  // Properties of the whole result
  // ---------------------------------------------------------------------------

  /** The remainder appended after the emitted ids: the other entries of `nodeIds`, ascending. */
  lemma RestShape(nodeIds: seq<string>, k: seq<string>)
    ensures var rest := Sort(Filter(nodeIds, NotIn(k)));
            && Sorted(rest)
            && forall x :: x in rest <==> x in nodeIds && x !in k
  {
    var f := Filter(nodeIds, NotIn(k));
    forall x
      ensures x in Sort(f) <==> x in f
    {
      assert x in Sort(f) <==> x in multiset(Sort(f));
    }
  }

  /** Nothing remains when every entry of `nodeIds` was emitted. */
  lemma RestEmpty(nodeIds: seq<string>, k: seq<string>)
    requires Elements(nodeIds) <= Elements(k)
    ensures Filter(nodeIds, NotIn(k)) == []
  {
    forall x | x in nodeIds
      ensures !NotIn(k)(x)
    {
      assert x in Elements(nodeIds);
    }
    FilterNone(nodeIds, NotIn(k));
  }

  /** Emitted ids without repeats plus the remainder hold each entry of `nodeIds` as often as it does, when it has no repeats. */
  lemma RestPermutation(nodeIds: seq<string>, k: seq<string>)
    requires Distinct(k) && Elements(k) <= Elements(nodeIds)
    ensures Elements(k + Sort(Filter(nodeIds, NotIn(k)))) == Elements(nodeIds)
    ensures Distinct(nodeIds) ==> multiset(k + Sort(Filter(nodeIds, NotIn(k)))) == multiset(nodeIds)
  {
    RestElements(nodeIds, k);
    if Distinct(nodeIds) {
      RestMultiset(nodeIds, k);
    }
  }

  lemma RestElements(nodeIds: seq<string>, k: seq<string>)
    requires Elements(k) <= Elements(nodeIds)
    ensures Elements(k + Sort(Filter(nodeIds, NotIn(k)))) == Elements(nodeIds)
  {
    var r := k + Sort(Filter(nodeIds, NotIn(k)));
    RestShape(nodeIds, k);
    forall x
      ensures x in Elements(r) <==> x in Elements(nodeIds)
    {
      assert x in r <==> x in k || x in Sort(Filter(nodeIds, NotIn(k)));
    }
  }

  lemma RestMultiset(nodeIds: seq<string>, k: seq<string>)
    requires Distinct(k) && Elements(k) <= Elements(nodeIds) && Distinct(nodeIds)
    ensures multiset(k + Sort(Filter(nodeIds, NotIn(k)))) == multiset(nodeIds)
  {
    forall x
      ensures multiset(k + Sort(Filter(nodeIds, NotIn(k))))[x] == multiset(nodeIds)[x]
    {
      RestCount(nodeIds, k, x);
    }
  }

  lemma RestCount(nodeIds: seq<string>, k: seq<string>, x: string)
    requires Distinct(k) && Elements(k) <= Elements(nodeIds) && Distinct(nodeIds)
    ensures multiset(k + Sort(Filter(nodeIds, NotIn(k))))[x] == multiset(nodeIds)[x]
  {
    var rest := Filter(nodeIds, NotIn(k));
    FilterMultiset(nodeIds, NotIn(k));
    assert multiset(k + Sort(rest)) == multiset(k) + multiset(rest);
    DistinctCount(k, x);
    DistinctCount(nodeIds, x);
    if x in k {
      assert x in Elements(nodeIds);
      assert multiset(k)[x] == 1 && multiset(nodeIds)[x] == 1;
      assert multiset(rest)[x] == 0;
    } else {
      assert multiset(k)[x] == 0;
      assert multiset(rest)[x] == multiset(nodeIds)[x];
    }
  }

  /**
   * The result lists every id of `nodeIds` and nothing else; when `nodeIds`
   * has no repeats it is a rearrangement of `nodeIds`.
   */
  lemma TopoPermutation(nodeIds: seq<string>, edges: seq<Edge>)
    ensures Elements(TopoOrder(nodeIds, edges)) == Elements(nodeIds)
    ensures Distinct(nodeIds) ==> multiset(TopoOrder(nodeIds, edges)) == multiset(nodeIds)
  {
    KahnShape(edges, Elements(nodeIds));
    RestPermutation(nodeIds, Kahn(edges, Elements(nodeIds)));
  }

  /**
   * Without a cycle every id is emitted by the loop itself, and every edge
   * joining listed ids runs forward in the order.
   */
  lemma TopoAcyclic(nodeIds: seq<string>, edges: seq<Edge>)
    requires Acyclic(edges, Elements(nodeIds))
    ensures TopoOrder(nodeIds, edges) == Kahn(edges, Elements(nodeIds))
    ensures var r := TopoOrder(nodeIds, edges);
            forall j, e :: 0 <= j < |r| && e in edges && Inside(e, Elements(nodeIds)) && e.target == r[j] ==>
              e.source in r[..j]
  {
    var ids := Elements(nodeIds);
    var k := Kahn(edges, ids);
    KahnShape(edges, ids);
    KahnCompleteIffAcyclic(edges, ids);
    RestEmpty(nodeIds, k);
    assert TopoOrder(nodeIds, edges) == k + Sort([]);
    KahnTopological(edges, ids, k);
  }

  /**
   * With a cycle the loop stops early, and the ids left over follow the
   * emitted ones in ascending order.
   */
  lemma TopoCyclic(nodeIds: seq<string>, edges: seq<Edge>)
    requires !Acyclic(edges, Elements(nodeIds))
    ensures var k := Kahn(edges, Elements(nodeIds));
            var r := TopoOrder(nodeIds, edges);
            && |k| < |r|
            && r[..|k|] == k
            && Sorted(r[|k|..])
            && forall x :: x in r[|k|..] <==> x in nodeIds && x !in k
  {
    var ids := Elements(nodeIds);
    var k := Kahn(edges, ids);
    KahnShape(edges, ids);
    KahnCompleteIffAcyclic(edges, ids);
    var rest := Sort(Filter(nodeIds, NotIn(k)));
    RestShape(nodeIds, k);
    var x :| x in ids && x !in Elements(k);
    assert x in rest;
    var r := k + rest;
    assert r[..|k|] == k && r[|k|..] == rest;
  }

  /** Edges with an endpoint outside the listed ids never count. */
  lemma {:induction false} PendingIgnoresUnknown(edges: seq<Edge>, ids: set<string>, done: set<string>, x: string)
    ensures Pending(Filter(edges, JoinsListed(ids)), ids, done, x) == Pending(edges, ids, done, x)
  {
    if edges != [] {
      var init := edges[..|edges| - 1];
      var e := edges[|edges| - 1];
      var p := JoinsListed(ids);
      assert edges == init + [e];
      FilterAppend(init, [e], p);
      PendingIgnoresUnknown(init, ids, done, x);
      var fi := Filter(init, p);
      var f := Filter(edges, p);
      var add := if Inside(e, ids) && e.target == x && e.source !in done then 1 else 0;
      assert Pending(edges, ids, done, x) == Pending(init, ids, done, x) + add;
      if Inside(e, ids) {
        assert p(e);
        assert [e][1..] == [];
        assert Filter([e], p) == [e];
        assert f == fi + [e];
        assert f[..|f| - 1] == fi && f[|f| - 1] == e;
        assert Pending(f, ids, done, x) == Pending(fi, ids, done, x) + add;
      } else {
        assert !p(e);
        assert [e][1..] == [];
        assert Filter([e], p) == [];
        assert f == fi;
      }
    }
  }

  lemma {:induction false} KahnFromIgnoresUnknown(edges: seq<Edge>, ids: set<string>, order: seq<string>)
    requires Elements(order) <= ids
    ensures KahnFrom(Filter(edges, JoinsListed(ids)), ids, order) == KahnFrom(edges, ids, order)
    decreases |ids - Elements(order)|
  {
    var known := Filter(edges, JoinsListed(ids));
    forall x
      ensures Pending(known, ids, Elements(order), x) == Pending(edges, ids, Elements(order), x)
    {
      PendingIgnoresUnknown(edges, ids, Elements(order), x);
    }
    assert Ready(known, ids, Elements(order)) == Ready(edges, ids, Elements(order));
    var ready := Ready(edges, ids, Elements(order));
    if ready != {} {
      var x := Least(ready);
      assert Elements(order + [x]) == Elements(order) + {x};
      assert ids - Elements(order + [x]) == (ids - Elements(order)) - {x};
      KahnFromIgnoresUnknown(edges, ids, order + [x]);
    }
  }

  /** Dropping the edges with an endpoint outside `nodeIds` does not change the order. */
  lemma TopoIgnoresUnknown(nodeIds: seq<string>, edges: seq<Edge>)
    ensures TopoOrder(nodeIds, Filter(edges, JoinsListed(Elements(nodeIds)))) == TopoOrder(nodeIds, edges)
  {
    KahnFromIgnoresUnknown(edges, Elements(nodeIds), []);
  }

  // ---------------------------------------------------------------------------
  // topoSort
  // ---------------------------------------------------------------------------

  /**
   * `topoSort`: count each listed id's in-degree over the edges joining
   * listed ids, queue the ids of in-degree zero in ascending order, and
   * repeatedly shift the queue's head into the order, lowering its targets'
   * in-degrees and queueing (and re-sorting) those that reach zero; finally
   * append the entries never emitted in ascending order. The result is the
   * reference order: the least ready id first at every step.
   */
  method TopoSort(nodeIds: seq<string>, edges: seq<Edge>) returns (r: seq<string>)
    ensures r == TopoOrder(nodeIds, edges)
  {
    var ids := Elements(nodeIds);
    var indeg, out := CountInDegrees(ids, edges);
    assert Elements<string>([]) == {};
    var q := Sort(Filter(Dedup(nodeIds), ZeroIn(indeg)));
    var order: seq<string> := [];
    InitialLoopState(nodeIds, edges, out, indeg);
    while q != []
      invariant LoopState(edges, ids, out, order, indeg, q)
      decreases |ids - Elements(order)|
    {
      order, indeg, q := EmitHead(edges, ids, out, order, indeg, q);
    }
    KahnDone(edges, ids, order);
    if |order| != |nodeIds| {
      r := order + Sort(Filter(nodeIds, NotIn(order)));
    } else {
      r := order;
    }
    FinishOrder(nodeIds, edges, order);
  }

  /** The fallback: append the ascending remainder unless the order is already as long as `nodeIds`. */
  lemma FinishOrder(nodeIds: seq<string>, edges: seq<Edge>, order: seq<string>)
    requires order == Kahn(edges, Elements(nodeIds))
    ensures TopoOrder(nodeIds, edges)
         == if |order| != |nodeIds| then order + Sort(Filter(nodeIds, NotIn(order))) else order
  {
    KahnShape(edges, Elements(nodeIds));
    if |order| == |nodeIds| {
      AllEmitted(nodeIds, order);
      RestEmpty(nodeIds, order);
    }
  }

  /** The loop's state: in-degrees and queue as the reference's emitted prefix `order` leaves them. */
  ghost predicate LoopState(edges: seq<Edge>, ids: set<string>, out: map<string, seq<string>>,
                            order: seq<string>, indeg: map<string, int>, q: seq<string>)
  {
    && indeg.Keys == ids
    && (forall s :: s in ids ==> s in out && out[s] == KnownTargets(edges, ids, s))
    && Elements(order) <= ids && Distinct(order)
    && (forall x :: x in ids ==> indeg[x] == Pending(edges, ids, Elements(order), x))
    && (forall x :: x in Elements(order) ==> Pending(edges, ids, Elements(order), x) == 0)
    && Sorted(q) && Distinct(q) && Elements(q) == Ready(edges, ids, Elements(order))
    && KahnFrom(edges, ids, order) == Kahn(edges, ids)
  }

  /** One round of the outer loop: shift the queue's head into the order and release its targets. */
  method EmitHead(edges: seq<Edge>, ids: set<string>, out: map<string, seq<string>>,
                  order0: seq<string>, indeg0: map<string, int>, q0: seq<string>)
    returns (order: seq<string>, indeg: map<string, int>, q: seq<string>)
    requires q0 != []
    requires LoopState(edges, ids, out, order0, indeg0, q0)
    ensures LoopState(edges, ids, out, order, indeg, q)
    ensures order == order0 + [q0[0]] && q0[0] !in order0
    ensures |ids - Elements(order)| < |ids - Elements(order0)|
  {
    var id := q0[0];
    ShiftLeast(edges, ids, order0, q0);
    indeg, q := Release(edges, ids, Elements(order0), id, out[id], indeg0, q0[1..]);
    order := order0 + [id];
    EmitStep(edges, ids, out, order0, id, indeg, q);
    EmitShrinks(ids, order0, id);
  }

  /** Appending an unemitted listed id leaves fewer ids to emit. */
  lemma EmitShrinks(ids: set<string>, order0: seq<string>, id: string)
    requires id in ids && id !in order0
    ensures |ids - Elements(order0 + [id])| < |ids - Elements(order0)|
  {
    assert ids - Elements(order0 + [id]) == (ids - Elements(order0)) - {id};
  }

  /** What one round establishes, given what the inner loop guarantees. */
  lemma EmitStep(edges: seq<Edge>, ids: set<string>, out: map<string, seq<string>>,
                 order0: seq<string>, id: string, indeg: map<string, int>, q: seq<string>)
    requires Elements(order0) <= ids && Distinct(order0) && id in ids && id !in order0
    requires forall s :: s in ids ==> s in out && out[s] == KnownTargets(edges, ids, s)
    requires forall x :: x in Elements(order0) + {id} ==> Pending(edges, ids, Elements(order0), x) == 0
    requires KahnFrom(edges, ids, order0 + [id]) == Kahn(edges, ids)
    requires indeg.Keys == ids
    requires forall x :: x in ids ==> indeg[x] == Pending(edges, ids, Elements(order0) + {id}, x)
    requires Sorted(q) && Distinct(q) && Elements(q) == Ready(edges, ids, Elements(order0) + {id})
    ensures LoopState(edges, ids, out, order0 + [id], indeg, q)
  {
    assert Elements(order0 + [id]) == Elements(order0) + {id};
    DistinctSnoc(order0, id);
    EmitSettled(edges, ids, Elements(order0), id);
  }

  /** The emitted ids, the new one included, keep nothing outstanding. */
  lemma EmitSettled(edges: seq<Edge>, ids: set<string>, done: set<string>, id: string)
    requires id !in done
    requires forall x :: x in done + {id} ==> Pending(edges, ids, done, x) == 0
    ensures forall x :: x in done + {id} ==> Pending(edges, ids, done + {id}, x) == 0
  {
    forall x | x in done + {id}
      ensures Pending(edges, ids, done + {id}, x) == 0
    {
      PendingRemove(edges, ids, done, id, x);
    }
  }

  /**
   * The counting pass: each listed id's in-degree over the edges joining
   * listed ids, and the targets of those edges by source.
   */
  method CountInDegrees(ids: set<string>, edges: seq<Edge>) returns (indeg: map<string, int>, out: map<string, seq<string>>)
    ensures indeg.Keys == ids && out.Keys == ids
    ensures forall x :: x in ids ==> indeg[x] == Pending(edges, ids, {}, x)
    ensures forall x :: x in ids ==>
      (indeg[x] == 0 <==> forall e :: e in edges && Inside(e, ids) ==> e.target != x)
    ensures forall s :: s in ids ==> out[s] == KnownTargets(edges, ids, s)
  {
    indeg := map x | x in ids :: 0;
    out := map x | x in ids :: [];
    var j := 0;
    forall s | s in ids
      ensures out[s] == KnownTargets(edges[..0], ids, s) && indeg[s] == Pending(edges[..0], ids, {}, s)
    {
      assert edges[..0] == [];
    }
    while j < |edges|
      invariant 0 <= j <= |edges|
      invariant indeg.Keys == ids && out.Keys == ids
      invariant forall x :: x in ids ==> indeg[x] == Pending(edges[..j], ids, {}, x)
      invariant forall s :: s in ids ==> out[s] == KnownTargets(edges[..j], ids, s)
    {
      indeg, out := CountEdge(ids, edges, j, indeg, out);
      j := j + 1;
    }
    assert edges[..|edges|] == edges;
    forall x | x in ids
      ensures indeg[x] == 0 <==> forall e :: e in edges && Inside(e, ids) ==> e.target != x
    {
      PendingZero(edges, ids, {}, x);
    }
  }

  /** One step of the counting pass: the edge at `j`, if it joins listed ids, is recorded. */
  method CountEdge(ids: set<string>, edges: seq<Edge>, j: int, indeg0: map<string, int>, out0: map<string, seq<string>>)
    returns (indeg: map<string, int>, out: map<string, seq<string>>)
    requires 0 <= j < |edges|
    requires indeg0.Keys == ids && out0.Keys == ids
    requires forall x :: x in ids ==> indeg0[x] == Pending(edges[..j], ids, {}, x)
    requires forall s :: s in ids ==> out0[s] == KnownTargets(edges[..j], ids, s)
    ensures indeg.Keys == ids && out.Keys == ids
    ensures forall x :: x in ids ==> indeg[x] == Pending(edges[..j + 1], ids, {}, x)
    ensures forall s :: s in ids ==> out[s] == KnownTargets(edges[..j + 1], ids, s)
  {
    var e := edges[j];
    ghost var post := edges[..j + 1];
    assert post[..|post| - 1] == edges[..j] && post[|post| - 1] == e;
    indeg, out := indeg0, out0;
    if e.source in indeg && e.target in indeg {
      out := out[e.source := out[e.source] + [e.target]];
      indeg := indeg[e.target := indeg[e.target] + 1];
    }
    forall s | s in ids
      ensures out[s] == KnownTargets(post, ids, s)
      ensures indeg[s] == Pending(post, ids, {}, s)
    {
      if Inside(e, ids) && e.source == s {
        assert KnownTargets(post, ids, s) == out0[s] + [e.target];
      } else {
        assert KnownTargets(post, ids, s) == out0[s] + [];
        assert out0[s] + [] == out0[s];
      }
    }
  }

  /**
   * The inner loop: lower the in-degree of each target of the emitted `id`,
   * queueing (and re-sorting) each target whose in-degree reaches zero.
   */
  method Release(edges: seq<Edge>, ids: set<string>, ghost done: set<string>, id: string, ts: seq<string>,
                 indeg0: map<string, int>, q0: seq<string>) returns (indeg: map<string, int>, q: seq<string>)
    requires id in ids && id !in done && done <= ids
    requires ts == KnownTargets(edges, ids, id)
    requires indeg0.Keys == ids
    requires forall x :: x in ids ==> indeg0[x] == Pending(edges, ids, done, x)
    requires forall x :: x in done + {id} ==> Pending(edges, ids, done, x) == 0
    requires Sorted(q0) && Distinct(q0)
    requires forall x :: x in q0 <==> x in Ready(edges, ids, done) && x != id
    ensures indeg.Keys == ids
    ensures forall x :: x in ids ==> indeg[x] == Pending(edges, ids, done + {id}, x)
    ensures Sorted(q) && Distinct(q) && Elements(q) == Ready(edges, ids, done + {id})
  {
    PendingAfter(edges, ids, done, id);
    KnownTargetsListed(edges, ids, id);
    indeg, q := indeg0, q0;
    ReleaseStart(edges, ids, done, id, ts, indeg, q);
    var k := 0;
    while k < |ts|
      invariant 0 <= k <= |ts|
      invariant indeg.Keys == ids
      invariant forall x :: x in ids ==> indeg[x] == Pending(edges, ids, done, x) - multiset(ts[..k])[x]
      invariant Sorted(q) && Distinct(q)
      invariant forall x :: x in q ==> x in ids
      invariant forall x :: x in ids ==> (x in q <==> x !in done + {id} && indeg[x] == 0)
    {
      indeg, q := LowerTarget(edges, ids, done, id, ts, k, indeg, q);
      k := k + 1;
    }
    ReleaseDone(edges, ids, done, id, ts, indeg, q);
  }

  /** Emitting `id` settles, for each `x`, one outstanding edge per listing of `x` among the targets of `id`. */
  lemma PendingAfter(edges: seq<Edge>, ids: set<string>, done: set<string>, id: string)
    requires id !in done
    ensures forall x :: Pending(edges, ids, done + {id}, x) + multiset(KnownTargets(edges, ids, id))[x] == Pending(edges, ids, done, x)
  {
    forall x
      ensures Pending(edges, ids, done + {id}, x) + multiset(KnownTargets(edges, ids, id))[x] == Pending(edges, ids, done, x)
    {
      PendingRemove(edges, ids, done, id, x);
    }
  }

  /** Before the inner loop the counts are the in-degrees over `done` and the queue the other ready ids. */
  lemma ReleaseStart(edges: seq<Edge>, ids: set<string>, done: set<string>, id: string, ts: seq<string>,
                     indeg: map<string, int>, q: seq<string>)
    requires indeg.Keys == ids
    requires forall x :: x in ids ==> indeg[x] == Pending(edges, ids, done, x)
    requires forall x :: x in done + {id} ==> Pending(edges, ids, done, x) == 0
    requires forall x :: x in q <==> x in Ready(edges, ids, done) && x != id
    ensures forall x :: x in ids ==> indeg[x] == Pending(edges, ids, done, x) - multiset(ts[..0])[x]
    ensures forall x :: x in q ==> x in ids
    ensures forall x :: x in ids ==> (x in q <==> x !in done + {id} && indeg[x] == 0)
  {
    assert ts[..0] == [];
  }

  /** After the inner loop the counts are the in-degrees over `done + {id}` and the queue is the ready set. */
  lemma ReleaseDone(edges: seq<Edge>, ids: set<string>, done: set<string>, id: string, ts: seq<string>,
                    indeg: map<string, int>, q: seq<string>)
    requires forall x :: Pending(edges, ids, done + {id}, x) + multiset(ts)[x] == Pending(edges, ids, done, x)
    requires indeg.Keys == ids
    requires forall x :: x in ids ==> indeg[x] == Pending(edges, ids, done, x) - multiset(ts[..|ts|])[x]
    requires forall x :: x in q ==> x in ids
    requires forall x :: x in ids ==> (x in q <==> x !in done + {id} && indeg[x] == 0)
    ensures forall x :: x in ids ==> indeg[x] == Pending(edges, ids, done + {id}, x)
    ensures Elements(q) == Ready(edges, ids, done + {id})
  {
    assert ts[..|ts|] == ts;
  }

  /**
   * One step of the inner loop: the in-degree of the target at `k` drops by
   * one, and the target joins the queue if it reaches zero.
   */
  method LowerTarget(edges: seq<Edge>, ids: set<string>, ghost done: set<string>, id: string, ts: seq<string>, k: int,
                     indeg0: map<string, int>, q0: seq<string>) returns (indeg: map<string, int>, q: seq<string>)
    requires 0 <= k < |ts|
    requires forall x :: x in ts ==> x in ids
    requires forall x :: Pending(edges, ids, done + {id}, x) + multiset(ts)[x] == Pending(edges, ids, done, x)
    requires forall x :: x in done + {id} ==> Pending(edges, ids, done, x) == 0
    requires indeg0.Keys == ids
    requires forall x :: x in ids ==> indeg0[x] == Pending(edges, ids, done, x) - multiset(ts[..k])[x]
    requires Sorted(q0) && Distinct(q0)
    requires forall x :: x in q0 ==> x in ids
    requires forall x :: x in ids ==> (x in q0 <==> x !in done + {id} && indeg0[x] == 0)
    ensures indeg.Keys == ids
    ensures forall x :: x in ids ==> indeg[x] == Pending(edges, ids, done, x) - multiset(ts[..k + 1])[x]
    ensures Sorted(q) && Distinct(q)
    ensures forall x :: x in q ==> x in ids
    ensures forall x :: x in ids ==> (x in q <==> x !in done + {id} && indeg[x] == 0)
  {
    var t := ts[k];
    assert ts[..k + 1] == ts[..k] + [t];
    assert ts == ts[..k + 1] + ts[k + 1..];
    assert multiset(ts)[t] >= multiset(ts[..k + 1])[t] == multiset(ts[..k])[t] + 1;
    assert t in ids;
    indeg := indeg0[t := indeg0[t] - 1];
    q := q0;
    if indeg[t] == 0 {
      EnqueueNew(q, t);
      q := Sort(q + [t]);
    }
  }

  /** `([, d]) => d === 0` over the counted in-degrees. */
  function ZeroIn(indeg: map<string, int>): string -> bool
  {
    (x: string) => x in indeg && indeg[x] == 0
  }

  /** Before the first round: nothing emitted, and the queue holds the ids with no listed predecessor. */
  lemma InitialLoopState(nodeIds: seq<string>, edges: seq<Edge>, out: map<string, seq<string>>, indeg: map<string, int>)
    requires indeg.Keys == Elements(nodeIds) && out.Keys == Elements(nodeIds)
    requires forall x :: x in Elements(nodeIds) ==> indeg[x] == Pending(edges, Elements(nodeIds), {}, x)
    requires forall s :: s in Elements(nodeIds) ==> out[s] == KnownTargets(edges, Elements(nodeIds), s)
    ensures LoopState(edges, Elements(nodeIds), out, [], indeg, Sort(Filter(Dedup(nodeIds), ZeroIn(indeg))))
  {
    var ids := Elements(nodeIds);
    var q := Sort(Filter(Dedup(nodeIds), ZeroIn(indeg)));
    assert Elements<string>([]) == {};
    InitialQueueShape(Dedup(nodeIds), indeg);
    InitialQueueReady(nodeIds, edges, indeg);
    assert Sorted(q) && Distinct(q) && Elements(q) == Ready(edges, ids, Elements([]));
    assert forall x :: x in Elements<string>([]) ==> Pending(edges, ids, Elements([]), x) == 0;
    assert forall x :: x in ids ==> indeg[x] == Pending(edges, ids, Elements([]), x);
    assert KahnFrom(edges, ids, []) == Kahn(edges, ids);
  }

  /** The first queue is ascending and free of repeats. */
  lemma InitialQueueShape(keys: seq<string>, indeg: map<string, int>)
    requires Distinct(keys)
    ensures Sorted(Sort(Filter(keys, ZeroIn(indeg)))) && Distinct(Sort(Filter(keys, ZeroIn(indeg))))
  {
    FilterDistinct(keys, ZeroIn(indeg));
    SortDistinct(Filter(keys, ZeroIn(indeg)));
  }

  /** The first queue holds exactly the ids with no listed predecessor. */
  lemma InitialQueueReady(nodeIds: seq<string>, edges: seq<Edge>, indeg: map<string, int>)
    requires indeg.Keys == Elements(nodeIds)
    requires forall x :: x in Elements(nodeIds) ==> indeg[x] == Pending(edges, Elements(nodeIds), {}, x)
    ensures Elements(Sort(Filter(Dedup(nodeIds), ZeroIn(indeg)))) == Ready(edges, Elements(nodeIds), Elements([]))
  {
    var f := Filter(Dedup(nodeIds), ZeroIn(indeg));
    assert Elements<string>([]) == {};
    forall x
      ensures x in Elements(Sort(f)) <==> x in Ready(edges, Elements(nodeIds), Elements([]))
    {
      assert x in Sort(f) <==> x in multiset(Sort(f));
      assert x in f <==> x in Elements(nodeIds) && ZeroIn(indeg)(x);
    }
  }

  /** Shifting the head of the queue emits the least ready id, as the reference does. */
  lemma ShiftLeast(edges: seq<Edge>, ids: set<string>, order: seq<string>, q: seq<string>)
    requires Elements(order) <= ids
    requires Sorted(q) && Distinct(q) && q != []
    requires Elements(q) == Ready(edges, ids, Elements(order))
    ensures q[0] in ids && q[0] !in order && Pending(edges, ids, Elements(order), q[0]) == 0
    ensures KahnFrom(edges, ids, order + [q[0]]) == KahnFrom(edges, ids, order)
    ensures Sorted(q[1..]) && Distinct(q[1..])
    ensures forall x :: x in q[1..] <==> x in q && x != q[0]
  {
    SortedHeadLeast(q);
    LeastUnique(q[0], Ready(edges, ids, Elements(order)));
    assert q == [q[0]] + q[1..];
  }

  /** A new id pushed onto the queue and re-sorted leaves it ascending and without repeats. */
  lemma EnqueueNew(q: seq<string>, t: string)
    requires Distinct(q) && t !in q
    ensures Sorted(Sort(q + [t])) && Distinct(Sort(q + [t]))
    ensures forall x :: x in Sort(q + [t]) <==> x in q || x == t
  {
    forall x
      ensures multiset(q + [t])[x] <= 1
    {
      DistinctCount(q, x);
    }
    CountedDistinct(q + [t]);
    SortDistinct(q + [t]);
    forall x
      ensures x in Sort(q + [t]) <==> x in q || x == t
    {
      assert x in Sort(q + [t]) <==> x in multiset(q + [t]);
    }
  }

  /** Once nothing is ready, the order reached is the reference's. */
  lemma KahnDone(edges: seq<Edge>, ids: set<string>, order: seq<string>)
    requires Elements(order) <= ids
    requires Ready(edges, ids, Elements(order)) == {}
    requires KahnFrom(edges, ids, order) == Kahn(edges, ids)
    ensures order == Kahn(edges, ids)
  {
  }

  /** An order without repeats drawn from `nodeIds` and as long as it covers all of it. */
  lemma AllEmitted(nodeIds: seq<string>, order: seq<string>)
    requires Distinct(order) && Elements(order) <= Elements(nodeIds)
    requires |order| == |nodeIds|
    ensures Elements(nodeIds) <= Elements(order)
  {
    DistinctCard(order);
    CardAtMostLength(nodeIds);
    SubsetCard(Elements(order), Elements(nodeIds));
  }
}

=== FILE: wrappers.dfy ===
/** The absent-or-present value JavaScript expresses with `undefined`/`null`. */
module Wrappers {

  datatype Option<+T> = None | Some(value: T) {

    /** The value, or `default` when absent (JavaScript's `x ?? default`). */
    function GetOr(default: T): T
    {
      match this
      case Some(v) => v
      case None => default
    }
  }
}
